=== FILE: README.md ===
# Pegasus metadata tools in Dafny

This project models the pure logic of a set of Python tools that manage
`metadata.pegasus.txt` files, the collection files of the Pegasus game
front-end. A collection file has a header followed by `game:` blocks made of
`key: value` lines and two-space indented continuation lines.

The model covers:

- the line parser (`parse_pegasus_metadata`), as a fold of one step function
  over an explicit state record;
- the canonical writer (`dump_pegasus_metadata`), as a function from a header
  and games to the written lines;
- the closure check (`verify_closure`): parse, write, parse again, then
  compare after normalising;
- the pieces built around that core:
  - the JSON database export and import;
  - the metadata editor's index and upsert;
  - the core planner's priority chain;
  - the hack classifier;
  - `slugify`;
  - the two older lenient readers that feed the ES-DE and Daijisho
    exporters;
  - the string and path functions of the PS2 rename pipeline;
  - the byte accounting of the ROM hasher.

Python dictionaries with a fixed key vocabulary become records whose fields
are `Option`s (`Records.Header`, `Records.Game`). A value that Python accepts
either as a string or as a list becomes `TextOrList`. A text file becomes its
sequence of lines. Every exception the code can raise on some input is an
`Err` of a `Result`.

The central results are:

- `RoundTrip.ParseDump` and `RoundTrip.ParseTextDump`: parsing what the
  writer emits gives back the header and the games. This holds for headers
  with only a collection, a sort key and ignore patterns, and for games with
  a name, roms, a sort key, a developer and a one-line description, all
  values clean.
- The counterexample lemmas in `RoundTripBreaks` state what comes back for
  particular values just outside that fragment:
  - extension blocks are misread;
  - header launch blocks come back with a doubled `launch:` prefix, or are
    lost at the end of the input;
  - per-game launch lines are lost;
  - a multi-line description comes back empty; its lines are ignored when
    the game has at most one rom, and are appended to the roms when it has
    two or more, since the `files:` block is still open;
  - untitled games are dropped.
- `Closure.VerifyClosureOfCanonical` shows that every file the writer
  emits for a fragment header and fragment games passes the closure check.
  `Closure.CanonicalLaunchFailsClosure` shows that the check fails on the
  file written for a header holding nothing but a clean one-line launch
  block, followed by at least one fragment game.

Where the code departs from the usual description of the format, the model
follows the code:

- a blank line, like any unindented line, ends a launch block;
- `game:` sets the key `game`;
- `file:` replaces the rom list instead of appending to it;
- `description:` is read from its key line only;
- the header's closing blank line is written only after a non-empty
  extension list;
- the writer emits no asset lines and never writes `launch_override`.

## Model

| member | source | states |
|---|---|---|
| MetadataScanner.Finalize | Tools/metadata_scanner.py:84-87 | closing a game that has a `file` but no `roms` sets `roms` to the one-item list of that file; any other game is closed unchanged; no other key is touched |
| MetadataScanner.ExtensionItems | Tools/metadata_scanner.py:106-110 | the comma items of an `extension:` line are at least one, each stripped and kept even when empty |
| MetadataScanner.CoreOfLine | Tools/metadata_scanner.py:163-165 | a launch line yields a core exactly when it contains `-e LIBRETRO` |
| MetadataScanner.LastSome | Tools/metadata_scanner.py:162-165 | the scan that overwrites on every marked line yields nothing exactly when no line is marked |
| MetadataScanner.LastSomeIsLast | Tools/metadata_scanner.py:162-165 | the value kept is the one of the last marked line |
| MetadataScanner.CoreFromLaunch | Tools/metadata_scanner.py:158-165 | a launch override yields no core exactly when none of its `\n`-separated lines holds the marker |
| MetadataScanner.CoreFromLastMarkedLine | Tools/metadata_scanner.py:158-165 | the core of a launch override is the one named by its last line holding `-e LIBRETRO` |
| MetadataScanner.WithCore | Tools/metadata_scanner.py:158-165 | the post-pass changes only `core_override`; a game whose truthy `launch_override` has a line containing `-e LIBRETRO` gets `core_override` set to that block's core (the core of its last such line, by `CoreFromLastMarkedLine`); any other game is returned unchanged |
| MetadataScanner.WithCores | Tools/metadata_scanner.py:158-165 | the post-pass keeps the number and order of the games and applies to each of them |
| RoundTrip.StepGame | Tools/metadata_scanner.py:82-91 | a `game: v` line closes the open game into the list and opens a game whose only key is `game` = `v` |
| RoundTrip.StepCollection | Tools/metadata_scanner.py:97-98 | before the first game, `collection: v` sets the collection to `v` and nothing else |
| RoundTrip.StepHeaderSortBy | Tools/metadata_scanner.py:112-113 | before the first game, `sort-by: v` sets `default_sort_by` to `v` |
| RoundTrip.StepIgnoreFiles | Tools/metadata_scanner.py:100-101 | `ignore-files:` resets the ignore patterns to the empty list |
| RoundTrip.StepIgnoreLine | Tools/metadata_scanner.py:103-104 | once `ignore-files:` was seen, an indented header line appends its stripped text to the patterns |
| RoundTrip.StepFile | Tools/metadata_scanner.py:125-128 | `file: v` sets `file` to `v` and replaces any earlier rom list by `[v]` |
| RoundTrip.StepFiles | Tools/metadata_scanner.py:130-132 | `files:` opens the files block and resets the rom list to empty |
| RoundTrip.StepRomLine | Tools/metadata_scanner.py:134-135 | inside a files block, an indented line appends its stripped text to the roms |
| RoundTrip.StepGameSortBy | Tools/metadata_scanner.py:137-138 | in a game, `sort-by: v` sets the game's `sort_by` |
| RoundTrip.StepDeveloper | Tools/metadata_scanner.py:140-141 | in a game, `developer: v` sets `developer` |
| RoundTrip.StepDescription | Tools/metadata_scanner.py:143-144 | in a game, `description: v` sets `description` from the key line alone |
| RoundTrip.StepBlank | Tools/metadata_scanner.py:74-77 | outside launch blocks, a blank line only closes the files block |
| RoundTrip.RunAppend | Tools/metadata_scanner.py:44-47 | the parser reads two pieces of input in sequence: the second piece is read from the state the first one left |
| RoundTrip.RunIgnoreItems | Tools/metadata_scanner.py:100-104 | the indented lines after `ignore-files:` add their patterns in input order |
| RoundTrip.RunRomItems | Tools/metadata_scanner.py:130-135 | the indented lines of a files block add their roms in input order |
| RoundTrip.RunHeader | Tools/metadata_writer.py:6-32 | reading back the header lines written for a fragment header restores that header, with no game open |
| RoundTrip.RunGame | Tools/metadata_writer.py:54-110 | reading back the block written for a fragment game closes the previous game and opens exactly that game, with no block left open |
| RoundTrip.RunGames | Tools/metadata_writer.py:120-121 | reading back the blocks of fragment games appends those games, in order, and leaves the header alone |
| RoundTrip.FinalizeFragment | Tools/metadata_scanner.py:151-155 | closing a fragment game leaves it unchanged |
| RoundTrip.WithCoresFragment | Tools/metadata_scanner.py:158-165 | the core post-pass leaves fragment games unchanged |
| RoundTrip.ParseDump | Tools/metadata_writer.py:113-121 | parsing the lines written for a fragment header and fragment games gives back that header and those games, in order |
| RoundTrip.ParseTextDump | Tools/metadata_writer.py:113-121 | the same round trip through the file text: the lines are joined with `\n` terminators and read back by text-mode line iteration |
| RoundTrip.GamesNoBreaks | Tools/metadata_writer.py:54-110 | no written line of fragment games contains a character that would split it when the file is read back |
| RoundTripBreaks.UntitledGameDropped | Tools/metadata_writer.py:55-58 | a game with neither `game` nor `title` is written as nothing, so it is missing after the round trip |
| RoundTripBreaks.GameLaunchDropped | Tools/metadata_writer.py:93-102 | the writer ignores `launch`, `launch_override` and `core_override`, the keys where the parser puts a game's launch lines, so the round trip loses them |
| RoundTripBreaks.CloseLaunch | Tools/metadata_scanner.py:52-59 | an unindented line ends an open global launch block, stores the buffer joined by `\n` as `launch_block`, and is then read as usual |
| RoundTripBreaks.LaunchBlockDoubled | Tools/metadata_scanner.py:115-118 | a one-line header `launch_block` `b` is read back as `launch: b`, because the parser keeps the key line in the block; `launch` gets `b` |
| RoundTripBreaks.LaunchBlockLostAtEnd | Tools/metadata_scanner.py:146-155 | a launch block still open at the end of the input is never stored |
| RoundTripBreaks.ExtensionBareItems | Tools/metadata_scanner.py:106-110 | a bare `extension:` line gives the one-item list `[""]` |
| RoundTripBreaks.RunStrayHeaderLines | Tools/metadata_scanner.py:103 | before the first game and with no `ignore-files:` seen, indented lines change nothing |
| RoundTripBreaks.ExtensionsBreak | Tools/metadata_writer.py:45-48 | a header's extension list, written in block form, comes back as `[""]`, with the items either joining the ignore patterns or dropped |
| RoundTripBreaks.RunStrayGameLines | Tools/metadata_scanner.py:134 | in a game, outside a files block, indented lines change nothing |
| RoundTripBreaks.DescriptionBlockLost | Tools/metadata_writer.py:83-91 | for a game with at most one rom, a multi-line description is written as a block; its key line reads back as the empty description and its indented lines are ignored |
| RoundTripBreaks.DescriptionBlockIntoRoms | Tools/metadata_scanner.py:130-135 | for a game with two or more roms, the `files:` block is still open when the description block starts, since only a blank line closes it; the description reads back empty and its lines are appended to the roms |
| MetadataWriter.Indented | Tools/metadata_writer.py:31-32 | every item becomes one line, prefixed with two spaces |
| MetadataWriter.Block | Tools/metadata_writer.py:17-25 | a value is written as one `key: line` exactly when `splitlines` finds one line in it; otherwise as `key:` followed by every line indented |
| MetadataWriter.Field | Tools/metadata_writer.py:8-14 | a field is written as exactly one line `prefix + value` when truthy, and as nothing otherwise |
| MetadataWriter.BlockField | Tools/metadata_writer.py:83-91 | a possibly multi-line field is written exactly when it is truthy |
| MetadataWriter.ListField | Tools/metadata_writer.py:28-32 | a non-empty list is written as its key line followed by one indented line per item; an empty list is not written |
| MetadataWriter.ExtensionList | Tools/metadata_writer.py:35-43 | a comma string is cut into stripped, non-empty, comma-free parts; a list is written as it is; an absent value is empty |
| MetadataWriter.HeaderLines | Tools/metadata_writer.py:6-51 | the header ends in a blank line exactly when the extension list is non-empty; no other line is blank |
| MetadataWriter.RomLines | Tools/metadata_writer.py:62-72 | one rom is written as `file: r`; two or more as `files:` followed by each rom in order; none as nothing |
| MetadataWriter.GameLines | Tools/metadata_writer.py:54-110 | a game without a truthy name is written as nothing; otherwise the block opens with `game: name` and closes with its only blank line |
| MetadataWriter.GamesLinesConcat | Tools/metadata_writer.py:119-121 | the games are written one block after another: writing two lists of games is writing each in turn |
| MetadataWriter.Dump | Tools/metadata_writer.py:113-121 | the file opens with the header's lines, and is exactly those lines when there are no games; what the written file means is the round trip `RoundTrip.ParseDump` |
| Records.CommaList | Tools/base.py:44-50 | the parts read from a comma string are non-empty, stripped and free of commas |
| TextCleaning.Remove | Tools/base.py:19-23 | deleting a character class leaves none of it, adds no character, and changes nothing in a text that has none |
| TextCleaning.ReplaceCRLF | Tools/base.py:26 | rewriting line endings adds no character and leaves a text without `\r` unchanged |
| TextCleaning.CleanText | Tools/base.py:12-30 | the cleaned text has no `\r`, zero-width character or U+2028/U+2029, no whitespace at either end, and no line ending in whitespace |
| TextCleaning.CleanTextFixed | Tools/base.py:12-30 | cleaning is the identity on texts that already satisfy those properties and that NFKC leaves alone, so it is idempotent |
| StringOrder.SortedSet | Tools/base.py:100 | `sorted(set(xs))` is strictly increasing and holds exactly the strings of `xs` |
| StringOrder.SortedSetOrderFree | Tools/base.py:100 | `sorted(set(xs))` depends only on which strings occur in `xs`, not on their order or multiplicity |
| Normalize.Unindent | Tools/base.py:59-64 | the lines of the result are those of the input with their indentation removed |
| Normalize.NormalizeHeader | Tools/base.py:33-66 | a missing extension or ignore list becomes `[]`; a comma string of extensions becomes its stripped non-empty parts; a list is kept; a truthy launch block is unindented; the other keys are unchanged |
| Normalize.NormalizeHeaderEquates | Tools/base.py:40-57 | an absent list and an empty one normalise alike, and so do a comma string of extensions and the list of its parts |
| Normalize.NormalizeRoms | Tools/base.py:79-100 | the normalised roms are strictly sorted, free of `""`, and are exactly the non-empty cleaned roms of the input |
| Normalize.CleanRomsMembers | Tools/base.py:94-99 | a string is a cleaned rom exactly when it is non-empty and some rom cleans to it |
| Normalize.NormalizeGame | Tools/base.py:69-121 | only the listed keys appear; `game`, `title`, `sort_by`, `developer`, `year` and `core_override` are kept exactly when truthy; `roms` is always present and normalised; a truthy description is cleaned; a truthy launch block is unindented |
| Normalize.NormalizeGameRomOrderFree | Tools/base.py:79-100 | two rom lists with the same members give the same normalised game |
| Normalize.GameKey | Tools/base.py:124-132 | the key is the first truthy name among `game` and `title`, else `""`, paired with the first rom; a string `roms` is its own first rom; no roms gives `""` |
| Normalize.GameKeyNormalized | Tools/base.py:124-132 | normalising keeps the name part of the key and turns the rom part into the least cleaned rom |
| GameSort.InsertSorted | Tools/base.py:173-174 | inserting into a key-sorted list keeps it key-sorted |
| GameSort.SortWithKey | Tools/base.py:173-174 | the sort is stable: elements that share a key keep their input order |
| GameSort.SortedEqualIff | Tools/base.py:173-176 | two lists sort to the same list exactly when, key by key, they hold the same elements in the same order |
| GameSort.TiesKeepInputOrder | Tools/base.py:173-176 | two different elements with one key, listed in both orders, sort differently, so the comparison is not order-free when keys collide |
| GameSort.DistinctKeysOrderFree | Tools/base.py:173-176 | when no two elements share a key, any rearrangement of the input sorts to the same list |
| Closure.CloseOver | Tools/base.py:159-191 | steps 2 to 4 of the check: a parse error of the rewritten text is passed on; otherwise the result is true exactly when the normalised headers agree and the key-sorted normalised games agree |
| Closure.VerifyClosure | Tools/base.py:135-211 | a parse error of the input is passed on; otherwise the check succeeds exactly when the parsed reading passes steps 2 to 4 |
| Closure.SameReadingByKey | Tools/base.py:164-191 | two readings compare equal exactly when their headers normalise alike and, key by key, their normalised games agree in order |
| Closure.GameOrderIgnoredWhenKeysDistinct | Tools/base.py:169-176 | when the normalised games have distinct keys, their order does not affect the comparison |
| Closure.CloseOverFragment | Tools/base.py:159-191 | a first reading from the round-trip fragment passes the check |
| Closure.VerifyClosureOfCanonical | Tools/base.py:135-211 | every file the writer wrote from fragment values passes the check |
| Closure.CanonicalLaunchFailsClosure | Tools/base.py:164-167 | the file written for a header holding only a clean one-line launch block, followed by fragment games, fails the check |
| MetadataEditor.AddRoms | Tools/metadata_editor.py:13-15 | every rom of the game becomes a key mapped to that game, and the other keys keep their index |
| MetadataEditor.AddTitle | Tools/metadata_editor.py:17-19 | a truthy name is added only when it is not a key yet |
| MetadataEditor.IndexGames | Tools/metadata_editor.py:10-20 | every indexed value is a valid game index |
| MetadataEditor.IndexKeys | Tools/metadata_editor.py:10-20 | the keys are exactly the roms and the truthy names of the games |
| MetadataEditor.IndexRomLast | Tools/metadata_editor.py:11-15 | a rom maps to the last game that lists it |
| MetadataEditor.IndexTitleFirst | Tools/metadata_editor.py:17-19 | a name that no game lists as a rom maps to the first game with that name |
| MetadataEditor.AddRom | Tools/metadata_editor.py:42-45 | a falsy rom value becomes `[rom_path]`; a list gains `rom_path` only when absent; a string that does not contain `rom_path` makes Python raise, an error here |
| MetadataEditor.SetKey | Tools/metadata_editor.py:58-61 | `g[k] = v` sets exactly the field named `k`, for each of the fifteen known keys, and leaves `extra` alone; an unknown key sets only its `extra` entry |
| MetadataEditor.ApplyExtraSkipsNone | Tools/metadata_editor.py:58-61 | extra fields whose values are all `None` change nothing |
| MetadataEditor.ApplyExtraLastWins | Tools/metadata_editor.py:58-61 | for an unknown key, the last extra value written wins |
| MetadataEditor.UpsertGame | Tools/metadata_editor.py:23-61 | an indexed `rom_path` updates its game in place and leaves every other game untouched; an unindexed one appends exactly one new game built from the arguments |
| MetadataEditor.UpsertExisting | Tools/metadata_editor.py:40-56 | the matched game lists `rom_path` once, gets each argument that is not `None`, and is otherwise unchanged |
| MetadataEditor.UpsertNew | Tools/metadata_editor.py:46-56 | a new game is appended after the existing ones, named by the title when given and otherwise by the rom path, listing just that rom |
| MetadataEditor.UpsertEmptyTitleDropped | Tools/metadata_editor.py:47-52 | an empty title names the new game `""`, and the writer then drops that game |
| MetadataEditor.UpsertIndexed | Tools/metadata_editor.py:23-61 | after an upsert, `rom_path` is indexed to a game that lists it |
| MetadataEditor.UpsertTwiceAppendsOnce | Tools/metadata_editor.py:40-48 | upserting the same rom path twice appends at most one game |
| JsonDb.BuildGameJson | Tools/export_to_json.py:17-48 | `game`, `file` and `roms` are always present, `roms` defaulting to `[]`; `sort_by` is kept unless `None`; `developer` and `description` are kept exactly when truthy; `assets` is kept; `launch_override` is present exactly when the game's launch block is truthy and differs after `strip` from a truthy header block; `core_override` is present only together with it, and only when extraction gives a truthy core |
| JsonDb.GamesJson | Tools/export_to_json.py:76 | the exported games correspond one to one with the parsed games, in order |
| JsonDb.DefaultCore | Tools/export_to_json.py:79-84 | `default_core` is present exactly when the header launch block is truthy and extraction from it is truthy |
| JsonDb.ExportPayload | Tools/export_to_json.py:67-84 | the collection falls back to the platform name; `ignore_files` and `extensions` default to `[]`; the sort key and the launch block are copied |
| JsonDb.ImportHeader | Tools/json_to_metadata.py:33-39 | the collection is `collection or platform_name or key`; the sort key and launch block are copied verbatim; falsy extension and ignore lists become `[]` |
| JsonDb.JsonToMetadata | Tools/json_to_metadata.py:41-47 | the output path is `output_root/key/metadata.pegasus.txt`, and the payload's games are written unchanged and in order |
| JsonDb.ExportedGameLines | Tools/export_to_json.py:17-48 | an exported game is written like the original once its `title` and per-game `launch_block` are dropped |
| JsonDb.JsonRoundTrip | Tools/json_to_metadata.py:33-47 | exporting a parsed file and rebuilding the metadata writes what writing it directly would, except for the filled-in collection and the dropped `title` and per-game `launch_block` |
| CorePlanner.Lookup | Tools/core_planner.py:46 | a table lookup finds a value exactly for the keys in the table |
| CorePlanner.FirstTruthy | Tools/core_planner.py:35-60 | the chain yields nothing exactly when every source is falsy; otherwise it yields the first truthy source |
| CorePlanner.ChooseCore | Tools/core_planner.py:22-60 | a truthy `core_override` wins; then a truthy `default_core`; then the platform table; then the table of lower-cased extensions; the result is `None` exactly when all four miss |
| CorePlanner.ChooseCoreFirstTruthy | Tools/core_planner.py:22-60 | the choice is the first truthy source in priority order, and a chosen core is never the empty name |
| CorePlanner.UpperExtensionFound | Tools/core_planner.py:14-19 | a file ending in `.CHD` finds the core listed for `.chd` |
| HackDetection.AnyKeyword | Tools/export_descriptions.py:24 | the test holds exactly when some keyword occurs in the name or in the file |
| HackDetection.DetectHack | Tools/export_descriptions.py:10-27 | a platform key ending in `_hack` flags every game; otherwise a game is flagged exactly when one of the keywords occurs in its lower-cased name or lower-cased file, a missing one counting as `""` |
| HackDetection.DetectHackCaseInsensitive | Tools/export_descriptions.py:20-25 | the classification does not change when the name and the file are upper-cased |
| Slug.BaseName | Utils/helpers.py:7-8 | the last component of a path written with either separator holds neither separator |
| Slug.Slugify | Utils/helpers.py:4-12 | the slug holds no `/`, `\` or space, is stripped and lower-case |
| Slug.SlugifyIdempotent | Utils/helpers.py:4-12 | a slug is its own slug |
| Slug.SlugifyLastComponent | Utils/helpers.py:7-8 | only the last path component counts, with `\` and `/` alike |
| Slug.SlugifyDC | Utils/helpers.py:37 | the folder `DC` gives the key `dc` |
| Slug.SlugifyFbneoAct | Utils/helpers.py:37 | the folder `FBNEO ACT` gives the key `fbneo_act` |
| EsdeExport.StepStripped | toesde.py:15-18 | only the stripped line matters, and a blank line changes nothing |
| EsdeExport.IgnoreBlock | toesde.py:20-26 | consecutive `-` lines after `ignore-files:` add their stripped remainder to the ignore set, and the block stays open |
| EsdeExport.IgnoreBlockEnds | toesde.py:23-28 | the first non-`-` line closes the ignore block and is then processed like any other line |
| EsdeExport.ExtensionReplaces | toesde.py:30-33 | an `extension:` line replaces the allowed set by its lower-cased, stripped comma parts |
| EsdeExport.GameLine | toesde.py:35-38 | a `game:` line starts a dictionary holding only the name, and appends the previous one only when it is non-empty |
| EsdeExport.KeyValueLine | toesde.py:39-43 | any other line with a colon stores its stripped value under its stripped, lower-cased key |
| EsdeExport.HeaderPseudoGame | toesde.py:39-46 | header lines before the first game form a leading pseudo-game |
| EsdeExport.MediaPath | toesde.py:51-52 | a media path starts with `./media/` and ends with the file asked for |
| EsdeExport.Kept | toesde.py:59-67 | every kept game has a non-empty `file` that is not ignored, with an allowed extension unless nothing is listed |
| EsdeExport.KeptIncluded | toesde.py:59-67 | every game that passes the filter is kept |
| EsdeExport.KeptAll | toesde.py:59-67 | when every game passes the filter, all are kept, in order |
| EsdeExport.KeptConcat | toesde.py:59-67 | the filter works game by game, so the kept games keep their input order |
| EsdeExport.Media | toesde.py:78-90 | a media element is present exactly when the probe finds the file under `base_path/media/<file_base>` |
| EsdeExport.GameElement | toesde.py:69-88 | the written path is `./` followed by the file; the text fields are the game's values, `""` when missing; the image, marquee and video elements are the `boxFront.jpg`, `logo.png` and `video.mp4` media found under `media/<file_base>` |
| EsdeExport.Gamelist | toesde.py:59-92 | one element per kept game, in order |
| EsdeExport.GamelistPaths | toesde.py:59-72 | every written path is `./` followed by a file that is not ignored |
| DaijishoExport.LaunchLineResets | todaijisho.py:32-33 | a `launch:` line empties the launch lines and is not kept |
| DaijishoExport.GameLineSwallowed | todaijisho.py:34-35 | once the launch lines are non-empty, a `game:` line is appended to them instead of starting a game |
| DaijishoExport.LaunchSwallowsGames | todaijisho.py:34-41 | after the first launch line, no further game is read until another `launch:` line, whatever the lines say |
| DaijishoExport.LaunchLineComponent | todaijisho.py:58-60 | a `-n ` line fails exactly when no `/` follows; otherwise package and activity are the two sides of the first `/` |
| DaijishoExport.LaunchLineExtra | todaijisho.py:61-65 | `-e K rest` sets `intent[K] = rest`, the value keeping any further spaces |
| DaijishoExport.LaunchLineIgnored | todaijisho.py:61-63 | a line that neither names a component nor has three space-separated parts changes nothing |
| DaijishoExport.LaunchFails | todaijisho.py:52-66 | the launch block fails exactly when one of its lines is a `-n ` line without a `/` |
| DaijishoExport.LaunchKeepsNames | todaijisho.py:57-65 | without `-n ` lines the package and activity stay as they were |
| DaijishoExport.LastComponentWins | todaijisho.py:57-60 | the last well-formed `-n ` line names the component |
| DaijishoExport.GameIntent | todaijisho.py:76-78 | the game intent has the base intent's keys, with `ROM` replaced by the game's path only when the base has it and every other value copied |
| DaijishoExport.MediaFile | todaijisho.py:86-88 | a media entry is the file path when it exists and `""` otherwise |
| DaijishoExport.MakeGame | todaijisho.py:69-96 | the output file is `<file_base>.json`; the rom is `rom_root/file`; title, description, developer, sort title, package and activity are copied; image, marquee and video are the `boxFront.jpg`, `logo.png` and `video.mp4` files under `media_root/<file_base>` when the probe finds them, `""` otherwise; the intent is the game intent |
| DaijishoExport.NotIgnored | todaijisho.py:109-112 | every written game's `file`, `""` when missing, is not ignored |
| DaijishoExport.NotIgnoredKeeps | todaijisho.py:109-112 | every game whose `file` is not ignored is written |
| DaijishoExport.NotIgnoredConcat | todaijisho.py:109-112 | the filter works game by game, so the written games keep their input order |
| DaijishoExport.MissingFileWritten | todaijisho.py:70-73 | a game without a `file` is still written, with the ROM directory as its path, unless `""` is ignored |
| DaijishoExport.Export | todaijisho.py:99-115 | `main` fails exactly when a launch line fails; otherwise the launch block parses, and file k is the one built by `make_game` from the k-th game that is not ignored, under that launch |
| Ps2Mapping.Collect | Tools/PS2Rename/build_raw_mapping.py:56-58 | the last entry, when there is one, is in the table with its description; no entries give the empty table |
| Ps2Mapping.CollectKeys | Tools/PS2Rename/build_raw_mapping.py:56-58 | a key is in the table exactly when some entry has it, and its value comes from an entry with that key |
| Ps2Mapping.CollectLastWins | Tools/PS2Rename/build_raw_mapping.py:56-58 | the last entry with a key decides its value |
| Ps2Mapping.ChdName | Tools/PS2Rename/build_raw_mapping.py:48-50 | the name ends in `.chd` in some letter case, and is the key itself or the key with `.chd` appended |
| Ps2Mapping.ChdNameIdempotent | Tools/PS2Rename/build_raw_mapping.py:49 | a name that already has the suffix is kept, so the suffix is never doubled |
| Ps2Mapping.ChdNameUpper | Tools/PS2Rename/build_raw_mapping.py:49 | an upper-case `.CHD` counts as the suffix |
| Ps2Mapping.KeyAndDescription | Tools/PS2Rename/build_raw_mapping.py:33-46 | the joined key tokens are stripped and start with the first token; the joined description is empty exactly when no token follows the key |
| Ps2Mapping.TokensEntry | Tools/PS2Rename/build_raw_mapping.py:33-54 | a line's tokens give no entry exactly when they form a disc key with nothing after it |
| Ps2Mapping.MappingLine | Tools/PS2Rename/build_raw_mapping.py:21-54 | a line gives no entry exactly when its stripped text is blank, a `#` or `//` comment, fewer than two tokens, or a bare disc key; an entry has a `.chd` key starting with the first token and a non-empty stripped description |
| Ps2Mapping.ParseMapping | Tools/PS2Rename/build_raw_mapping.py:5-60 | every key ends in `.chd` and every description is non-empty; a key is present exactly when some line gives an entry for it |
| Ps2Mapping.ParseMappingLastWins | Tools/PS2Rename/build_raw_mapping.py:56-58 | a later line for the same CHD name overwrites the earlier one |
| Ps2Mapping.OrdinaryLine | Tools/PS2Rename/build_raw_mapping.py:32-50 | on a line that is not a comment or a disc key, the key is the first token with `.chd` added unless it already ends so, and the description is the other tokens joined by single spaces |
| Ps2Mapping.DiscLine | Tools/PS2Rename/build_raw_mapping.py:37-44 | a multi-disc line `043 Disc A text` is keyed by its first three tokens and described by the rest |
| Ps2Mapping.Sanitize | Tools/PS2Rename/rename_ps2_chd.py:11-26 | the result holds none of `< > : " / \ \| ? *`, does not end in a space or `.`, and every character comes from the input or is the ` -` that replaces a colon |
| Ps2Mapping.SanitizeClean | Tools/PS2Rename/rename_ps2_chd.py:11-26 | a stripped name that is already legal and ends neither in a space nor in `.` comes back unchanged |
| Ps2Mapping.SanitizeColon | Tools/PS2Rename/rename_ps2_chd.py:17 | a colon between two clean halves becomes ` -` |
| Ps2Mapping.TargetBase | Tools/PS2Rename/rename_ps2_chd.py:39-42 | the base is `(en or cn or "")` stripped, or the plain value stripped |
| Ps2Mapping.NameEntry | Tools/PS2Rename/rename_ps2_chd.py:34-53 | an item is skipped exactly when its base is empty; its old name gets the `.chd` rule; its target is legal and ends in `.chd` |
| Ps2Mapping.LoadNameMapping | Tools/PS2Rename/apply_rename_to_jsondb.py:6-35 | an old name is in the table exactly when some item gives it an entry, and it maps to the target of such an item; every old and new name ends in `.chd`, and no new name holds a character Windows forbids |
| Ps2Mapping.LoadNameMappingLastWins | Tools/PS2Rename/apply_rename_to_jsondb.py:15-33 | a later item for the same old name overwrites an earlier one |
| Ps2Mapping.BlankEnglishSkips | Tools/PS2Rename/rename_ps2_chd.py:39-45 | an English name of only whitespace is truthy, so the Chinese one is not consulted and the item is skipped |
| Ps2Mapping.EnglishPreferred | Tools/PS2Rename/rename_ps2_chd.py:40 | the English name wins over the Chinese one whenever it has text |
| Ps2JsonDb.OldStem | Tools/PS2Rename/apply_rename_to_jsondb.py:82-87 | a stem exists exactly when `file` is truthy; it holds no `/` and is a prefix of the last `/` component |
| Ps2JsonDb.FixPathParts | Tools/PS2Rename/apply_rename_to_jsondb.py:54-63 | a rewritten asset path reads back as `media`, the stem and the parts after the old second one |
| Ps2JsonDb.FixPathIdempotent | Tools/PS2Rename/apply_rename_to_jsondb.py:54-63 | rewriting a rewritten path changes nothing |
| Ps2JsonDb.FixMediaPath | Tools/PS2Rename/apply_rename_to_jsondb.py:58-63 | `media/dir/name` becomes `media/stem/name` |
| Ps2JsonDb.FixAssets | Tools/PS2Rename/apply_rename_to_jsondb.py:38-66 | nothing changes without a truthy stem or an `assets` dictionary; otherwise every key is kept and each value is rewritten |
| Ps2JsonDb.FixAssetsIdempotent | Tools/PS2Rename/apply_rename_to_jsondb.py:38-66 | fixing the assets twice is fixing them once |
| Ps2JsonDb.Rename | Tools/PS2Rename/apply_rename_to_jsondb.py:90-91 | a name in the table is mapped and any other is kept |
| Ps2JsonDb.RenameRoms | Tools/PS2Rename/apply_rename_to_jsondb.py:98-111 | a roms list keeps its length and order, each entry mapped or kept; a non-list value is left alone |
| Ps2JsonDb.RenameHashes | Tools/PS2Rename/apply_rename_to_jsondb.py:114-121 | every `rom_rel` is renamed through the table and every other key of the entry is kept |
| Ps2JsonDb.RenameGame | Tools/PS2Rename/apply_rename_to_jsondb.py:80-124 | `file`, `roms`, `rom_hashes` and `assets` are rewritten as above and no other key changes; `file` changes exactly when it is in the table and maps to a different name |
| Ps2JsonDb.CountChanged | Tools/PS2Rename/apply_rename_to_jsondb.py:90-95 | the counter is at most the number of games, and zero exactly when no game's `file` changes |
| Ps2JsonDb.CountChangedConcat | Tools/PS2Rename/apply_rename_to_jsondb.py:80-95 | the counter adds up over consecutive runs of games |
| Ps2JsonDb.ApplyToJsonDb | Tools/PS2Rename/apply_rename_to_jsondb.py:80-124 | every game is rewritten by `RenameGame`, in place and in order, and the count is the number of games whose `file` changed, at most the number of games |
| Ps2JsonDb.EmptyTableMovesOnlyAssets | Tools/PS2Rename/apply_rename_to_jsondb.py:80-124 | an empty table renames nothing, so only the asset paths move |
| Ps2JsonDb.StemOfChd | Tools/PS2Rename/apply_rename_to_jsondb.py:82-87 | the media directory follows the old file name: `dir/506.chd` keeps its art under `media/506/` |
| RomScanner.HashRom | Tools/rom_scanner.py:41-70 | the size is the number of bytes read; the full hash is fed every byte in order; the header hash is fed exactly the first `min(size, header_bytes)` bytes, even when a chunk straddles the boundary, and exists exactly when `header_bytes > 0`; the chunk size does not change the result |
| RomScanner.RomList | Tools/rom_scanner.py:105-110 | the rom list is `roms` when truthy, else `[file]` when `file` is truthy, else empty |
| RomScanner.MakeEntry | Tools/rom_scanner.py:117-136 | an entry exists on disk exactly when the probe finds its path; a missing file keeps size and hashes absent; a present one gets its size, the whole file as the SHA-256 input and its first `min(size, HEADER_BYTES)` bytes as the MD5 input |
| RomScanner.NonBlank | Tools/rom_scanner.py:112-115 | the paths kept are stripped and non-empty |
| RomScanner.GameEntries | Tools/rom_scanner.py:112-138 | one entry per stripped, non-empty rom path, in order |
| RomScanner.Scan | Tools/rom_scanner.py:101-138 | no games give no entries; every entry belongs to the platform, has a stripped, non-empty `rom_rel` and records `HEADER_BYTES` |
| RomScanner.ScanSingle | Tools/rom_scanner.py:101-138 | one game is scanned into exactly its own entries; with `ScanConcat` this gives the entries game by game, rom by rom, in input order |
| RomScanner.ScanConcat | Tools/rom_scanner.py:101-138 | scanning two runs of games concatenates their entries, game by game |
| RomScanner.FileFallback | Tools/rom_scanner.py:105-110 | a game with no roms and no `file` gives no entry; one with only a non-blank `file` gives exactly one |
| PyStr.FileLinesToText | Tools/metadata_scanner.py:44-46 | reading back text written line by line gives the same lines, as long as no line holds a line break |

## Left out

- File reads and writes, `json.load`/`json.dump`, XML writing, directory creation and all printing are left out. The parsers take lines, and the writers produce lines or values.
- NFKC normalisation in `_clean_text` is a function parameter `nfkc`, since Unicode normalisation tables are outside the model.
- The `hashlib` digests are left out. A hash is represented by the exact bytes fed to it.
- `extract_libretro_core` is a function parameter. Tools/metadata_scanner.py, which it is imported from, does not define it.
- The file-system probes (`os.path.isfile`, `os.path.exists`, `Path.is_file`) are function parameters. So are the file contents `rom_scanner` reads.
- `str.lower`, `str.upper`, `str.isdigit` and `str.isspace` cover ASCII letters and digits and Python's whitespace set. Other Unicode case mappings are not modelled.
- A Python key that is absent and a key that holds `None` are the same `None` in the records.
- The JSON mapping of `load_name_mapping` is given as an ordered list of items. Only its string and `{en, cn}` values are modelled.
- `PurePosixPath` keeps a leading `//` as its own root part; the model writes that root as `/`. No such root equals `media`, so the rewrite is unaffected.
- MetadataScanner.CoreOfLine and CorePlanner.FileExtension: `os.path.basename` and `os.path.splitext` are modelled as `posixpath`, which splits on `/` only. Under Windows `ntpath` also splits on `\`, so a launch line ending in `cores\x_libretro.so` gives the core `x_libretro.so` there and `cores\x_libretro.so` here.
- `rom_root / rom_rel` is modelled as `posixpath.join`. `pathlib`'s own normalisation of the joined path is not modelled.
- `rom_hashes` entries that are not dictionaries would make Python raise. They are not modelled.
- RomScanner.HashRom: the chunk size is a parameter, while the source reads 8192 bytes at a time. The contract holds for every positive size, 8192 included.
- Normalize.NormalizeGame: the loop at Tools/base.py:84-91 builds a list that is immediately overwritten, so it has no counterpart.
- The closure check's temporary file, its removal and its debug output are left out. The written text is the value `ToText` builds.
- These are not part of this model:
  - `rename_chd_files` and Tools/PS2Rename/rename_ps2_media_dirs.py, which do file-system renames;
  - Tools/PS2Rename/build_redump_template.py, apply_descriptions.py and split_descriptions.py, which are JSON file glue;
  - the GUI inspectors, main.py and `discover_platforms`, which are user interface and wiring;
  - the Converters stubs;
  - `export_descriptions` and `save_romhash_db`, which write files.
- MetadataScanner: `Step`, `Run` and `Parse` carry no contract of their own. Their behaviour is stated line by line by the `RoundTrip` and `RoundTripBreaks` lemmas.
- EsdeExport and DaijishoExport: `Parse`, `Run` and `Step` are likewise stated by the per-line lemmas. `ParseLaunchBlock` is stated by the `Launch*` lemmas.
- MetadataEditor.IndexGames: its own contract states only that the indices are valid. What each key maps to is stated by IndexKeys, IndexRomLast and IndexTitleFirst.
- MetadataEditor.SetKey and MetadataEditor.ApplyExtra: the values of `extra_fields` are strings or `None`. The source accepts any value (`Dict[str, Any]`); lists, numbers and nested dictionaries are not modelled.
- MetadataEditor.UpsertExisting and MetadataEditor.UpsertIndexed: stated for calls without extra fields, and for a matched game whose `roms` is not a string. Extra fields are covered by ApplyExtraSkipsNone and ApplyExtraLastWins.
- RoundTrip.ParseDump: the round trip is proved only for the fragment described above. Outside it the `RoundTripBreaks` lemmas state what comes back instead.

=== FILE: breaks.dfy ===
/** Where parsing what the writer wrote does not give the input back. Each
    lemma states what comes back instead, for particular inputs. */
module RoundTripBreaks {
  import opened Wrappers
  import opened PyStr
  import opened Records
  import opened MetadataScanner
  import opened MetadataWriter
  import opened RoundTrip

  /** A game with neither `game` nor `title` is not written, so it is gone
      after the round trip. */
  lemma UntitledGameDropped(h: Header, g: Game, gs: seq<Game>)
    requires HeaderFragment(h) && AllGames(gs) && !Truthy(Title(g))
    ensures Parse(Dump(h, [g] + gs)) == Ok((h, gs))
  {
    assert ([g] + gs)[1..] == gs;
    assert Dump(h, [g] + gs) == Dump(h, gs);
    ParseDump(h, gs);
  }

  /** The writer never reads `launch`, `launch_override` or `core_override`,
      which is where the parser puts a game's launch lines: they are lost. */
  lemma GameLaunchDropped(h: Header, g: Game, launch: Option<string>, launchOverride: Option<string>,
                          coreOverride: Option<string>)
    requires HeaderFragment(h) && GameFragment(g)
    ensures var written := g.(launch := launch, launchOverride := launchOverride, coreOverride := coreOverride);
      Parse(Dump(h, [written])) == Ok((h, [g]))
  {
    var written := g.(launch := launch, launchOverride := launchOverride, coreOverride := coreOverride);
    assert GameLines(written) == GameLines(g);
    assert Dump(h, [written]) == Dump(h, [g]) by {
      assert GamesLines([written]) == GameLines(written) + GamesLines([]);
      assert GamesLines([g]) == GameLines(g) + GamesLines([]);
    }
    assert AllGames([g]);
    ParseDump(h, [g]);
  }

  // ---------------------------------------------------------------------
  // A header launch block
  // ---------------------------------------------------------------------

  /** `launch:` before the first game opens the global launch block. */
  lemma HeaderLineLaunch(st: State, line: string)
    requires st.current.None? && StartsWith(line, "launch:") && !StartsWith(line, "  ")
    ensures ':' in line
    ensures HeaderLine(st, line) ==
      st.(inGlobalLaunch := true, scratch := [RStrip(line)], header := st.header.(launch := Some(Value(line))))
  {
    KeyLineHasColon(line, "launch:");
    OtherKey(line, "launch:", "collection:");
    OtherKey(line, "launch:", "ignore-files:");
    OtherKey(line, "launch:", "extension:");
    OtherKey(line, "launch:", "sort-by:");
  }

  /** The state once the header line `launch: b` is read. */
  function LaunchOpen(st: State, b: string): State {
    st.(inGlobalLaunch := true, scratch := ["launch: " + b], header := st.header.(launch := Some(b)))
  }

  /** The line `launch: b` as the parser sees it. */
  lemma LaunchLine(b: string)
    requires Clean(b)
    ensures var line := "launch: " + b;
      Strip(line) != "" && !StartsWith(line, "  ") && StartsWith(line, "launch:")
      && !StartsWith(line, "game:") && ':' in line && Value(line) == b && RStrip(line) == line
  {
    var line := "launch: " + b;
    assert line == "launch:" + " " + b;
    WriterKeys();
    KeyLine(line, "launch:", b);
    KeyLineEnd(line, "launch:", b);
  }

  /** A key line ends with its clean value, so `rstrip` leaves it alone. */
  lemma KeyLineEnd(line: string, k: string, v: string)
    requires Clean(v) && line == k + " " + v
    ensures RStrip(line) == line
  {
    assert line[|line| - 1] == v[|v| - 1];
    RStripTrimmed(line, IsSpace);
  }

  lemma StepHeaderLaunch(st: State, b: string)
    requires Quiet(st) && st.current.None? && Clean(b)
    ensures Step(st, "launch: " + b) == Ok(LaunchOpen(st, b))
  {
    var line := "launch: " + b;
    LaunchLine(b);
    StepOutsideLaunch(st, line);
    DispatchHeader(st, line);
    HeaderLineLaunch(st, line);
  }

  /** A one-line header `launch_block` is written as one `launch:` line. */
  lemma HeaderLinesLaunch(b: string)
    requires Clean(b)
    ensures HeaderLines(EmptyHeader.(launchBlock := Some(b))) == ["launch: " + b]
  {
    BlockOneLine("launch", b);
    assert "launch" + ": " == "launch: ";
  }

  /** The runs from two states agree when their first steps do. */
  lemma RunSameFirst(st1: State, st2: State, lines: seq<string>)
    requires |lines| > 0 && Step(st1, lines[0]) == Step(st2, lines[0])
    ensures Run(st1, lines) == Run(st2, lines)
  {
  }

  /** A line without the two-space indent closes an open global launch block
      and stores it, then is read as usual. */
  lemma CloseLaunch(st: State, line: string)
    requires st.inGlobalLaunch && !st.inGameLaunch && !st.inFiles && !StartsWith(line, "  ")
    ensures Step(st, line) ==
      Step(st.(inGlobalLaunch := false, header := st.header.(launchBlock := Some(Join(st.scratch, "\n")))), line)
  {
  }

  /** The first written line of a titled game is its `game:` line. */
  lemma GamesFirstLine(gs: seq<Game>)
    requires AllGames(gs) && |gs| > 0
    ensures |GamesLines(gs)| > 0 && GamesLines(gs)[0] == "game: " + gs[0].game.value
    ensures !StartsWith(GamesLines(gs)[0], "  ")
  {
    assert GameFragment(gs[0]);
    assert Title(gs[0]) == gs[0].game;
    var line := "game: " + gs[0].game.value;
    assert line == "game:" + " " + gs[0].game.value;
    KeyLineHead(line, "game:", gs[0].game.value);
  }

  /** The header launch block once closed: the block holds its own
      `launch:` line. */
  lemma LaunchClosed(b: string)
    ensures var l := LaunchOpen(Start, b);
      l.(inGlobalLaunch := false, header := l.header.(launchBlock := Some(Join(l.scratch, "\n")))).header ==
      EmptyHeader.(launch := Some(b), launchBlock := Some("launch: " + b))
  {
  }

  /** A header `launch_block` is stored with its `launch:` key line, so the
      writer's `launch: ` prefix comes back doubled: `b` is read back as
      `launch: b`, and `launch` gets `b`. */
  lemma LaunchBlockDoubled(b: string, gs: seq<Game>)
    requires Clean(b) && AllGames(gs) && |gs| > 0
    ensures Parse(Dump(EmptyHeader.(launchBlock := Some(b)), gs)) ==
      Ok((EmptyHeader.(launch := Some(b), launchBlock := Some("launch: " + b)), gs))
  {
    var h := EmptyHeader.(launchBlock := Some(b));
    var l := LaunchOpen(Start, b);
    var c := l.(inGlobalLaunch := false, header := l.header.(launchBlock := Some(Join(l.scratch, "\n"))));
    var games := GamesLines(gs);
    HeaderLinesLaunch(b);
    StepHeaderLaunch(Start, b);
    RunCons(Start, "launch: " + b, games, l);
    GamesFirstLine(gs);
    CloseLaunch(l, games[0]);
    StepOutsideLaunch(c, games[0]);
    RunSameFirst(l, c, games);
    RunGames(c, gs);
    LaunchClosed(b);
    assert Pending(c) == [];
    assert [] + gs == gs;
    WithCoresFragment(gs);
  }

  /** A launch block still open at the end of the input is never stored: a
      header holding only a `launch_block` loses it. */
  lemma LaunchBlockLostAtEnd(b: string)
    requires Clean(b)
    ensures Parse(Dump(EmptyHeader.(launchBlock := Some(b)), [])) ==
      Ok((EmptyHeader.(launch := Some(b)), []))
  {
    HeaderLinesLaunch(b);
    StepHeaderLaunch(Start, b);
    RunOne(Start, "launch: " + b, LaunchOpen(Start, b));
    assert Dump(EmptyHeader.(launchBlock := Some(b)), []) == ["launch: " + b];
  }

  // ---------------------------------------------------------------------
  // Extensions
  // ---------------------------------------------------------------------

  /** A bare `extension:` line gives one empty extension. */
  lemma BareKeyStrip(line: string)
    requires line == "extension:"
    ensures Strip(line) == line
  {
    assert Trimmed(line);
    StripTrimmed(line);
  }

  lemma BareKeyRest(line: string)
    requires line == "extension:"
    ensures AfterFirst(line, ':') == ""
  {
    assert line == "extension" + [':'] + "";
    AfterFirstOfKey("extension", "", ':');
  }

  lemma EmptySplit(empty: string)
    requires empty == ""
    ensures StripEach(Split(empty, ',')) == [empty]
  {
    assert Find(empty, ',') == 0;
    assert Split(empty, ',') == [empty];
    assert Strip(empty) == empty;
  }

  lemma ExtensionBareItems(line: string)
    requires line == "extension:"
    ensures ExtensionItems(line) == [""]
  {
    BareKeyStrip(line);
    BareKeyRest(line);
    EmptySplit(AfterFirst(Strip(line), ':'));
  }

  /** `extension:` before the first game sets the extensions. */
  lemma HeaderLineExtension(st: State, line: string)
    requires st.current.None? && StartsWith(line, "extension:") && !StartsWith(line, "  ")
    ensures HeaderLine(st, line) == st.(header := st.header.(extensions := Some(Items(ExtensionItems(line)))))
  {
    OtherKey(line, "extension:", "collection:");
    OtherKey(line, "extension:", "ignore-files:");
  }

  lemma StepExtensionBare(st: State, line: string)
    requires Quiet(st) && st.current.None? && line == "extension:"
    ensures Step(st, line) == Ok(st.(header := st.header.(extensions := Some(Items([""])))))
  {
    assert Strip(line) != "" && !StartsWith(line, "  ") && !StartsWith(line, "game:")
      && StartsWith(line, "extension:") by {
      KeyLineShape(line, line);
      OtherKey(line, line, "game:");
    }
    ExtensionBareItems(line);
    StepOutsideLaunch(st, line);
    DispatchHeader(st, line);
    HeaderLineExtension(st, line);
  }

  /** Before the first game and with no `ignore-files:` seen, an indented
      line changes nothing. */
  lemma HeaderLineStray(st: State, line: string)
    requires st.current.None? && st.header.ignoreFiles.None? && StartsWith(line, "  ")
    ensures HeaderLine(st, line) == st
  {
    IndentedNotKey(line, "collection:");
    IndentedNotKey(line, "ignore-files:");
    IndentedNotKey(line, "extension:");
    IndentedNotKey(line, "sort-by:");
    IndentedNotKey(line, "launch:");
  }

  lemma StepStrayHeaderLine(st: State, line: string)
    requires Quiet(st) && st.current.None? && st.header.ignoreFiles.None?
    requires StartsWith(line, "  ") && Strip(line) != ""
    ensures Step(st, line) == Ok(st)
  {
    IndentedNotKey(line, "game:");
    StepOutsideLaunch(st, line);
    DispatchHeader(st, line);
    HeaderLineStray(st, line);
  }

  lemma {:induction false} RunStrayHeaderLines(st: State, lines: seq<string>, xs: seq<string>)
    requires Quiet(st) && st.current.None? && st.header.ignoreFiles.None?
    requires IndentedAs(lines, xs)
    ensures Run(st, lines) == Ok(st)
    decreases |lines|
  {
    if |lines| > 0 {
      StepStrayHeaderLine(st, lines[0]);
      RunFirst(st, lines, st);
      IndentedAsTail(lines, xs);
      RunStrayHeaderLines(st, lines[1..], xs[1..]);
    }
  }

  /** The header lines with an extension list added. */
  lemma HeaderLinesExtensions(h: Header, xs: seq<string>)
    requires HeaderFragment(h) && |xs| > 0
    ensures HeaderLines(h.(extensions := Some(Items(xs)))) ==
      HeaderLines(h) + (["extension:"] + (Indented(xs) + [""]))
  {
    var e := ListField("extension:", xs);
    HeaderLinesClean(h);
    HeaderParts(Field("collection: ", h.collection), Field("sort-by: ", h.defaultSortBy),
      BlockField("launch", h.launchBlock), ListField("ignore-files:", h.ignoreFiles.GetOr([])), e, [""]);
    assert e == ["extension:"] + Indented(xs);
    assert e + [""] == ["extension:"] + (Indented(xs) + [""]);
  }

  /** What comes back for the extensions: the parser reads only the
      same-line comma form, so the block's key line gives `[""]`, and its
      item lines join `ignore_files` when that block was seen, or are
      dropped. */
  function ExtensionsReadBack(h: Header, xs: seq<string>): Header {
    h.(extensions := Some(Items([""])),
       ignoreFiles := if h.ignoreFiles.Some? then Some(h.ignoreFiles.value + xs) else None)
  }

  /** The extension block the writer emits does not survive a round trip. */
  lemma ExtensionsBreak(h: Header, xs: seq<string>)
    requires HeaderFragment(h) && |xs| > 0 && AllClean(xs)
    ensures Parse(Dump(h.(extensions := Some(Items(xs))), [])) == Ok((ExtensionsReadBack(h, xs), []))
  {
    var hs := Start.(header := h);
    var e := hs.(header := hs.header.(extensions := Some(Items([""]))));
    var items := Indented(xs);
    HeaderLinesExtensions(h, xs);
    assert Dump(h.(extensions := Some(Items(xs))), []) == HeaderLines(h) + (["extension:"] + (items + [""]));
    RunHeader(h);
    RunAppend(Start, HeaderLines(h), ["extension:"] + (items + [""]), hs);
    StepExtensionBare(hs, "extension:");
    RunCons(hs, "extension:", items + [""], e);
    IndentedClean(xs);
    var f := if h.ignoreFiles.Some? then e.(header := e.header.(ignoreFiles := Some(h.ignoreFiles.value + xs))) else e;
    if h.ignoreFiles.Some? {
      RunIgnoreItems(e, h.ignoreFiles.value, items, xs);
    } else {
      RunStrayHeaderLines(e, items, xs);
    }
    RunBlank(f);
    assert f.(inFiles := false) == f;
    RunThen(e, items, [""], f, f);
  }

  // ---------------------------------------------------------------------
  // Multi-line descriptions
  // ---------------------------------------------------------------------

  lemma BareDescriptionValue(line: string)
    requires line == "description:"
    ensures ':' in line && Value(line) == ""
  {
    assert line == "description" + [':'] + "";
    AfterFirstOfKey("description", "", ':');
    var empty := AfterFirst(line, ':');
    assert Strip(empty) == empty;
  }

  /** The bare key line of a description block sets the description to
      the empty string. */
  lemma StepBareDescription(st: State, line: string)
    requires !st.inGlobalLaunch && !st.inGameLaunch && st.current.Some? && line == "description:"
    ensures Step(st, line) == Ok(st.(current := Some(st.current.value.(description := Some("")))))
  {
    assert Strip(line) != "" && !StartsWith(line, "  ") && !StartsWith(line, "game:")
      && StartsWith(line, "description:") by {
      KeyLineShape(line, line);
      OtherKey(line, line, "game:");
    }
    BareDescriptionValue(line);
    StepOutsideLaunch(st, line);
    DispatchGame(st, line);
    GameLineDescription(st, line);
  }

  /** In a game, outside a `files:` block, an indented line changes
      nothing. */
  lemma GameLineStray(st: State, line: string)
    requires st.current.Some? && !st.inFiles && StartsWith(line, "  ")
    ensures GameLine(st, line) == Ok(st)
  {
    IndentedNotKey(line, "file:");
    IndentedNotKey(line, "files:");
    IndentedNotKey(line, "sort-by:");
    IndentedNotKey(line, "developer:");
    IndentedNotKey(line, "description:");
    IndentedNotKey(line, "launch:");
  }

  lemma StepStrayGameLine(st: State, line: string)
    requires Quiet(st) && st.current.Some? && StartsWith(line, "  ") && Strip(line) != ""
    ensures Step(st, line) == Ok(st)
  {
    IndentedNotKey(line, "game:");
    StepOutsideLaunch(st, line);
    DispatchGame(st, line);
    GameLineStray(st, line);
  }

  lemma {:induction false} RunStrayGameLines(st: State, lines: seq<string>, xs: seq<string>)
    requires Quiet(st) && st.current.Some? && IndentedAs(lines, xs)
    ensures Run(st, lines) == Ok(st)
    decreases |lines|
  {
    if |lines| > 0 {
      StepStrayGameLine(st, lines[0]);
      RunFirst(st, lines, st);
      IndentedAsTail(lines, xs);
      RunStrayGameLines(st, lines[1..], xs[1..]);
    }
  }

  /** At most one rom: the rom lines leave no `files:` block open. */
  predicate FewRoms(g: Game) {
    g.roms.None? || (g.roms.value.Items? && |g.roms.value.items| == 1)
  }

  /** Several clean lines joined by newlines are written as a block. */
  lemma BlockOfLines(key: string, ds: seq<string>)
    requires |ds| > 1 && AllClean(ds)
    ensures Join(ds, "\n") != "" && Block(key, Join(ds, "\n")) == [key + ":"] + Indented(ds)
  {
    assert forall k :: 0 <= k < |ds| ==> Avoids(ds[k], IsLineBoundary);
    SplitLinesJoin(ds);
    assert |SplitLines(Join(ds, "\n"))| > 1;
  }

  lemma DescriptionKey()
    ensures "description" + ":" == "description:"
  {
  }

  /** The lines of a named game without a launch block. */
  lemma GameLinesNoLaunch(g: Game)
    requires g.game.Some? && g.game.value != "" && g.launchBlock.None?
    ensures GameLines(g) ==
      ["game: " + g.game.value] + (RomLines(g.roms) + (Field("sort-by: ", g.sortBy) +
        (Field("developer: ", g.developer) + (BlockField("description", g.description) + [""]))))
  {
    assert Title(g) == g.game;
  }

  /** A description of several clean lines is written as a block. */
  lemma DescriptionBlockField(ds: seq<string>)
    requires |ds| > 1 && AllClean(ds)
    ensures BlockField("description", Some(Join(ds, "\n"))) + [""] ==
      ["description:"] + (Indented(ds) + [""])
  {
    BlockOfLines("description", ds);
    DescriptionKey();
  }

  /** The lines of a game whose description spans several lines. */
  lemma GameLinesDescriptionBlock(g: Game, ds: seq<string>)
    requires GameFragment(g) && g.description.None? && |ds| > 1 && AllClean(ds)
    ensures GameLines(g.(description := Some(Join(ds, "\n")))) ==
      ["game: " + g.game.value] + (RomLines(g.roms) + (Field("sort-by: ", g.sortBy) +
        (Field("developer: ", g.developer) + (["description:"] + (Indented(ds) + [""])))))
  {
    GameLinesNoLaunch(g.(description := Some(Join(ds, "\n"))));
    DescriptionBlockField(ds);
  }

  /** The description block: its key line empties the description and its
      indented lines change nothing, up to the closing blank line. */
  lemma RunDescriptionBlock(st: State, line: string, ds: seq<string>)
    requires Quiet(st) && st.current.Some? && AllClean(ds) && line == "description:"
    ensures Run(st, [line] + (Indented(ds) + [""])) ==
      Ok(st.(current := Some(st.current.value.(description := Some("")))))
  {
    var s5 := st.(current := Some(st.current.value.(description := Some(""))));
    StepBareDescription(st, line);
    IndentedClean(ds);
    RunStrayGameLines(s5, Indented(ds), ds);
    RunBlank(s5);
    assert s5.(inFiles := false) == s5;
    RunThen(s5, Indented(ds), [""], s5, s5);
    RunCons(st, line, Indented(ds) + [""], s5);
  }

  lemma DescriptionAssembled(st: State, g: Game)
    requires Quiet(st) && GameFragment(g) && FewRoms(g)
    ensures
      var s1 := st.(games := Pending(st), current := Some(EmptyGame.(game := Some(g.game.value))));
      var s2 := AfterRoms(s1, g.roms);
      var s3 := if g.sortBy.Some? then s2.(current := Some(s2.current.value.(sortBy := g.sortBy))) else s2;
      var s4 := if g.developer.Some? then s3.(current := Some(s3.current.value.(developer := g.developer))) else s3;
      Quiet(s4) && s4.(current := Some(s4.current.value.(description := Some("")))) ==
        st.(games := Pending(st), current := Some(g.(description := Some(""))))
  {
  }

  /** A game whose description spans several lines comes back with an
      empty description: the key line is read alone and the indented
      lines after it are ignored. */
  lemma RunGameDescriptionBlock(st: State, g: Game, ds: seq<string>)
    requires Quiet(st) && GameFragment(g) && FewRoms(g) && g.description.None?
    requires |ds| > 1 && AllClean(ds)
    ensures Run(st, GameLines(g.(description := Some(Join(ds, "\n"))))) ==
      Ok(st.(games := Pending(st), current := Some(g.(description := Some("")))))
  {
    var s1 := st.(games := Pending(st), current := Some(EmptyGame.(game := Some(g.game.value))));
    var s2 := AfterRoms(s1, g.roms);
    var s3 := if g.sortBy.Some? then s2.(current := Some(s2.current.value.(sortBy := g.sortBy))) else s2;
    var s4 := if g.developer.Some? then s3.(current := Some(s3.current.value.(developer := g.developer))) else s3;
    var fin := st.(games := Pending(st), current := Some(g.(description := Some(""))));
    var a := RomLines(g.roms);
    var b := Field("sort-by: ", g.sortBy);
    var c := Field("developer: ", g.developer);
    var d := ["description:"] + (Indented(ds) + [""]);
    GameLinesDescriptionBlock(g, ds);
    RunGameLine(st, g.game.value, a + (b + (c + d)));
    RunRoms(s1, g.roms);
    RunGameSortBy(s2, g.sortBy);
    RunDeveloper(s3, g.developer);
    DescriptionAssembled(st, g);
    RunDescriptionBlock(s4, "description:", ds);
    RunThen(s3, c, d, s4, fin);
    RunThen(s2, b, c + d, s3, fin);
    RunThen(s1, a, b + (c + d), s2, fin);
  }

  /** One game read back after a fragment header. */
  lemma ParsedOne(h: Header, w: Game, r: Game)
    requires r.launchOverride.None? && (r.roms.Some? || r.file.None?)
    requires Run(Start, HeaderLines(h) + GameLines(w)) == Ok(Start.(header := h, current := Some(r)))
    ensures Parse(Dump(h, [w])) == Ok((h, [r]))
  {
    var lines := HeaderLines(h) + GameLines(w);
    assert Dump(h, [w]) == lines by {
      assert GamesLines([w]) == GameLines(w) + GamesLines([]);
    }
    var st := Start.(header := h, current := Some(r));
    ParseOfRun(lines, st);
    OnePending(st, r);
  }

  /** What the parser returns once the run has ended in `st`. */
  lemma ParseOfRun(lines: seq<string>, st: State)
    requires Run(Start, lines) == Ok(st)
    ensures Parse(lines) == Ok((st.header, WithCores(Pending(st))))
  {
  }

  /** A lone open game without a launch override is returned as it is. */
  lemma OnePending(st: State, r: Game)
    requires st.games == [] && st.current == Some(r)
    requires r.launchOverride.None? && (r.roms.Some? || r.file.None?)
    ensures WithCores(Pending(st)) == [r]
  {
    assert Pending(st) == [r];
    assert WithCores([r]) == [r];
  }

  /** The state after the header and a game with a description block. */
  lemma RunDescriptionBlockGame(h: Header, g: Game, ds: seq<string>)
    requires HeaderFragment(h) && GameFragment(g) && FewRoms(g) && g.description.None?
    requires |ds| > 1 && AllClean(ds)
    ensures Run(Start, HeaderLines(h) + GameLines(g.(description := Some(Join(ds, "\n"))))) ==
      Ok(Start.(header := h, current := Some(g.(description := Some("")))))
  {
    var hs := Start.(header := h);
    assert hs.(games := Pending(hs), current := Some(g.(description := Some("")))) ==
      Start.(header := h, current := Some(g.(description := Some(""))));
    RunHeader(h);
    RunAppend(Start, HeaderLines(h), GameLines(g.(description := Some(Join(ds, "\n")))), hs);
    RunGameDescriptionBlock(hs, g, ds);
  }

  /** For a game with at most one rom, a description of several lines is
      written as a block the parser does not read: the key line alone gives
      an empty description and the indented lines are ignored. */
  lemma DescriptionBlockLost(h: Header, g: Game, ds: seq<string>)
    requires HeaderFragment(h) && GameFragment(g) && FewRoms(g) && g.description.None?
    requires |ds| > 1 && AllClean(ds)
    ensures Parse(Dump(h, [g.(description := Some(Join(ds, "\n")))])) ==
      Ok((h, [g.(description := Some(""))]))
  {
    RunDescriptionBlockGame(h, g, ds);
    ParsedOne(h, g.(description := Some(Join(ds, "\n"))), g.(description := Some("")));
  }

  /** Two or more roms: the rom lines leave the `files:` block open. */
  predicate ManyRoms(g: Game) {
    g.roms.Some? && g.roms.value.Items? && |g.roms.value.items| > 1
  }

  /** A description block inside an open `files:` block: the key line
      empties the description and the indented lines are read as more
      roms, up to the closing blank line. */
  lemma RunDescriptionIntoRoms(st: State, xs: seq<string>, ds: seq<string>)
    requires !st.inGlobalLaunch && !st.inGameLaunch && st.inFiles
    requires st.current.Some? && st.current.value.roms == Some(Items(xs)) && AllClean(ds)
    ensures Run(st, ["description:"] + (Indented(ds) + [""])) ==
      Ok(st.(inFiles := false,
             current := Some(st.current.value.(roms := Some(Items(xs + ds)), description := Some("")))))
  {
    var s5 := st.(current := Some(st.current.value.(description := Some(""))));
    var s6 := s5.(current := Some(s5.current.value.(roms := Some(Items(xs + ds)))));
    StepBareDescription(st, "description:");
    IndentedClean(ds);
    RunRomItems(s5, xs, Indented(ds), ds);
    RunBlank(s6);
    RunThen(s5, Indented(ds), [""], s6, s6.(inFiles := false));
    RunCons(st, "description:", Indented(ds) + [""], s5);
  }

  lemma IntoRomsAssembled(st: State, g: Game, ds: seq<string>)
    requires Quiet(st) && GameFragment(g) && ManyRoms(g)
    ensures
      var s1 := st.(games := Pending(st), current := Some(EmptyGame.(game := Some(g.game.value))));
      var s2 := AfterRoms(s1, g.roms);
      var s3 := if g.sortBy.Some? then s2.(current := Some(s2.current.value.(sortBy := g.sortBy))) else s2;
      var s4 := if g.developer.Some? then s3.(current := Some(s3.current.value.(developer := g.developer))) else s3;
      && !s4.inGlobalLaunch && !s4.inGameLaunch && s4.inFiles
      && s4.current.Some? && s4.current.value.roms == g.roms
      && s4.(inFiles := false, current := Some(s4.current.value.(roms := Some(Items(g.roms.value.items + ds)),
                                                                  description := Some("")))) ==
        st.(games := Pending(st), current := Some(g.(roms := Some(Items(g.roms.value.items + ds)),
                                                     description := Some(""))))
  {
  }

  /** A game with several roms and a description of several lines: the
      description comes back empty and its lines come back as extra roms. */
  lemma RunGameDescriptionIntoRoms(st: State, g: Game, ds: seq<string>)
    requires Quiet(st) && GameFragment(g) && ManyRoms(g) && g.description.None?
    requires |ds| > 1 && AllClean(ds)
    ensures Run(st, GameLines(g.(description := Some(Join(ds, "\n"))))) ==
      Ok(st.(games := Pending(st),
             current := Some(g.(roms := Some(Items(g.roms.value.items + ds)), description := Some("")))))
  {
    var s1 := st.(games := Pending(st), current := Some(EmptyGame.(game := Some(g.game.value))));
    var s2 := AfterRoms(s1, g.roms);
    var s3 := if g.sortBy.Some? then s2.(current := Some(s2.current.value.(sortBy := g.sortBy))) else s2;
    var s4 := if g.developer.Some? then s3.(current := Some(s3.current.value.(developer := g.developer))) else s3;
    var fin := st.(games := Pending(st),
                   current := Some(g.(roms := Some(Items(g.roms.value.items + ds)), description := Some(""))));
    var a := RomLines(g.roms);
    var b := Field("sort-by: ", g.sortBy);
    var c := Field("developer: ", g.developer);
    var d := ["description:"] + (Indented(ds) + [""]);
    GameLinesDescriptionBlock(g, ds);
    RunGameLine(st, g.game.value, a + (b + (c + d)));
    RunRoms(s1, g.roms);
    RunGameSortBy(s2, g.sortBy);
    RunDeveloper(s3, g.developer);
    IntoRomsAssembled(st, g, ds);
    RunDescriptionIntoRoms(s4, g.roms.value.items, ds);
    RunThen(s3, c, d, s4, fin);
    RunThen(s2, b, c + d, s3, fin);
    RunThen(s1, a, b + (c + d), s2, fin);
  }

  /** The state after the header and a game with several roms and a
      description block. */
  lemma RunDescriptionIntoRomsGame(h: Header, g: Game, ds: seq<string>)
    requires HeaderFragment(h) && GameFragment(g) && ManyRoms(g) && g.description.None?
    requires |ds| > 1 && AllClean(ds)
    ensures Run(Start, HeaderLines(h) + GameLines(g.(description := Some(Join(ds, "\n"))))) ==
      Ok(Start.(header := h,
                current := Some(g.(roms := Some(Items(g.roms.value.items + ds)), description := Some("")))))
  {
    var hs := Start.(header := h);
    var r := g.(roms := Some(Items(g.roms.value.items + ds)), description := Some(""));
    assert hs.(games := Pending(hs), current := Some(r)) == Start.(header := h, current := Some(r));
    RunHeader(h);
    RunAppend(Start, HeaderLines(h), GameLines(g.(description := Some(Join(ds, "\n")))), hs);
    RunGameDescriptionIntoRoms(hs, g, ds);
  }

  /** With two or more roms the `files:` block is still open when a
      description block starts, since only a blank line closes it: the
      description comes back empty and its lines are appended to the roms. */
  lemma DescriptionBlockIntoRoms(h: Header, g: Game, ds: seq<string>)
    requires HeaderFragment(h) && GameFragment(g) && ManyRoms(g) && g.description.None?
    requires |ds| > 1 && AllClean(ds)
    ensures Parse(Dump(h, [g.(description := Some(Join(ds, "\n")))])) ==
      Ok((h, [g.(roms := Some(Items(g.roms.value.items + ds)), description := Some(""))]))
  {
    RunDescriptionIntoRomsGame(h, g, ds);
    ParsedOne(h, g.(description := Some(Join(ds, "\n"))),
              g.(roms := Some(Items(g.roms.value.items + ds)), description := Some("")));
  }
}

=== FILE: cleantext.dfy ===
/** `_clean_text`: the text normalisation the closure check applies to rom
    paths and descriptions before comparing them. NFKC normalisation is a
    library call and is taken as a parameter. */
module TextCleaning {
  import opened PyStr

  /** U+200B, U+200C, U+200D and U+FEFF. */
  predicate IsZeroWidth(c: char) {
    c == '\U{200B}' || c == '\U{200C}' || c == '\U{200D}' || c == '\U{FEFF}'
  }

  /** U+2028 and U+2029, the separators `_clean_text` deletes. */
  predicate IsHiddenBreak(c: char) {
    c == '\U{2028}' || c == '\U{2029}'
  }

  predicate IsLineSep(c: char) {
    c == '\U{2028}'
  }

  predicate IsParaSep(c: char) {
    c == '\U{2029}'
  }

  /** What never survives `_clean_text`. */
  predicate Unclean(c: char) {
    IsZeroWidth(c) || IsHiddenBreak(c) || c == '\r'
  }

  /** The line does not end in whitespace. */
  predicate RTrimmed(line: string) {
    |line| == 0 || !IsSpace(line[|line| - 1])
  }

  /** No `\n`-separated line of `s` ends in whitespace. */
  predicate LinesRTrimmed(s: string) {
    forall k :: 0 <= k < |Split(s, '\n')| ==> RTrimmed(Split(s, '\n')[k])
  }

  /** Every character of `r` occurs in `s`. */
  predicate CharsFrom(r: string, s: string) {
    forall i :: 0 <= i < |r| ==> r[i] in s
  }

  lemma AvoidsFrom(r: string, s: string, bad: char -> bool)
    requires CharsFrom(r, s) && Avoids(s, bad)
    ensures Avoids(r, bad)
  {
    forall i | 0 <= i < |r|
      ensures !bad(r[i])
    {
      var j :| 0 <= j < |s| && s[j] == r[i];
    }
  }

  /** `re.sub("[...]", "", s)` and `s.replace(c, "")`: every character
      `bad` holds is deleted and the others are kept in order. */
  function Remove(s: string, bad: char -> bool): (r: string)
    ensures Avoids(r, bad)
    ensures CharsFrom(r, s)
    ensures Avoids(s, bad) ==> r == s
    decreases |s|
  {
    if |s| == 0 then ""
    else
      var rest := Remove(s[1..], bad);
      var r := (if bad(s[0]) then "" else [s[0]]) + rest;
      assert forall i :: 0 <= i < |rest| ==> rest[i] in s[1..];
      assert forall x :: x in s[1..] ==> x in s;
      r
  }

  /** `s.replace("\r\n", "\n")`. */
  function ReplaceCRLF(s: string): (r: string)
    ensures CharsFrom(r, s)
    ensures '\r' !in s ==> r == s
    decreases |s|
  {
    if |s| == 0 then ""
    else
      var n := if |s| >= 2 && s[0] == '\r' && s[1] == '\n' then 2 else 1;
      var rest := ReplaceCRLF(s[n..]);
      assert forall i :: 0 <= i < |rest| ==> rest[i] in s[n..];
      assert forall x :: x in s[n..] ==> x in s;
      (if n == 2 then "\n" else [s[0]]) + rest
  }

  lemma ReplaceCharAbsent(s: string, c: char, t: string)
    requires c !in s
    ensures ReplaceChar(s, c, t) == s
    decreases |s|
  {
    if |s| > 0 {
      assert c !in s[1..] by {
        assert forall x :: x in s[1..] ==> x in s;
      }
      ReplaceCharAbsent(s[1..], c, t);
    }
  }

  /** `[ln.rstrip() for ln in lines]`. */
  function RStripEach(lines: seq<string>): (r: seq<string>)
    ensures |r| == |lines|
    ensures forall k :: 0 <= k < |lines| ==> r[k] == RStrip(lines[k])
  {
    seq(|lines|, k requires 0 <= k < |lines| => RStrip(lines[k]))
  }

  /** The text after the deletions and the newline rewriting, before the
      lines are stripped. */
  function Unbroken(nfkc: string -> string, s: string): (u: string)
    ensures Avoids(u, Unclean)
  {
    var s1 := nfkc(s);
    var s2 := Remove(s1, IsZeroWidth);
    var s3 := Remove(Remove(s2, IsLineSep), IsParaSep);
    var s4 := ReplaceCRLF(s3);
    var u := ReplaceChar(s4, '\r', "\n");
    UnbrokenClean(s2, Remove(s2, IsLineSep), s3, s4, u);
    u
  }

  /** The deletions leave no zero-width character or separator, and the
      newline rewriting leaves no `\r` and brings none back. */
  lemma UnbrokenClean(s2: string, s21: string, s3: string, s4: string, u: string)
    requires Avoids(s2, IsZeroWidth) && CharsFrom(s21, s2) && Avoids(s21, IsLineSep)
    requires CharsFrom(s3, s21) && Avoids(s3, IsParaSep) && CharsFrom(s4, s3)
    requires '\r' !in u && forall x :: x in u ==> x in s4 || x in "\n"
    ensures Avoids(u, Unclean)
  {
    AvoidsFrom(s21, s2, IsZeroWidth);
    AvoidsFrom(s3, s21, IsZeroWidth);
    AvoidsFrom(s3, s21, IsLineSep);
    assert Avoids(s3, c => IsZeroWidth(c) || IsHiddenBreak(c));
    AvoidsFrom(s4, s3, c => IsZeroWidth(c) || IsHiddenBreak(c));
    forall i | 0 <= i < |u|
      ensures !Unclean(u[i])
    {
      assert u[i] in s4 || u[i] in "\n";
    }
  }

  /** `_clean_text(s)` for a string `s`: NFKC, the zero-width characters
      and U+2028/U+2029 deleted, every `\r\n` and `\r` turned into `\n`,
      each line right-stripped, the whole stripped. The result holds none
      of the deleted characters and no line of it ends in whitespace. */
  function CleanText(nfkc: string -> string, s: string): (r: string)
    ensures Avoids(r, Unclean)
    ensures Trimmed(r)
    ensures LinesRTrimmed(r)
  {
    var u := Unbroken(nfkc, s);
    StrippedPieces(u);
    JoinStripped(RStripEach(Split(u, '\n')));
    Strip(Join(RStripEach(Split(u, '\n')), "\n"))
  }

  /** Lines free of unclean characters and breaks, none ending in
      whitespace. */
  predicate CleanLines(lines: seq<string>) {
    forall k :: 0 <= k < |lines| ==> Avoids(lines[k], Unclean) && '\n' !in lines[k] && RTrimmed(lines[k])
  }

  /** The right-stripped pieces of a text without unclean characters hold
      none either, nor a break, and do not end in whitespace. */
  lemma StrippedPieces(u: string)
    requires Avoids(u, Unclean)
    ensures CleanLines(RStripEach(Split(u, '\n')))
  {
    var parts := Split(u, '\n');
    var lines := RStripEach(parts);
    JoinAvoids(parts, "\n", Unclean);
    forall k | 0 <= k < |lines|
      ensures Avoids(lines[k], Unclean) && '\n' !in lines[k] && RTrimmed(lines[k])
    {
      assert forall i :: 0 <= i < |lines[k]| ==> lines[k][i] == parts[k][i];
    }
  }

  lemma NewlineClean()
    ensures Avoids("\n", Unclean)
  {
  }

  /** Stripping keeps a text free of what it was free of. */
  lemma StripKeeps(s: string, bad: char -> bool)
    requires Avoids(s, bad)
    ensures Avoids(Strip(s), bad)
  {
    var r := Strip(s);
    InfixAvoids(s, r, |s| - |LStrip(s)|, bad);
  }

  lemma InfixAvoids(s: string, r: string, a: nat, bad: char -> bool)
    requires Avoids(s, bad) && a + |r| <= |s| && r == s[a..a + |r|]
    ensures Avoids(r, bad)
  {
    assert forall i :: 0 <= i < |r| ==> r[i] == s[a + i];
  }

  /** Stripping keeps every break clean. */
  lemma StripBreaksClean(s: string)
    requires BreaksClean(s)
    ensures LinesRTrimmed(Strip(s))
  {
    var r := Strip(s);
    var a := |s| - |LStrip(s)|;
    SliceBreaksClean(s, a, a + |r|);
    BreaksCleanLines(r);
  }

  /** Joining such lines and stripping the whole keeps them clean. */
  lemma JoinStripped(lines: seq<string>)
    requires CleanLines(lines)
    ensures var r := Strip(Join(lines, "\n"));
      Avoids(r, Unclean) && LinesRTrimmed(r)
  {
    NewlineClean();
    JoinAvoidsBack(lines, "\n", Unclean);
    StripKeeps(Join(lines, "\n"), Unclean);
    JoinBreaksClean(lines);
    StripBreaksClean(Join(lines, "\n"));
  }

  /** The pieces of a join avoid what the join avoids. */
  lemma {:induction false} JoinAvoids(parts: seq<string>, sep: string, bad: char -> bool)
    requires Avoids(Join(parts, sep), bad)
    ensures forall k :: 0 <= k < |parts| ==> Avoids(parts[k], bad)
    decreases |parts|
  {
    if |parts| > 1 {
      var tail := Join(parts[1..], sep);
      var s := Join(parts, sep);
      assert s == parts[0] + (sep + tail);
      assert forall i :: 0 <= i < |parts[0]| ==> parts[0][i] == s[i];
      assert forall i :: 0 <= i < |tail| ==> tail[i] == s[|parts[0]| + |sep| + i];
      JoinAvoids(parts[1..], sep, bad);
      assert forall k :: 1 <= k < |parts| ==> parts[k] == parts[1..][k - 1];
    }
  }

  /** A join avoids what its pieces and its separator avoid. */
  lemma {:induction false} JoinAvoidsBack(parts: seq<string>, sep: string, bad: char -> bool)
    requires forall k :: 0 <= k < |parts| ==> Avoids(parts[k], bad)
    requires Avoids(sep, bad)
    ensures Avoids(Join(parts, sep), bad)
    decreases |parts|
  {
    if |parts| > 1 {
      JoinAvoidsBack(parts[1..], sep, bad);
      var tail := Join(parts[1..], sep);
      var s := Join(parts, sep);
      assert s == parts[0] + sep + tail;
      forall i | 0 <= i < |s|
        ensures !bad(s[i])
      {
        if i < |parts[0]| {
          assert s[i] == parts[0][i];
        } else if i < |parts[0]| + |sep| {
          assert s[i] == sep[i - |parts[0]|];
        } else {
          assert s[i] == tail[i - |parts[0]| - |sep|];
        }
      }
    }
  }

  /** Every `\n` of `s` follows another `\n` or a non-space character (or
      opens `s`). */
  predicate BreaksClean(s: string) {
    forall i :: 0 < i < |s| && s[i] == '\n' ==> s[i - 1] == '\n' || !IsSpace(s[i - 1])
  }

  lemma {:induction false} JoinBreaksClean(lines: seq<string>)
    requires forall k :: 0 <= k < |lines| ==> '\n' !in lines[k] && RTrimmed(lines[k])
    ensures BreaksClean(Join(lines, "\n"))
    decreases |lines|
  {
    if |lines| > 1 {
      JoinBreaksClean(lines[1..]);
      var l := lines[0];
      var tail := Join(lines[1..], "\n");
      var s := Join(lines, "\n");
      assert s == l + "\n" + tail;
      forall i | 0 < i < |s| && s[i] == '\n'
        ensures s[i - 1] == '\n' || !IsSpace(s[i - 1])
      {
        if i < |l| {
          assert false;
        } else if i == |l| {
          assert s[i - 1] == l[|l| - 1];
        } else if i > |l| + 1 {
          assert s[i] == tail[i - |l| - 1];
          assert s[i - 1] == tail[i - |l| - 2];
        }
      }
    }
  }

  lemma SliceBreaksClean(s: string, a: int, b: int)
    requires 0 <= a <= b <= |s| && BreaksClean(s)
    ensures BreaksClean(s[a..b])
  {
    var t := s[a..b];
    forall i | 0 < i < |t| && t[i] == '\n'
      ensures t[i - 1] == '\n' || !IsSpace(t[i - 1])
    {
      assert t[i] == s[a + i] && t[i - 1] == s[a + i - 1];
    }
  }

  /** A text whose breaks are clean and whose end is not whitespace has no
      line ending in whitespace. */
  lemma {:induction false} BreaksCleanLines(s: string)
    requires BreaksClean(s) && RTrimmed(s)
    ensures LinesRTrimmed(s)
    decreases |s|
  {
    var i := Find(s, '\n');
    if i < |s| {
      var head := s[..i];
      var rest := s[i + 1..];
      FirstLine(s, i, head, rest);
      BreaksCleanLines(rest);
      LinesRTrimmedCons(head, rest);
    }
  }

  /** Cutting a text with clean breaks at its first `\n`: the first line
      does not end in whitespace and the rest keeps clean breaks. */
  lemma FirstLine(s: string, i: nat, head: string, rest: string)
    requires BreaksClean(s) && RTrimmed(s)
    requires i < |s| && s[i] == '\n' && forall j :: 0 <= j < i ==> s[j] != '\n'
    requires head == s[..i] && rest == s[i + 1..]
    ensures s == head + "\n" + rest && '\n' !in head && RTrimmed(head)
    ensures BreaksClean(rest) && RTrimmed(rest) && |rest| < |s|
  {
    assert s == head + "\n" + rest;
    assert '\n' !in head by {
      assert forall j :: 0 <= j < |head| ==> head[j] == s[j];
    }
    assert RTrimmed(head) by {
      if i > 0 {
        assert s[i - 1] != '\n';
        assert head[i - 1] == s[i - 1];
      }
    }
    SliceBreaksClean(s, i + 1, |s|);
    assert RTrimmed(rest) by {
      if |rest| > 0 {
        assert rest[|rest| - 1] == s[|s| - 1];
      }
    }
  }

  /** A first line without trailing whitespace, then lines without it. */
  lemma LinesRTrimmedCons(head: string, rest: string)
    requires '\n' !in head && RTrimmed(head) && LinesRTrimmed(rest)
    ensures LinesRTrimmed(head + "\n" + rest)
  {
    SplitCons(head, '\n', rest);
    var parts := Split(head + "\n" + rest, '\n');
    forall k | 0 <= k < |parts|
      ensures RTrimmed(parts[k])
    {
      if k > 0 {
        assert parts[k] == Split(rest, '\n')[k - 1];
      }
    }
  }

  /** Text that is already clean is left as it is: with `nfkc` fixing it,
      `CleanText` is the identity on exactly the texts its result
      satisfies. */
  lemma CleanTextFixed(nfkc: string -> string, s: string)
    requires nfkc(s) == s && Avoids(s, Unclean) && Trimmed(s) && LinesRTrimmed(s)
    ensures CleanText(nfkc, s) == s
  {
    UnbrokenFixed(nfkc, s);
    var parts := Split(s, '\n');
    LinesFixed(s, parts);
    StripTrimmed(s);
  }

  /** Nothing is deleted from or rewritten in a text that is already clean. */
  lemma UnbrokenFixed(nfkc: string -> string, s: string)
    requires nfkc(s) == s && Avoids(s, Unclean)
    ensures Unbroken(nfkc, s) == s
  {
    var s2 := Remove(s, IsZeroWidth);
    assert s2 == s;
    assert Remove(s2, IsLineSep) == s;
    assert Remove(Remove(s2, IsLineSep), IsParaSep) == s;
    assert ReplaceCRLF(s) == s;
    ReplaceCharAbsent(s, '\r', "\n");
  }

  /** Right-stripping lines that do not end in whitespace and joining them
      back gives the text. */
  lemma LinesFixed(s: string, parts: seq<string>)
    requires LinesRTrimmed(s) && parts == Split(s, '\n')
    ensures Join(RStripEach(parts), "\n") == s
  {
    assert forall k :: 0 <= k < |parts| ==> RTrimmed(parts[k]);
    RStripEachTrimmed(parts);
    assert "\n" == ['\n'];
  }

  lemma RStripEachTrimmed(parts: seq<string>)
    requires forall k :: 0 <= k < |parts| ==> RTrimmed(parts[k])
    ensures RStripEach(parts) == parts
  {
    forall k | 0 <= k < |parts|
      ensures RStrip(parts[k]) == parts[k]
    {
      RStripTrimmed(parts[k], IsSpace);
    }
  }
}

=== FILE: closure.dfy ===
/** `verify_closure`: parse a metadata file, write what was read in the
    canonical layout, parse that again, and compare the two readings after
    normalising the header and the games and sorting the games by their
    key. The temporary file is the text `ToText` builds; the reports the
    function prints are left out. */
module Closure {
  import opened Wrappers
  import opened PyStr
  import opened Records
  import opened MetadataScanner
  import opened MetadataWriter
  import opened RoundTrip
  import opened RoundTripBreaks
  import opened TextCleaning
  import opened Normalize
  import opened GameSort

  /** `[_normalize_game(g) for g in gs]`. */
  function NormalizeGames(nfkc: string -> string, gs: seq<Game>): (ns: seq<Game>)
    ensures |ns| == |gs|
    ensures forall i :: 0 <= i < |gs| ==> ns[i] == NormalizeGame(nfkc, gs[i])
  {
    seq(|gs|, i requires 0 <= i < |gs| => NormalizeGame(nfkc, gs[i]))
  }

  /** The comparison of two readings: equal normalised headers, and equal
      lists once the normalised games are sorted by `_game_key`. */
  predicate SameReading(nfkc: string -> string, h1: Header, g1: seq<Game>, h2: Header, g2: seq<Game>) {
    && NormalizeHeader(h1) == NormalizeHeader(h2)
    && SortByKey(NormalizeGames(nfkc, g1), GameKey) == SortByKey(NormalizeGames(nfkc, g2), GameKey)
  }

  /** Steps 2 to 4 for a first reading `(h1, g1)`: write it, read the
      written text back, compare. A parse error of the second reading is
      passed on. */
  function CloseOver(nfkc: string -> string, h1: Header, g1: seq<Game>): (r: Result<bool, ParseError>)
    ensures r.Err? <==> ParseText(ToText(Dump(h1, g1))).Err?
    ensures r == Ok(true) ==> exists h2, g2 ::
      ParseText(ToText(Dump(h1, g1))) == Ok((h2, g2)) && SameReading(nfkc, h1, g1, h2, g2)
    ensures var p := ParseText(ToText(Dump(h1, g1)));
      p.Ok? ==> (r == Ok(true) <==> SameReading(nfkc, h1, g1, p.value.0, p.value.1))
  {
    match ParseText(ToText(Dump(h1, g1)))
    case Err(e) => Err(e)
    case Ok((h2, g2)) => Ok(SameReading(nfkc, h1, g1, h2, g2))
  }

  /** `verify_closure` on the text of a metadata file. A parse error of
      either reading is passed on, as the `KeyError` would be. */
  function VerifyClosure(nfkc: string -> string, text: string): (r: Result<bool, ParseError>)
    ensures ParseText(text).Err? ==> r.Err?
    ensures r == Ok(true) ==> exists h1, g1 ::
      ParseText(text) == Ok((h1, g1)) && CloseOver(nfkc, h1, g1) == Ok(true)
    ensures ParseText(text).Ok? ==>
      (r == Ok(true) <==> CloseOver(nfkc, ParseText(text).value.0, ParseText(text).value.1) == Ok(true))
  {
    match ParseText(text)
    case Err(e) => Err(e)
    case Ok((h1, g1)) => CloseOver(nfkc, h1, g1)
  }

  /** Sorting makes the game comparison depend only on which games each
      key picks, in their order: two readings agree exactly when their
      headers normalise alike and, key by key, the normalised games agree. */
  lemma SameReadingByKey(nfkc: string -> string, h1: Header, g1: seq<Game>, h2: Header, g2: seq<Game>)
    ensures SameReading(nfkc, h1, g1, h2, g2) <==>
      NormalizeHeader(h1) == NormalizeHeader(h2) &&
      SameByKey(NormalizeGames(nfkc, g1), NormalizeGames(nfkc, g2), GameKey)
  {
    SortedEqualIff(NormalizeGames(nfkc, g1), NormalizeGames(nfkc, g2), GameKey);
  }

  /** `[f(g) for g in gs]`. */
  function MapGames(f: Game -> Game, gs: seq<Game>): (ns: seq<Game>)
    ensures |ns| == |gs|
    ensures forall i :: 0 <= i < |gs| ==> ns[i] == f(gs[i])
  {
    seq(|gs|, i requires 0 <= i < |gs| => f(gs[i]))
  }

  lemma MapGamesConcat(f: Game -> Game, a: seq<Game>, b: seq<Game>)
    ensures MapGames(f, a + b) == MapGames(f, a) + MapGames(f, b)
  {
  }

  /** Rearranging a list rearranges its image. */
  lemma {:induction false} MapGamesPermute(f: Game -> Game, g1: seq<Game>, g2: seq<Game>)
    requires multiset(g1) == multiset(g2)
    ensures multiset(MapGames(f, g1)) == multiset(MapGames(f, g2))
    decreases |g1|
  {
    if |g1| > 0 {
      var x := g1[0];
      assert g1 == [x] + g1[1..];
      assert x in multiset(g2);
      var j :| 0 <= j < |g2| && g2[j] == x;
      var rest := g2[..j] + g2[j + 1..];
      assert g2 == g2[..j] + [x] + g2[j + 1..];
      assert multiset(g2) == multiset(g2[..j]) + multiset([x]) + multiset(g2[j + 1..]);
      assert multiset(g1) == multiset([x]) + multiset(g1[1..]);
      assert multiset(rest) == multiset(g2[..j]) + multiset(g2[j + 1..]);
      assert multiset(rest) == multiset(g2) - multiset([x]);
      assert multiset(g1[1..]) == multiset(g1) - multiset([x]);
      MapGamesPermute(f, g1[1..], rest);
      MapGamesConcat(f, [x], g1[1..]);
      MapGamesConcat(f, g2[..j], g2[j + 1..]);
      MapGamesConcat(f, g2[..j], [x]);
      MapGamesConcat(f, g2[..j] + [x], g2[j + 1..]);
    }
  }

  /** Rearranging the games rearranges the normalised games. */
  lemma NormalizeGamesPermute(nfkc: string -> string, g1: seq<Game>, g2: seq<Game>)
    requires multiset(g1) == multiset(g2)
    ensures multiset(NormalizeGames(nfkc, g1)) == multiset(NormalizeGames(nfkc, g2))
  {
    var f := g => NormalizeGame(nfkc, g);
    assert NormalizeGames(nfkc, g1) == MapGames(f, g1);
    assert NormalizeGames(nfkc, g2) == MapGames(f, g2);
    MapGamesPermute(f, g1, g2);
  }

  /** When the normalised games of the first reading have distinct keys,
      reading the same games back in any order passes the game
      comparison. */
  lemma GameOrderIgnoredWhenKeysDistinct(nfkc: string -> string, g1: seq<Game>, g2: seq<Game>)
    requires DistinctKeys(NormalizeGames(nfkc, g1), GameKey)
    requires multiset(g1) == multiset(g2)
    ensures SortByKey(NormalizeGames(nfkc, g1), GameKey) == SortByKey(NormalizeGames(nfkc, g2), GameKey)
  {
    NormalizeGamesPermute(nfkc, g1, g2);
    DistinctKeysOrderFree(NormalizeGames(nfkc, g1), NormalizeGames(nfkc, g2), GameKey);
  }

  /** A first reading the writer and the parser agree on passes the check. */
  lemma CloseOverFragment(nfkc: string -> string, h: Header, gs: seq<Game>)
    requires HeaderFragment(h) && AllGames(gs)
    ensures CloseOver(nfkc, h, gs) == Ok(true)
  {
    ParseTextDump(h, gs);
  }

  /** Every file the writer wrote from fragment values passes the check. */
  lemma VerifyClosureOfCanonical(nfkc: string -> string, h: Header, gs: seq<Game>)
    requires HeaderFragment(h) && AllGames(gs)
    ensures VerifyClosure(nfkc, ToText(Dump(h, gs))) == Ok(true)
  {
    ParseTextDump(h, gs);
    CloseOverFragment(nfkc, h, gs);
  }

  /** A clean value behind `launch: ` is clean again. */
  lemma LaunchPrefixClean(b: string)
    requires Clean(b)
    ensures Clean("launch: " + b)
  {
    var s := "launch: " + b;
    forall i | 0 <= i < |s|
      ensures !IsLineBoundary(s[i])
    {
      if i >= 8 {
        assert s[i] == b[i - 8];
      }
    }
    assert s[|s| - 1] == b[|b| - 1];
  }

  /** The canonical text of a header holding only a one-line launch block,
      followed by games, has no line breaks inside its lines. */
  lemma LaunchDumpNoBreaks(b: string, gs: seq<Game>)
    requires Clean(b) && AllGames(gs)
    ensures NoBreaks(Dump(EmptyHeader.(launchBlock := Some(b)), gs))
  {
    HeaderLinesLaunch(b);
    CleanLine("launch: ", b);
    GamesNoBreaks(gs);
    NoBreaksConcat(HeaderLines(EmptyHeader.(launchBlock := Some(b))), GamesLines(gs));
  }

  /** Reading back the canonical text of such a header, as a file. */
  lemma ParseTextLaunch(b: string, gs: seq<Game>)
    requires Clean(b) && AllGames(gs) && |gs| > 0
    ensures ParseText(ToText(Dump(EmptyHeader.(launchBlock := Some(b)), gs))) ==
      Ok((EmptyHeader.(launch := Some(b), launchBlock := Some("launch: " + b)), gs))
  {
    LaunchDumpNoBreaks(b, gs);
    FileLinesToText(Dump(EmptyHeader.(launchBlock := Some(b)), gs));
    LaunchBlockDoubled(b, gs);
  }

  /** What a header `launch: b` line reads as, followed by any games: the
      check fails, because the launch block is stored with its own key line
      and the writer adds another, so the second reading's `launch` is
      `launch: b`. */
  lemma HeaderLaunchFailsClosure(nfkc: string -> string, b: string, gs: seq<Game>)
    requires Clean(b) && AllGames(gs) && |gs| > 0
    ensures CloseOver(nfkc, EmptyHeader.(launch := Some(b), launchBlock := Some("launch: " + b)), gs) == Ok(false)
  {
    var c := "launch: " + b;
    var h1 := EmptyHeader.(launch := Some(b), launchBlock := Some(c));
    var h2 := EmptyHeader.(launch := Some(c), launchBlock := Some("launch: " + c));
    LaunchPrefixClean(b);
    ParseTextLaunch(c, gs);
    assert Dump(h1, gs) == Dump(EmptyHeader.(launchBlock := Some(c)), gs);
    assert |c| != |b|;
    LaunchesDiffer(nfkc, h1, gs, h2, gs);
  }

  /** Readings whose `launch` values differ are never the same. */
  lemma LaunchesDiffer(nfkc: string -> string, h1: Header, g1: seq<Game>, h2: Header, g2: seq<Game>)
    requires h1.launch != h2.launch
    ensures !SameReading(nfkc, h1, g1, h2, g2)
  {
    assert NormalizeHeader(h1).launch != NormalizeHeader(h2).launch;
  }

  /** The canonical file of a header with a one-line launch block fails
      the check: the first reading already holds the doubled key line. */
  lemma CanonicalLaunchFailsClosure(nfkc: string -> string, b: string, gs: seq<Game>)
    requires Clean(b) && AllGames(gs) && |gs| > 0
    ensures VerifyClosure(nfkc, ToText(Dump(EmptyHeader.(launchBlock := Some(b)), gs))) == Ok(false)
  {
    ParseTextLaunch(b, gs);
    HeaderLaunchFailsClosure(nfkc, b, gs);
  }
}

=== FILE: editor.dfy ===
/** `metadata_editor`: the rom-path index over a game list and `upsert_game`,
    which updates the game a rom path belongs to or appends a new one. The
    file is read with the parser and written with the writer; here the
    edit works on the game list between the two. */
module MetadataEditor {
  import opened Wrappers
  import opened PyStr
  import opened Records
  import opened MetadataWriter

  // ---------------------------------------------------------------------
  // The index
  // ---------------------------------------------------------------------

  /** `index[r] = i` for every rom `r` in turn. */
  function AddRoms(m: map<string, nat>, roms: seq<string>, i: nat): (r: map<string, nat>)
    ensures r.Keys == m.Keys + (set x | x in roms)
    ensures forall x :: x in roms ==> r[x] == i
    ensures forall x :: x in m && x !in roms ==> r[x] == m[x]
    decreases |roms|
  {
    if |roms| == 0 then m
    else
      assert forall x :: x in roms <==> x == roms[0] || x in roms[1..] by {
        assert roms == [roms[0]] + roms[1..];
      }
      AddRoms(m[roms[0] := i], roms[1..], i)
  }

  /** The title fallback: a truthy `game` is added only when not a key yet. */
  function AddTitle(m: map<string, nat>, title: Option<string>, i: nat): (r: map<string, nat>)
    ensures Truthy(title) ==> title.value in r
    ensures Truthy(title) && title.value !in m ==> r == m[title.value := i]
    ensures !Truthy(title) || title.value in m ==> r == m
  {
    if Truthy(title) && title.value !in m then m[title.value := i] else m
  }

  /** What game `i` adds to the index. `for r in (g.get("roms") or [])`
      walks the characters of a string value. */
  function IndexStep(m: map<string, nat>, g: Game, i: nat): map<string, nat> {
    AddTitle(AddRoms(m, IterItems(g.roms), i), g.game, i)
  }

  /** `_index_games_by_key`: the games in list order, each adding its roms
      and then, as a fallback, its name. */
  function IndexGames(games: seq<Game>): (m: map<string, nat>)
    ensures forall k :: k in m ==> m[k] < |games|
    decreases |games|
  {
    if |games| == 0 then map[]
    else IndexStep(IndexGames(games[..|games| - 1]), games[|games| - 1], |games| - 1)
  }

  /** Game `j` makes `k` a key: `k` is one of its roms or its truthy name. */
  predicate Names(g: Game, k: string) {
    k in IterItems(g.roms) || (Truthy(g.game) && g.game.value == k)
  }

  /** The keys are exactly the roms and truthy names of the games. */
  lemma {:induction false} IndexKeys(games: seq<Game>, k: string)
    ensures k in IndexGames(games) <==> exists j :: 0 <= j < |games| && Names(games[j], k)
    decreases |games|
  {
    if |games| > 0 {
      var n := |games| - 1;
      var pre := games[..n];
      IndexKeys(pre, k);
      assert forall j :: 0 <= j < n ==> pre[j] == games[j];
      if k in IndexGames(games) && k !in IndexGames(pre) {
        assert Names(games[n], k);
      }
      if Names(games[n], k) {
        assert k in IndexGames(games);
      }
    }
  }

  /** A rom maps to the last game that lists it, whatever names say. */
  lemma {:induction false} IndexRomLast(games: seq<Game>, r: string, j: nat)
    requires j < |games| && r in IterItems(games[j].roms)
    requires forall l :: j < l < |games| ==> r !in IterItems(games[l].roms)
    ensures r in IndexGames(games) && IndexGames(games)[r] == j
    decreases |games|
  {
    var n := |games| - 1;
    var pre := games[..n];
    if j < n {
      assert forall l :: j < l < |pre| ==> pre[l] == games[l];
      IndexRomLast(pre, r, j);
    }
  }

  /** A name no game lists as a rom maps to the first game with that name. */
  lemma {:induction false} IndexTitleFirst(games: seq<Game>, t: string, j: nat)
    requires j < |games| && t != "" && games[j].game == Some(t)
    requires forall l :: 0 <= l < |games| ==> t !in IterItems(games[l].roms)
    requires forall l :: 0 <= l < j ==> games[l].game != Some(t)
    ensures t in IndexGames(games) && IndexGames(games)[t] == j
    decreases |games|
  {
    var n := |games| - 1;
    var pre := games[..n];
    assert IndexGames(games) == IndexStep(IndexGames(pre), games[n], n);
    assert t !in IterItems(games[n].roms);
    if j < n {
      forall l | 0 <= l < |pre|
        ensures t !in IterItems(pre[l].roms)
      {
        assert pre[l] == games[l];
      }
      forall l | 0 <= l < j
        ensures pre[l].game != Some(t)
      {
        assert pre[l] == games[l];
      }
      assert pre[j] == games[j];
      IndexTitleFirst(pre, t, j);
      IndexStepKeeps(IndexGames(pre), games[n], n, t);
    } else {
      TitleNotIndexedYet(pre, t);
      IndexStepAdds(IndexGames(pre), games[n], n, t);
    }
  }

  /** A key that is not one of game `n`'s roms keeps its index. */
  lemma IndexStepKeeps(m: map<string, nat>, g: Game, n: nat, t: string)
    requires t in m && t !in IterItems(g.roms)
    ensures t in IndexStep(m, g, n) && IndexStep(m, g, n)[t] == m[t]
  {
  }

  /** A new name that is not one of the game's roms maps to the game. */
  lemma IndexStepAdds(m: map<string, nat>, g: Game, n: nat, t: string)
    requires t !in m && t !in IterItems(g.roms) && t != "" && g.game == Some(t)
    ensures t in IndexStep(m, g, n) && IndexStep(m, g, n)[t] == n
  {
  }

  /** A name that no game lists as a rom and no game bears is not a key. */
  lemma TitleNotIndexedYet(games: seq<Game>, t: string)
    requires forall l :: 0 <= l < |games| ==> t !in IterItems(games[l].roms) && games[l].game != Some(t)
    ensures t !in IndexGames(games)
  {
    IndexKeys(games, t);
  }

  // ---------------------------------------------------------------------
  // Upsert
  // ---------------------------------------------------------------------

  /** `roms.append(...)` on a string `roms` value raises. */
  datatype EditError = RomsNotList

  /** The matched game's rom list after `rom_path` is added when absent. A
      falsy value becomes a fresh one-element list; a string is tested
      with `in` and cannot be appended to. */
  function AddRom(roms: Option<TextOrList>, romPath: string): (r: Result<Option<TextOrList>, EditError>)
    ensures !TruthyItems(roms) ==> r == Ok(Some(Items([romPath])))
    ensures roms.Some? && roms.value.Items? && romPath in roms.value.items ==> r == Ok(roms)
    ensures TruthyItems(roms) && roms.value.Items? && romPath !in roms.value.items ==>
      r == Ok(Some(Items(roms.value.items + [romPath])))
    ensures r.Err? <==> TruthyItems(roms) && roms.value.Text? && !Contains(roms.value.text, romPath)
  {
    if !TruthyItems(roms) then Ok(Some(Items([romPath])))
    else match roms.value
      case Items(xs) => if romPath in xs then Ok(roms) else Ok(Some(Items(xs + [romPath])))
      case Text(s) => if Contains(s, romPath) then Ok(roms) else Err(RomsNotList)
  }

  /** `g[k] = v` for a string value `v`. */
  function SetKey(g: Game, k: string, v: string): (r: Game)
    ensures k == "game" ==> r == g.(game := Some(v))
    ensures k == "title" ==> r == g.(title := Some(v))
    ensures k == "file" ==> r == g.(file := Some(v))
    ensures k == "roms" ==> r == g.(roms := Some(Text(v)))
    ensures k == "sort_by" ==> r == g.(sortBy := Some(v))
    ensures k == "developer" ==> r == g.(developer := Some(v))
    ensures k == "description" ==> r == g.(description := Some(v))
    ensures k == "year" ==> r == g.(year := Some(v))
    ensures k == "launch" ==> r == g.(launch := Some(v))
    ensures k == "launch_override" ==> r == g.(launchOverride := Some(v))
    ensures k == "launch_block" ==> r == g.(launchBlock := Some(v))
    ensures k == "core_override" ==> r == g.(coreOverride := Some(v))
    ensures k == "id" ==> r == g.(id := Some(v))
    ensures k == "assets" ==> r == g.(assets := Some(AssetScalar(v)))
    ensures k == "rom_hashes" ==> r == g.(romHashes := Some(RomHashScalar(v)))
    ensures k in KnownKeys ==> r.extra == g.extra
    ensures k !in KnownKeys ==> r == g.(extra := g.extra[k := v])
  {
    match k
    case "game" => g.(game := Some(v))
    case "title" => g.(title := Some(v))
    case "file" => g.(file := Some(v))
    case "roms" => g.(roms := Some(Text(v)))
    case "sort_by" => g.(sortBy := Some(v))
    case "developer" => g.(developer := Some(v))
    case "description" => g.(description := Some(v))
    case "year" => g.(year := Some(v))
    case "launch" => g.(launch := Some(v))
    case "launch_override" => g.(launchOverride := Some(v))
    case "launch_block" => g.(launchBlock := Some(v))
    case "core_override" => g.(coreOverride := Some(v))
    case "id" => g.(id := Some(v))
    case "assets" => g.(assets := Some(AssetScalar(v)))
    case "rom_hashes" => g.(romHashes := Some(RomHashScalar(v)))
    case _ => g.(extra := g.extra[k := v])
  }

  /** The dictionary keys that have a field of their own. */
  const KnownKeys: set<string> := {"game", "title", "file", "roms", "sort_by", "developer",
    "description", "year", "launch", "launch_override", "launch_block", "core_override",
    "id", "assets", "rom_hashes"}

  /** The extra fields in dictionary order; a `None` value is skipped. */
  function ApplyExtra(g: Game, extra: seq<(string, Option<string>)>): Game
    decreases |extra|
  {
    if |extra| == 0 then g
    else
      var g1 := if extra[0].1.Some? then SetKey(g, extra[0].0, extra[0].1.value) else g;
      ApplyExtra(g1, extra[1..])
  }

  /** Extra fields that are all `None` change nothing. */
  lemma {:induction false} ApplyExtraSkipsNone(g: Game, extra: seq<(string, Option<string>)>)
    requires forall k :: 0 <= k < |extra| ==> extra[k].1.None?
    ensures ApplyExtra(g, extra) == g
    decreases |extra|
  {
    if |extra| > 0 {
      ApplyExtraSkipsNone(g, extra[1..]);
    }
  }

  /** An extra field outside the known keys lands in `extra`, the last
      non-`None` value for a key winning. */
  lemma {:induction false} ApplyExtraLastWins(g: Game, extra: seq<(string, Option<string>)>, k: string, v: string)
    requires k !in KnownKeys && |extra| > 0 && extra[|extra| - 1] == (k, Some(v))
    ensures k in ApplyExtra(g, extra).extra && ApplyExtra(g, extra).extra[k] == v
    decreases |extra|
  {
    if |extra| > 1 {
      var g1 := if extra[0].1.Some? then SetKey(g, extra[0].0, extra[0].1.value) else g;
      assert extra[1..][|extra[1..]| - 1] == (k, Some(v));
      ApplyExtraLastWins(g1, extra[1..], k, v);
    }
  }

  /** The field updates: only arguments that are not `None` overwrite. */
  function ApplyFields(g: Game, title: Option<string>, developer: Option<string>,
                       description: Option<string>, extra: seq<(string, Option<string>)>): Game
  {
    var g1 := g.(game := if title.Some? then title else g.game,
                 developer := if developer.Some? then developer else g.developer,
                 description := if description.Some? then description else g.description);
    ApplyExtra(g1, extra)
  }

  /** The game `upsert_game` appends: `game = title or rom_path`. */
  function NewGame(romPath: string, title: Option<string>): Game {
    EmptyGame.(game := Some(if Truthy(title) then title.value else romPath), roms := Some(Items([romPath])))
  }

  /** `upsert_game` on the parsed game list: the game `rom_path` is indexed
      to is updated in place, otherwise one new game is appended; then the
      given fields are set on that game only. */
  function UpsertGame(games: seq<Game>, romPath: string, title: Option<string>, developer: Option<string>,
                      description: Option<string>, extra: seq<(string, Option<string>)>): (r: Result<seq<Game>, EditError>)
    ensures romPath in IndexGames(games) && r.Ok? ==>
      var i := IndexGames(games)[romPath];
      && |r.value| == |games|
      && (forall j :: 0 <= j < |games| && j != i ==> r.value[j] == games[j])
    ensures romPath !in IndexGames(games) ==>
      r == Ok(games + [ApplyFields(NewGame(romPath, title), title, developer, description, extra)])
    ensures r.Err? ==> romPath in IndexGames(games)
  {
    var idx := IndexGames(games);
    if romPath in idx then
      var i := idx[romPath];
      var g := games[i];
      match AddRom(g.roms, romPath)
      case Err(e) => Err(e)
      case Ok(roms) => Ok(games[i := ApplyFields(g.(roms := roms), title, developer, description, extra)])
    else
      Ok(games + [ApplyFields(NewGame(romPath, title), title, developer, description, extra)])
  }

  /** The matched game gets `rom_path` in its roms, without a duplicate, and
      the given fields; with no extra fields nothing else of it changes. */
  lemma UpsertExisting(games: seq<Game>, romPath: string, title: Option<string>, developer: Option<string>,
                       description: Option<string>)
    requires romPath in IndexGames(games)
    requires var g := games[IndexGames(games)[romPath]]; !(TruthyItems(g.roms) && g.roms.value.Text?)
    ensures var i := IndexGames(games)[romPath];
      var g := games[i];
      var r := UpsertGame(games, romPath, title, developer, description, []);
      && r.Ok?
      && r.value[i].roms.Some? && r.value[i].roms.value.Items?
      && romPath in r.value[i].roms.value.items
      && (TruthyItems(g.roms) && romPath in IterItems(g.roms) ==> r.value[i].roms == g.roms)
      && r.value[i].game == (if title.Some? then title else g.game)
      && r.value[i].developer == (if developer.Some? then developer else g.developer)
      && r.value[i].description == (if description.Some? then description else g.description)
      && r.value[i].(roms := g.roms, game := g.game, developer := g.developer, description := g.description) == g
  {
  }

  /** A rom path not indexed yet adds one game at the end, named by a truthy
      title and otherwise by the rom path, listing just that rom. */
  lemma UpsertNew(games: seq<Game>, romPath: string, title: Option<string>, developer: Option<string>,
                  description: Option<string>)
    requires romPath !in IndexGames(games)
    ensures var r := UpsertGame(games, romPath, title, developer, description, []);
      && r.Ok? && |r.value| == |games| + 1 && r.value[..|games|] == games
      && r.value[|games|] == EmptyGame.(
           game := if title.Some? then title else Some(romPath),
           roms := Some(Items([romPath])),
           developer := developer,
           description := description)
  {
  }

  /** An empty title names the appended game `rom_path` first and then
      overwrites that with `""`: the writer drops such a game, so the next
      dump loses it. */
  lemma UpsertEmptyTitleDropped(games: seq<Game>, romPath: string, developer: Option<string>,
                                description: Option<string>)
    requires romPath !in IndexGames(games)
    ensures var r := UpsertGame(games, romPath, Some(""), developer, description, []);
      r.Ok? && GameLines(r.value[|games|]) == []
  {
  }

  /** Every game's roms are a list or absent, as the parser leaves them. */
  predicate ListRoms(games: seq<Game>) {
    forall j :: 0 <= j < |games| ==> games[j].roms.None? || games[j].roms.value.Items?
  }

  /** After an upsert without extra fields on list-valued roms, the rom path
      is indexed and listed by the game it is indexed to. */
  lemma UpsertIndexed(games: seq<Game>, romPath: string, title: Option<string>, developer: Option<string>,
                      description: Option<string>)
    requires ListRoms(games)
    ensures var r := UpsertGame(games, romPath, title, developer, description, []);
      && r.Ok?
      && romPath in IndexGames(r.value)
      && romPath in IterItems(r.value[IndexGames(r.value)[romPath]].roms)
  {
    var r := UpsertGame(games, romPath, title, developer, description, []);
    var idx := IndexGames(games);
    if romPath in idx {
      var i := idx[romPath];
      UpsertExisting(games, romPath, title, developer, description);
      RomIndexedSomewhere(r.value, romPath, i);
    } else {
      UpsertNew(games, romPath, title, developer, description);
      IndexRomLast(r.value, romPath, |games|);
    }
  }

  /** A rom some game lists is indexed to a game that lists it. */
  lemma {:induction false} RomIndexedSomewhere(games: seq<Game>, r: string, j: nat)
    requires j < |games| && r in IterItems(games[j].roms)
    ensures r in IndexGames(games) && r in IterItems(games[IndexGames(games)[r]].roms)
    decreases |games| - j
  {
    if exists l :: j < l < |games| && r in IterItems(games[l].roms) {
      var l :| j < l < |games| && r in IterItems(games[l].roms);
      RomIndexedSomewhere(games, r, l);
    } else {
      IndexRomLast(games, r, j);
    }
  }

  /** Without extra fields an upsert leaves every rom value a list. */
  lemma UpsertKeepsListRoms(games: seq<Game>, romPath: string, title: Option<string>,
                            developer: Option<string>, description: Option<string>)
    requires ListRoms(games)
    ensures var r := UpsertGame(games, romPath, title, developer, description, []);
      r.Ok? && ListRoms(r.value)
  {
    if romPath in IndexGames(games) {
      UpsertExisting(games, romPath, title, developer, description);
    } else {
      UpsertNew(games, romPath, title, developer, description);
    }
  }

  /** Upserting the same rom path twice appends at most one game: the
      second call finds the rom and updates in place. */
  lemma UpsertTwiceAppendsOnce(games: seq<Game>, romPath: string, title: Option<string>,
                               developer: Option<string>, description: Option<string>)
    requires ListRoms(games)
    ensures var r1 := UpsertGame(games, romPath, title, developer, description, []);
      && r1.Ok?
      && var r2 := UpsertGame(r1.value, romPath, title, developer, description, []);
      && r2.Ok? && |r2.value| == |r1.value|
  {
    UpsertIndexed(games, romPath, title, developer, description);
    UpsertKeepsListRoms(games, romPath, title, developer, description);
    var r1 := UpsertGame(games, romPath, title, developer, description, []);
    UpsertExisting(r1.value, romPath, title, developer, description);
  }
}

=== FILE: gamesort.dfy ===
/** `sorted(games, key=_game_key)`: Python's stable sort by a `(str, str)`
    key. The sort is stated for any element type and key function; the
    closure check applies it to games and `Normalize.GameKey`. */
module GameSort {
  import opened StringOrder

  /** Python's `<` on `(str, str)` tuples. */
  predicate KeyLess(a: (string, string), b: (string, string)) {
    Less(a.0, b.0) || (a.0 == b.0 && Less(a.1, b.1))
  }

  lemma KeyLessIrreflexive(a: (string, string))
    ensures !KeyLess(a, a)
  {
    LessIrreflexive(a.0);
    LessIrreflexive(a.1);
  }

  lemma KeyLessAsymmetric(a: (string, string), b: (string, string))
    requires KeyLess(a, b)
    ensures !KeyLess(b, a)
  {
    if Less(a.0, b.0) {
      LessAsymmetric(a.0, b.0);
      LessIrreflexive(a.0);
    } else {
      LessAsymmetric(a.1, b.1);
      LessIrreflexive(a.0);
    }
  }

  lemma KeyLessTotal(a: (string, string), b: (string, string))
    requires a != b
    ensures KeyLess(a, b) || KeyLess(b, a)
  {
    if a.0 != b.0 {
      LessTotal(a.0, b.0);
    } else {
      LessTotal(a.1, b.1);
    }
  }

  lemma KeyLessTransitive(a: (string, string), b: (string, string), c: (string, string))
    requires KeyLess(a, b) && KeyLess(b, c)
    ensures KeyLess(a, c)
  {
    if Less(a.0, b.0) && Less(b.0, c.0) {
      LessTransitive(a.0, b.0, c.0);
    } else if a.0 == b.0 && b.0 == c.0 {
      LessTransitive(a.1, b.1, c.1);
    }
  }

  /** A key `c` not above a sorted list's head `a` is not above any key `b`
      of the list either: the step that keeps `InsertByKey` sorted. */
  lemma KeyLessBelow(a: (string, string), b: (string, string), c: (string, string))
    requires !KeyLess(a, c) && !KeyLess(b, a)
    ensures !KeyLess(b, c)
  {
    if KeyLess(b, c) && c != a {
      KeyLessTotal(a, c);
      KeyLessTransitive(b, c, a);
    }
  }

  /** No element has a smaller key than one before it. */
  predicate KeySorted<T>(s: seq<T>, key: T -> (string, string)) {
    forall i, j :: 0 <= i < j < |s| ==> !KeyLess(key(s[j]), key(s[i]))
  }

  /** The elements of `s` whose key is `k`, in their order in `s`. */
  function WithKey<T>(s: seq<T>, key: T -> (string, string), k: (string, string)): (r: seq<T>)
    ensures forall x :: x in r ==> x in s && key(x) == k
    decreases |s|
  {
    if |s| == 0 then []
    else
      assert forall x :: x in s[1..] ==> x in s;
      (if key(s[0]) == k then [s[0]] else []) + WithKey(s[1..], key, k)
  }

  /** `x` placed before the first element whose key is not smaller. */
  function InsertByKey<T>(x: T, s: seq<T>, key: T -> (string, string)): (r: seq<T>)
    ensures multiset(r) == multiset(s) + multiset{x}
    decreases |s|
  {
    if |s| == 0 || !KeyLess(key(s[0]), key(x)) then [x] + s
    else
      assert s == [s[0]] + s[1..];
      [s[0]] + InsertByKey(x, s[1..], key)
  }

  /** Inserting into a sorted list keeps it sorted. */
  lemma {:induction false} InsertSorted<T>(x: T, s: seq<T>, key: T -> (string, string))
    requires KeySorted(s, key)
    ensures KeySorted(InsertByKey(x, s, key), key)
    decreases |s|
  {
    if |s| == 0 || !KeyLess(key(s[0]), key(x)) {
      var r := [x] + s;
      forall i, j | 0 <= i < j < |r|
        ensures !KeyLess(key(r[j]), key(r[i]))
      {
        if i == 0 {
          assert r[j] == s[j - 1];
          if j - 1 > 0 {
            assert !KeyLess(key(s[j - 1]), key(s[0]));
          } else {
            KeyLessIrreflexive(key(s[0]));
          }
          KeyLessBelow(key(s[0]), key(s[j - 1]), key(x));
        } else {
          assert r[i] == s[i - 1] && r[j] == s[j - 1];
        }
      }
    } else {
      InsertSorted(x, s[1..], key);
      var rest := InsertByKey(x, s[1..], key);
      var r := [s[0]] + rest;
      KeyLessAsymmetric(key(s[0]), key(x));
      forall i, j | 0 <= i < j < |r|
        ensures !KeyLess(key(r[j]), key(r[i]))
      {
        if i == 0 {
          assert r[j] == rest[j - 1];
          assert r[j] in multiset(rest);
          assert r[j] == x || r[j] in multiset(s[1..]);
          if r[j] != x {
            var m :| 0 <= m < |s[1..]| && s[1..][m] == r[j];
            assert r[j] == s[m + 1];
          }
        } else {
          assert r[i] == rest[i - 1] && r[j] == rest[j - 1];
        }
      }
    }
  }

  /** `sorted(xs, key=key)`: a stable insertion sort. */
  function SortByKey<T>(xs: seq<T>, key: T -> (string, string)): (r: seq<T>)
    ensures KeySorted(r, key)
    ensures multiset(r) == multiset(xs)
    decreases |xs|
  {
    if |xs| == 0 then []
    else
      assert xs == [xs[0]] + xs[1..];
      InsertSorted(xs[0], SortByKey(xs[1..], key), key);
      InsertByKey(xs[0], SortByKey(xs[1..], key), key)
  }

  /** One step of `WithKey`, for callers that need it unfolded. */
  lemma WithKeyCons<T>(s: seq<T>, key: T -> (string, string), k: (string, string))
    requires |s| > 0
    ensures WithKey(s, key, k) == (if key(s[0]) == k then [s[0]] else []) + WithKey(s[1..], key, k)
  {
  }

  /** Inserting `x` adds it in front of the elements sharing its key. */
  lemma {:induction false} InsertWithKey<T>(x: T, s: seq<T>, key: T -> (string, string), k: (string, string))
    ensures WithKey(InsertByKey(x, s, key), key, k) == (if key(x) == k then [x] else []) + WithKey(s, key, k)
    decreases |s|
  {
    if |s| == 0 || !KeyLess(key(s[0]), key(x)) {
      assert ([x] + s)[1..] == s;
    } else {
      var rest := InsertByKey(x, s[1..], key);
      assert InsertByKey(x, s, key) == [s[0]] + rest;
      InsertWithKey(x, s[1..], key, k);
      WithKeyFront(s[0], rest, key, k);
      WithKeyCons(s, key, k);
      if key(x) == k {
        KeyLessIrreflexive(k);
      }
      SwapFront(if key(s[0]) == k then [s[0]] else [], if key(x) == k then [x] else [], WithKey(s[1..], key, k));
    }
  }

  /** One step of `WithKey` on a list built by consing. */
  lemma WithKeyFront<T>(y: T, rest: seq<T>, key: T -> (string, string), k: (string, string))
    ensures WithKey([y] + rest, key, k) == (if key(y) == k then [y] else []) + WithKey(rest, key, k)
  {
    assert ([y] + rest)[0] == y && ([y] + rest)[1..] == rest;
  }

  /** Two prefixes, one of them empty, commute. */
  lemma SwapFront<T>(a: seq<T>, b: seq<T>, w: seq<T>)
    requires a == [] || b == []
    ensures a + (b + w) == b + (a + w)
  {
    if a == [] {
      assert a + (b + w) == b + w == b + (a + w);
    } else {
      assert a + (b + w) == a + w == b + (a + w);
    }
  }

  /** The sort is stable: the elements sharing a key keep their input
      order. */
  lemma {:induction false} SortWithKey<T>(xs: seq<T>, key: T -> (string, string), k: (string, string))
    ensures WithKey(SortByKey(xs, key), key, k) == WithKey(xs, key, k)
    decreases |xs|
  {
    if |xs| > 0 {
      SortWithKey(xs[1..], key, k);
      InsertWithKey(xs[0], SortByKey(xs[1..], key), key, k);
    }
  }

  /** Two lists agree key by key. */
  ghost predicate SameByKey<T>(a: seq<T>, b: seq<T>, key: T -> (string, string)) {
    forall k :: WithKey(a, key, k) == WithKey(b, key, k)
  }

  /** In a key-sorted list no key below the first one occurs. */
  lemma HeadKeyLeast<T>(s: seq<T>, key: T -> (string, string), k: (string, string))
    requires KeySorted(s, key) && |s| > 0 && WithKey(s, key, k) != []
    ensures !KeyLess(k, key(s[0]))
  {
    var y := WithKey(s, key, k)[0];
    assert y in WithKey(s, key, k);
    var i :| 0 <= i < |s| && s[i] == y;
    if i > 0 {
      assert !KeyLess(key(s[i]), key(s[0]));
    } else {
      KeyLessIrreflexive(k);
    }
  }

  /** Two key-sorted lists with the same elements per key, in the same
      order, start with the same element. */
  lemma SortedSameHead<T>(s: seq<T>, t: seq<T>, key: T -> (string, string))
    requires KeySorted(s, key) && KeySorted(t, key) && |s| > 0 && |t| > 0
    requires SameByKey(s, t, key)
    ensures s[0] == t[0]
  {
    var k := key(s[0]);
    var k' := key(t[0]);
    WithKeyCons(s, key, k);
    WithKeyCons(t, key, k');
    assert WithKey(t, key, k) == WithKey(s, key, k);
    assert WithKey(s, key, k') == WithKey(t, key, k');
    if k != k' {
      HeadKeyLeast(s, key, k');
      HeadKeyLeast(t, key, k);
      KeyLessTotal(k, k');
    } else {
      assert WithKey(s, key, k)[0] == s[0];
      assert WithKey(t, key, k)[0] == t[0];
    }
  }

  /** Dropping an equal head keeps the lists equal key by key. */
  lemma SameByKeyTail<T>(s: seq<T>, t: seq<T>, key: T -> (string, string))
    requires |s| > 0 && |t| > 0 && s[0] == t[0] && SameByKey(s, t, key)
    ensures SameByKey(s[1..], t[1..], key)
  {
    forall k
      ensures WithKey(s[1..], key, k) == WithKey(t[1..], key, k)
    {
      WithKeyCons(s, key, k);
      WithKeyCons(t, key, k);
      var h := if key(s[0]) == k then [s[0]] else [];
      assert WithKey(s, key, k) == WithKey(t, key, k);
      assert WithKey(s[1..], key, k) == (h + WithKey(s[1..], key, k))[|h|..];
      assert WithKey(t[1..], key, k) == (h + WithKey(t[1..], key, k))[|h|..];
    }
  }

  /** Two key-sorted lists with the same elements per key, in the same
      order, are equal. */
  lemma {:induction false} KeySortedUnique<T>(s: seq<T>, t: seq<T>, key: T -> (string, string))
    requires KeySorted(s, key) && KeySorted(t, key)
    requires SameByKey(s, t, key)
    ensures s == t
    decreases |s|
  {
    if |s| > 0 && |t| > 0 {
      SortedSameHead(s, t, key);
      SameByKeyTail(s, t, key);
      KeySortedUnique(s[1..], t[1..], key);
      assert s == [s[0]] + s[1..] && t == [t[0]] + t[1..];
    } else if |s| > 0 {
      WithKeyCons(s, key, key(s[0]));
    } else if |t| > 0 {
      WithKeyCons(t, key, key(t[0]));
    }
  }

  /** Equal sorts mean the same elements per key in the same order. */
  lemma SortedEqualOnlyIf<T>(a: seq<T>, b: seq<T>, key: T -> (string, string))
    requires SortByKey(a, key) == SortByKey(b, key)
    ensures SameByKey(a, b, key)
  {
    forall k
      ensures WithKey(a, key, k) == WithKey(b, key, k)
    {
      SortWithKey(a, key, k);
      SortWithKey(b, key, k);
    }
  }

  /** The same elements per key in the same order mean equal sorts. */
  lemma SortedEqualIf<T>(a: seq<T>, b: seq<T>, key: T -> (string, string))
    requires SameByKey(a, b, key)
    ensures SortByKey(a, key) == SortByKey(b, key)
  {
    forall k
      ensures WithKey(SortByKey(a, key), key, k) == WithKey(SortByKey(b, key), key, k)
    {
      SortWithKey(a, key, k);
      SortWithKey(b, key, k);
    }
    KeySortedUnique(SortByKey(a, key), SortByKey(b, key), key);
  }

  /** Sorting two lists gives the same list exactly when, key by key, they
      hold the same elements in the same order. */
  lemma SortedEqualIff<T>(a: seq<T>, b: seq<T>, key: T -> (string, string))
    ensures SortByKey(a, key) == SortByKey(b, key) <==> SameByKey(a, b, key)
  {
    if SortByKey(a, key) == SortByKey(b, key) {
      SortedEqualOnlyIf(a, b, key);
    }
    if SameByKey(a, b, key) {
      SortedEqualIf(a, b, key);
    }
  }

  /** Sorting does not make the order of elements with equal keys
      irrelevant: two different elements with one key, listed in both
      orders, sort differently. */
  lemma TiesKeepInputOrder<T>(x: T, y: T, key: T -> (string, string))
    requires key(x) == key(y) && x != y
    ensures SortByKey([x, y], key) != SortByKey([y, x], key)
  {
    var k := key(x);
    WithKeyCons([x, y], key, k);
    WithKeyCons([y], key, k);
    WithKeyCons([y, x], key, k);
    WithKeyCons([x], key, k);
    assert [x, y][1..] == [y] && [y][1..] == [] && [y, x][1..] == [x] && [x][1..] == [];
    assert WithKey([x, y], key, k)[0] != WithKey([y, x], key, k)[0];
    SortedEqualIff([x, y], [y, x], key);
  }

  /** All keys in `s` differ. */
  predicate DistinctKeys<T>(s: seq<T>, key: T -> (string, string)) {
    forall i, j :: 0 <= i < j < |s| ==> key(s[i]) != key(s[j])
  }

  /** How often `x` occurs among the elements with key `k`. */
  lemma {:induction false} WithKeyCount<T>(s: seq<T>, key: T -> (string, string), k: (string, string), x: T)
    ensures multiset(WithKey(s, key, k))[x] == if key(x) == k then multiset(s)[x] else 0
    decreases |s|
  {
    if |s| > 0 {
      WithKeyCount(s[1..], key, k, x);
      assert s == [s[0]] + s[1..];
    }
  }

  /** No element of `s` has key `k`, so none is picked. */
  lemma {:induction false} WithKeyNone<T>(s: seq<T>, key: T -> (string, string), k: (string, string))
    requires forall i :: 0 <= i < |s| ==> key(s[i]) != k
    ensures WithKey(s, key, k) == []
    decreases |s|
  {
    if |s| > 0 {
      WithKeyNone(s[1..], key, k);
    }
  }

  /** With distinct keys, each key picks at most one element. */
  lemma {:induction false} WithKeyAtMostOne<T>(s: seq<T>, key: T -> (string, string), k: (string, string))
    requires DistinctKeys(s, key)
    ensures |WithKey(s, key, k)| <= 1
    decreases |s|
  {
    if |s| > 0 {
      assert DistinctKeys(s[1..], key) by {
        forall i, j | 0 <= i < j < |s[1..]|
          ensures key(s[1..][i]) != key(s[1..][j])
        {
          assert s[1..][i] == s[i + 1] && s[1..][j] == s[j + 1];
        }
      }
      WithKeyAtMostOne(s[1..], key, k);
      WithKeyCons(s, key, k);
      if key(s[0]) == k {
        forall i | 0 <= i < |s[1..]|
          ensures key(s[1..][i]) != k
        {
          assert s[1..][i] == s[i + 1];
        }
        WithKeyNone(s[1..], key, k);
      }
    }
  }

  /** Sequences with the same multiplicities have the same length. */
  lemma SameCountsSameLength<T>(a: seq<T>, b: seq<T>)
    requires forall x :: multiset(a)[x] == multiset(b)[x]
    ensures multiset(a) == multiset(b) && |a| == |b|
  {
    assert multiset(a) == multiset(b);
    assert |multiset(a)| == |multiset(b)|;
  }

  /** One key of two rearranged lists with distinct keys picks the same
      elements. */
  lemma DistinctKeysSameKey<T>(a: seq<T>, b: seq<T>, key: T -> (string, string), k: (string, string))
    requires DistinctKeys(a, key) && multiset(a) == multiset(b)
    ensures WithKey(a, key, k) == WithKey(b, key, k)
  {
    var wa := WithKey(a, key, k);
    var wb := WithKey(b, key, k);
    forall x
      ensures multiset(wa)[x] == multiset(wb)[x]
    {
      WithKeyCount(a, key, k, x);
      WithKeyCount(b, key, k, x);
    }
    SameCountsSameLength(wa, wb);
    WithKeyAtMostOne(a, key, k);
    assert |wa| == 1 ==> wa[0] in multiset(wb);
    assert |wa| == 1 ==> wa == [wa[0]] && wb == [wb[0]];
  }

  /** When no two elements share a key, the sort ignores the order of its
      input: any rearrangement sorts to the same list. */
  lemma DistinctKeysOrderFree<T>(a: seq<T>, b: seq<T>, key: T -> (string, string))
    requires DistinctKeys(a, key) && multiset(a) == multiset(b)
    ensures SortByKey(a, key) == SortByKey(b, key)
  {
    forall k
      ensures WithKey(a, key, k) == WithKey(b, key, k)
    {
      DistinctKeysSameKey(a, b, key, k);
    }
    SortedEqualIf(a, b, key);
  }
}

=== FILE: hack.dfy ===
/** `detect_hack`: whether a game of the descriptions export is flagged as
    a hack, from its platform key or from keywords in its name or file. */
module HackDetection {
  import opened Wrappers
  import opened PyStr
  import opened Records

  /** The keywords looked for: `hack` and the Chinese words for "modified
      version" and "corrected version". */
  const HackKeywords: seq<string> := ["hack", "改版", "修正版"]

  /** `any(k in name or k in file for k in keywords)`. */
  function AnyKeyword(keywords: seq<string>, name: string, file: string): (r: bool)
    ensures r <==> exists i :: 0 <= i < |keywords| && (Contains(name, keywords[i]) || Contains(file, keywords[i]))
    decreases |keywords|
  {
    if |keywords| == 0 then false
    else
      var rest := AnyKeyword(keywords[1..], name, file);
      assert rest <==> exists i :: 1 <= i < |keywords| && (Contains(name, keywords[i]) || Contains(file, keywords[i])) by {
        assert forall i :: 1 <= i < |keywords| ==> keywords[i] == keywords[1..][i - 1];
        if rest {
          var i :| 0 <= i < |keywords[1..]| && (Contains(name, keywords[1..][i]) || Contains(file, keywords[1..][i]));
          assert keywords[1..][i] == keywords[i + 1];
        }
      }
      Contains(name, keywords[0]) || Contains(file, keywords[0]) || rest
  }

  /** `detect_hack`: a platform key ending in `_hack` flags every game;
      otherwise a game is flagged exactly when a keyword occurs in its
      lower-cased name or lower-cased file, a missing one read as `""`. */
  function DetectHack(platformKey: string, g: Game): (r: bool)
    ensures EndsWith(platformKey, "_hack") ==> r
    ensures !EndsWith(platformKey, "_hack") ==>
      (r <==> exists k :: k in HackKeywords &&
                (Contains(Lower(OrEmpty(g.game)), k) || Contains(Lower(OrEmpty(g.file)), k)))
  {
    var name := Lower(OrEmpty(g.game));
    var file := Lower(OrEmpty(g.file));
    var found := AnyKeyword(HackKeywords, name, file);
    assert found <==> exists k :: k in HackKeywords && (Contains(name, k) || Contains(file, k)) by {
      if found {
        var i :| 0 <= i < |HackKeywords| && (Contains(name, HackKeywords[i]) || Contains(file, HackKeywords[i]));
        assert HackKeywords[i] in HackKeywords;
      }
    }
    EndsWith(platformKey, "_hack") || found
  }

  lemma LowerUpperChar(c: char)
    ensures LowerChar(UpperChar(c)) == LowerChar(c)
  {
    if 'a' <= c <= 'z' {
      assert 'A' <= UpperChar(c) <= 'Z';
    }
  }

  /** Lower-casing forgets an upper-casing. */
  lemma LowerUpper(s: string)
    ensures Lower(Upper(s)) == Lower(s)
  {
    forall i | 0 <= i < |s|
      ensures Lower(Upper(s))[i] == Lower(s)[i]
    {
      LowerUpperChar(s[i]);
    }
  }

  /** The classification ignores the case of the name and the file. */
  lemma DetectHackCaseInsensitive(platformKey: string, g: Game, name: string, file: string)
    ensures DetectHack(platformKey, g.(game := Some(Upper(name)), file := Some(Upper(file)))) ==
            DetectHack(platformKey, g.(game := Some(name), file := Some(file)))
  {
    LowerUpper(name);
    LowerUpper(file);
    assert OrEmpty(Some(Upper(name))) == Upper(OrEmpty(Some(name)));
    assert OrEmpty(Some(Upper(file))) == Upper(OrEmpty(Some(file)));
  }
}

=== FILE: jsondb.dfy ===
/** The JSON database of one platform: `export_platform_to_json` projects a
    parsed header and its games onto it, and `json_to_metadata` rebuilds a
    header from it and writes the metadata file again. Reading and writing
    the JSON file is left out; `extract_libretro_core` is a parameter. */
module JsonDb {
  import opened Wrappers
  import opened PyStr
  import opened Records
  import opened MetadataWriter

  /** The keys of the JSON document the two tools use. `platform` is what
      the exporter writes; `platform_name` is what the importer reads. */
  datatype Payload = Payload(
    schemaVersion: int,
    platform: Option<string>,
    platformName: Option<string>,
    collection: Option<string>,
    defaultSortBy: Option<string>,
    launchBlock: Option<string>,
    ignoreFiles: Option<seq<string>>,
    extensions: Option<TextOrList>,
    games: Option<seq<Game>>,
    defaultCore: Option<string>)

  /** `_build_game_json`: `game`, `file` and `roms` always (roms defaulting
      to `[]`), `sort_by` unless `None`, `developer` and `description` when
      truthy, `assets` when present; a per-game launch block becomes
      `launch_override` when it differs from the header's after `strip`,
      and its extracted core, when truthy, `core_override`. */
  function BuildGameJson(g: Game, h: Header, extract: string -> Option<string>): (d: Game)
    ensures d.game == g.game && d.file == g.file && d.sortBy == g.sortBy && d.assets == g.assets
    ensures d.roms.Some? && (g.roms.Some? ==> d.roms == g.roms)
    ensures !TruthyItems(d.roms) <==> !TruthyItems(g.roms)
    ensures Truthy(d.developer) == Truthy(g.developer) && (Truthy(d.developer) ==> d.developer == g.developer)
    ensures Truthy(d.description) == Truthy(g.description) && (Truthy(d.description) ==> d.description == g.description)
    ensures d.launchOverride.Some? <==>
      Truthy(g.launchBlock) && (!Truthy(h.launchBlock) || Strip(g.launchBlock.value) != Strip(h.launchBlock.value))
    ensures d.launchOverride.Some? ==> d.launchOverride == g.launchBlock
    ensures d.coreOverride.Some? <==> d.launchOverride.Some? && Truthy(extract(d.launchOverride.value))
    ensures d.coreOverride.Some? ==> d.coreOverride == extract(d.launchOverride.value)
    ensures d.title.None? && d.launchBlock.None? && d.year.None? && d.extra == map[]
  {
    var gameLaunch := g.launchBlock;
    var defaultLaunch := h.launchBlock;
    var overrides := Truthy(gameLaunch) && (!Truthy(defaultLaunch) || Strip(gameLaunch.value) != Strip(defaultLaunch.value));
    var core := if overrides then extract(gameLaunch.value) else None;
    EmptyGame.(
      game := g.game,
      file := g.file,
      roms := Some(g.roms.GetOr(Items([]))),
      sortBy := g.sortBy,
      developer := if Truthy(g.developer) then g.developer else None,
      description := if Truthy(g.description) then g.description else None,
      assets := g.assets,
      launchOverride := if overrides then gameLaunch else None,
      coreOverride := if Truthy(core) then core else None)
  }

  /** The games of the payload, one per parsed game and in order. */
  function GamesJson(gs: seq<Game>, h: Header, extract: string -> Option<string>): (ds: seq<Game>)
    ensures |ds| == |gs|
    ensures forall i :: 0 <= i < |gs| ==> ds[i] == BuildGameJson(gs[i], h, extract)
  {
    seq(|gs|, i requires 0 <= i < |gs| => BuildGameJson(gs[i], h, extract))
  }

  /** `default_core`: the extracted core of a truthy header launch block,
      when that is truthy. */
  function DefaultCore(h: Header, extract: string -> Option<string>): (c: Option<string>)
    ensures c.Some? <==> Truthy(h.launchBlock) && Truthy(extract(h.launchBlock.value))
    ensures c.Some? ==> c == extract(h.launchBlock.value)
  {
    if Truthy(h.launchBlock) && Truthy(extract(h.launchBlock.value)) then extract(h.launchBlock.value) else None
  }

  /** The payload `export_platform_to_json` writes. */
  function ExportPayload(h: Header, gs: seq<Game>, platformName: string, extract: string -> Option<string>): (p: Payload)
    ensures p.schemaVersion == 1 && p.platform == Some(platformName) && p.platformName.None?
    ensures p.collection == Or(h.collection, Some(platformName))
    ensures p.defaultSortBy == h.defaultSortBy && p.launchBlock == h.launchBlock
    ensures p.ignoreFiles == Some(h.ignoreFiles.GetOr([]))
    ensures p.extensions == Some(h.extensions.GetOr(Items([])))
    ensures p.games == Some(GamesJson(gs, h, extract))
    ensures p.defaultCore == DefaultCore(h, extract)
  {
    Payload(1, Some(platformName), None, Or(h.collection, Some(platformName)), h.defaultSortBy,
            h.launchBlock, Some(h.ignoreFiles.GetOr([])), Some(h.extensions.GetOr(Items([]))),
            Some(GamesJson(gs, h, extract)), DefaultCore(h, extract))
  }

  /** The header `json_to_metadata` rebuilds: `collection or platform_name
      or key`, the sort key and launch block verbatim, falsy extensions and
      ignore patterns as `[]`. */
  function ImportHeader(p: Payload, key: string): (h: Header)
    ensures h.collection == Some(if Truthy(p.collection) then p.collection.value
                                 else if Truthy(p.platformName) then p.platformName.value else key)
    ensures h.defaultSortBy == p.defaultSortBy && h.launchBlock == p.launchBlock && h.launch.None?
    ensures h.extensions == Some(if TruthyItems(p.extensions) then p.extensions.value else Items([]))
    ensures h.ignoreFiles == Some(if p.ignoreFiles.Some? && |p.ignoreFiles.value| > 0 then p.ignoreFiles.value else [])
  {
    Header(
      collection := Or(Or(p.collection, p.platformName), Some(key)),
      defaultSortBy := p.defaultSortBy,
      launch := None,
      launchBlock := p.launchBlock,
      ignoreFiles := Some(if p.ignoreFiles.Some? && |p.ignoreFiles.value| > 0 then p.ignoreFiles.value else []),
      extensions := Some(if TruthyItems(p.extensions) then p.extensions.value else Items([])))
  }

  /** `json_to_metadata`: the output path `output_root/key/metadata.pegasus.txt`
      and the lines written there, the payload's games unchanged and in
      order. */
  function JsonToMetadata(p: Payload, key: string, outputRoot: string): (out: (string, seq<string>))
    ensures out.0 == PathJoin(PathJoin(outputRoot, key), "metadata.pegasus.txt")
    ensures out.1 == Dump(ImportHeader(p, key), p.games.GetOr([]))
  {
    (PathJoin(PathJoin(outputRoot, key), "metadata.pegasus.txt"), Dump(ImportHeader(p, key), p.games.GetOr([])))
  }

  /** A game the exporter projected is written as the game itself would be
      once its `title` and per-game `launch_block` are dropped: those two
      keys do not survive the JSON database. */
  lemma ExportedGameLines(g: Game, h: Header, extract: string -> Option<string>)
    ensures GameLines(BuildGameJson(g, h, extract)) == GameLines(g.(title := None, launchBlock := None))
  {
    var d := BuildGameJson(g, h, extract);
    assert RomLines(d.roms) == RomLines(g.roms);
    assert Field("developer: ", d.developer) == Field("developer: ", g.developer);
    assert BlockField("description", d.description) == BlockField("description", g.description);
  }

  /** The games as the JSON round trip leaves them. */
  function Stripped(gs: seq<Game>): (rs: seq<Game>)
    ensures |rs| == |gs|
    ensures forall i :: 0 <= i < |gs| ==> rs[i] == gs[i].(title := None, launchBlock := None)
  {
    seq(|gs|, i requires 0 <= i < |gs| => gs[i].(title := None, launchBlock := None))
  }

  lemma ExportedGamesLines(gs: seq<Game>, h: Header, extract: string -> Option<string>)
    ensures GamesLines(GamesJson(gs, h, extract)) == GamesLines(Stripped(gs))
  {
    var a := GamesJson(gs, h, extract);
    var b := Stripped(gs);
    forall i | 0 <= i < |a|
      ensures GameLines(a[i]) == GameLines(b[i])
    {
      ExportedGameLines(gs[i], h, extract);
    }
    SameLines(a, b);
  }

  /** Two game lists write the same lines when their games do, one by one. */
  lemma {:induction false} SameLines(a: seq<Game>, b: seq<Game>)
    requires |a| == |b| && forall i :: 0 <= i < |a| ==> GameLines(a[i]) == GameLines(b[i])
    ensures GamesLines(a) == GamesLines(b)
    decreases |a|
  {
    if |a| > 0 {
      SameLines(a[1..], b[1..]);
    }
  }

  /** The header after the JSON round trip writes as the original with its
      collection filled in. */
  lemma ImportedHeaderLines(h: Header, gs: seq<Game>, platformName: string, key: string,
                            extract: string -> Option<string>)
    ensures HeaderLines(ImportHeader(ExportPayload(h, gs, platformName, extract), key)) ==
      HeaderLines(h.(collection := Some(if Truthy(h.collection) then h.collection.value
                                        else if platformName != "" then platformName else key)))
  {
    var p := ExportPayload(h, gs, platformName, extract);
    var a := ImportHeader(p, key);
    var b := h.(collection := Some(if Truthy(h.collection) then h.collection.value
                                   else if platformName != "" then platformName else key));
    assert ExtensionList(a.extensions) == ExtensionList(b.extensions) by {
      if h.extensions.Some? && h.extensions.value.Text? && h.extensions.value.text == "" {
        assert Split("", ',') == [""];
      }
    }
    assert a.ignoreFiles.GetOr([]) == b.ignoreFiles.GetOr([]);
  }

  /** Exporting a parsed file to the JSON database and rebuilding the
      metadata from it writes the same lines as writing the header and games
      directly, except that the collection is filled in from the platform
      name or the key, and game titles and per-game launch blocks are lost. */
  lemma JsonRoundTrip(h: Header, gs: seq<Game>, platformName: string, key: string, outputRoot: string,
                      extract: string -> Option<string>)
    ensures JsonToMetadata(ExportPayload(h, gs, platformName, extract), key, outputRoot).1 ==
      Dump(h.(collection := Some(if Truthy(h.collection) then h.collection.value
                                 else if platformName != "" then platformName else key)),
           Stripped(gs))
  {
    ImportedHeaderLines(h, gs, platformName, key, extract);
    ExportedGamesLines(gs, h, extract);
  }
}

=== FILE: normalize.dfy ===
/** The semantic normalisation `verify_closure` compares through:
    `_normalize_header`, `_normalize_game` and `_game_key`. A normalised
    header or game is again a header or game record, as the source keeps
    them as dictionaries of the same shape. */
module Normalize {
  import opened Wrappers
  import opened PyStr
  import opened Records
  import opened TextCleaning
  import opened StringOrder

  // ---------------------------------------------------------------------
  // Launch blocks
  // ---------------------------------------------------------------------

  /** `[ln.lstrip() for ln in lines]`. */
  function LStripEach(lines: seq<string>): (r: seq<string>)
    ensures |r| == |lines|
    ensures forall k :: 0 <= k < |lines| ==> r[k] == LStrip(lines[k])
  {
    seq(|lines|, k requires 0 <= k < |lines| => LStrip(lines[k]))
  }

  /** `"\n".join(ln.lstrip() for ln in text.splitlines())`: the lines of
      the result are those of `text` with their indentation removed, and
      none of them starts with whitespace. */
  function Unindent(text: string): (r: string)
    ensures Split(r, '\n') == (if text == "" then [""] else LStripEach(SplitLines(text)))
    ensures forall k :: 0 <= k < |Split(r, '\n')| ==> NoIndent(Split(r, '\n')[k])
  {
    var stripped := LStripEach(SplitLines(text));
    LStripEachNoBreak(SplitLines(text));
    if text == "" then
      assert Split("", '\n') == [""];
      ""
    else
      SplitJoin(stripped, '\n');
      Join(stripped, "\n")
  }

  /** The line does not start with whitespace. */
  predicate NoIndent(line: string) {
    |line| == 0 || !IsSpace(line[0])
  }

  /** Left-stripped lines of `splitlines` hold no `\n` and no indentation. */
  lemma LStripEachNoBreak(lines: seq<string>)
    requires forall k :: 0 <= k < |lines| ==> Avoids(lines[k], IsLineBoundary)
    ensures forall k :: 0 <= k < |lines| ==> '\n' !in LStripEach(lines)[k] && NoIndent(LStripEach(lines)[k])
  {
    var stripped := LStripEach(lines);
    forall k | 0 <= k < |lines|
      ensures '\n' !in stripped[k]
    {
      assert forall i :: 0 <= i < |stripped[k]| ==>
        stripped[k][i] == lines[k][|lines[k]| - |stripped[k]| + i];
      assert IsLineBoundary('\n');
    }
  }

  // ---------------------------------------------------------------------
  // Headers
  // ---------------------------------------------------------------------

  /** `_normalize_header`: missing extensions and ignore patterns become
      empty lists, a comma string of extensions becomes its stripped
      non-empty parts, a truthy `launch_block` loses its indentation, and
      every other key is kept. */
  function NormalizeHeader(h: Header): (n: Header)
    ensures n.collection == h.collection && n.defaultSortBy == h.defaultSortBy && n.launch == h.launch
    ensures n.ignoreFiles.Some? && (h.ignoreFiles.Some? ==> n.ignoreFiles == h.ignoreFiles)
    ensures h.ignoreFiles.None? ==> n.ignoreFiles.value == []
    ensures n.extensions.Some? && n.extensions.value.Items?
    ensures h.extensions.None? ==> n.extensions.value.items == []
    ensures h.extensions.Some? && h.extensions.value.Items? ==> n.extensions == h.extensions
    ensures h.extensions.Some? && h.extensions.value.Text? ==>
      var xs := n.extensions.value.items;
      forall k :: 0 <= k < |xs| ==> xs[k] != "" && Trimmed(xs[k]) && ',' !in xs[k]
    ensures !Truthy(h.launchBlock) ==> n.launchBlock == h.launchBlock
    ensures Truthy(h.launchBlock) ==> n.launchBlock == Some(Unindent(h.launchBlock.value))
  {
    var exts :=
      match h.extensions
      case None => []
      case Some(Items(xs)) => xs
      case Some(Text(s)) => CommaList(s);
    h.(extensions := Some(Items(exts)),
       ignoreFiles := Some(h.ignoreFiles.GetOr([])),
       launchBlock := if Truthy(h.launchBlock) then Some(Unindent(h.launchBlock.value)) else h.launchBlock)
  }

  /** Dropping empty items from a list without any is the identity. */
  lemma DropEmptyNone(xs: seq<string>)
    requires forall k :: 0 <= k < |xs| ==> xs[k] != ""
    ensures DropEmpty(xs) == xs
    decreases |xs|
  {
    if |xs| > 0 {
      DropEmptyNone(xs[1..]);
      assert [xs[0]] + xs[1..] == xs;
    }
  }

  /** A comma string of stripped, non-empty items without commas reads back
      as those items. */
  lemma CommaListJoin(xs: seq<string>)
    requires |xs| > 0
    requires forall k :: 0 <= k < |xs| ==> xs[k] != "" && Trimmed(xs[k]) && ',' !in xs[k]
    ensures CommaList(Join(xs, ",")) == xs
  {
    SplitJoin(xs, ',');
    var stripped := seq(|xs|, k requires 0 <= k < |xs| => Strip(xs[k]));
    forall k | 0 <= k < |xs|
      ensures stripped[k] == xs[k]
    {
      StripTrimmed(xs[k]);
    }
    assert stripped == xs;
    DropEmptyNone(xs);
  }

  /** What the header normaliser is for: an absent list and an empty one,
      and a list of extensions and its comma string, count as the same. */
  lemma NormalizeHeaderEquates(h: Header, xs: seq<string>)
    requires |xs| > 0
    requires forall k :: 0 <= k < |xs| ==> xs[k] != "" && Trimmed(xs[k]) && ',' !in xs[k]
    ensures NormalizeHeader(h.(extensions := None)) == NormalizeHeader(h.(extensions := Some(Items([]))))
    ensures NormalizeHeader(h.(ignoreFiles := None)) == NormalizeHeader(h.(ignoreFiles := Some([])))
    ensures NormalizeHeader(h.(extensions := Some(Text(Join(xs, ","))))) ==
      NormalizeHeader(h.(extensions := Some(Items(xs))))
  {
    CommaListJoin(xs);
  }

  // ---------------------------------------------------------------------
  // Games
  // ---------------------------------------------------------------------

  /** `val not in (None, "", [])` for a string value: kept exactly when
      truthy. */
  function Keep(v: Option<string>): (r: Option<string>)
    ensures r.Some? <==> Truthy(v)
    ensures r.Some? ==> r == v
  {
    if Truthy(v) then v else None
  }

  /** `g.get("roms") or []` with a string wrapped into a one-item list. */
  function RomList(roms: Option<TextOrList>): (xs: seq<string>)
    ensures roms.Some? && roms.value.Items? ==> xs == roms.value.items
    ensures roms.Some? && roms.value.Text? && roms.value.text != "" ==> xs == [roms.value.text]
    ensures !TruthyItems(roms) ==> xs == []
  {
    match roms
    case None => []
    case Some(Items(rs)) => rs
    case Some(Text(s)) => if s == "" then [] else [s]
  }

  /** `_clean_text(r.strip())` for a non-empty rom, `""` for an empty one. */
  function CleanRom(nfkc: string -> string, r: string): string {
    if r == "" then "" else CleanText(nfkc, Strip(r))
  }

  /** The roms cleaned, those cleaning to `""` dropped. */
  function CleanRoms(nfkc: string -> string, roms: seq<string>): (ys: seq<string>)
    ensures "" !in ys
    decreases |roms|
  {
    if |roms| == 0 then []
    else
      var s := CleanRom(nfkc, roms[0]);
      (if s != "" then [s] else []) + CleanRoms(nfkc, roms[1..])
  }

  /** `y` is a cleaned rom exactly when some rom cleans to it. */
  lemma {:induction false} CleanRomsMembers(nfkc: string -> string, roms: seq<string>)
    ensures forall y :: y in CleanRoms(nfkc, roms) <==> y != "" && exists r :: r in roms && CleanRom(nfkc, r) == y
    decreases |roms|
  {
    if |roms| > 0 {
      CleanRomsMembers(nfkc, roms[1..]);
      assert forall r :: r in roms <==> r == roms[0] || r in roms[1..] by {
        assert roms == [roms[0]] + roms[1..];
      }
    }
  }

  /** The rom list `_normalize_game` produces: sorted, without duplicates
      or empties. */
  function NormalizeRoms(nfkc: string -> string, roms: Option<TextOrList>): (ys: seq<string>)
    ensures StrictlySorted(ys)
    ensures forall y :: y in ys <==> y in CleanRoms(nfkc, RomList(roms))
    ensures "" !in ys
  {
    SortedSet(CleanRoms(nfkc, RomList(roms)))
  }

  /** `[ln.lstrip() ...]` applied to a truthy launch block, none otherwise. */
  function UnindentBlock(v: Option<string>): (r: Option<string>)
    ensures r.Some? <==> Truthy(v)
  {
    if Truthy(v) then Some(Unindent(v.value)) else None
  }

  /** A value kept exactly when truthy. */
  predicate KeptAs(r: Option<string>, v: Option<string>) {
    (r.Some? <==> Truthy(v)) && (r.Some? ==> r == v)
  }

  /** `_normalize_game`: only the listed keys, the plain ones kept when
      truthy, `roms` always present and normalised, the description cleaned
      and the launch block unindented when truthy. */
  function NormalizeGame(nfkc: string -> string, g: Game): (n: Game)
    ensures KeptAs(n.game, g.game) && KeptAs(n.title, g.title) && KeptAs(n.sortBy, g.sortBy)
    ensures KeptAs(n.developer, g.developer) && KeptAs(n.year, g.year) && KeptAs(n.coreOverride, g.coreOverride)
    ensures n.roms == Some(Items(NormalizeRoms(nfkc, g.roms)))
    ensures n.description.Some? <==> Truthy(g.description)
    ensures n.description.Some? ==> n.description.value == CleanText(nfkc, g.description.value)
    ensures n.launchBlock.Some? <==> Truthy(g.launchBlock)
    ensures n.launchBlock.Some? ==> n.launchBlock.value == Unindent(g.launchBlock.value)
    ensures n.file.None? && n.launch.None? && n.launchOverride.None? && n.id.None?
    ensures n.assets.None? && n.romHashes.None? && n.extra == map[]
  {
    EmptyGame.(
      game := Keep(g.game),
      title := Keep(g.title),
      sortBy := Keep(g.sortBy),
      developer := Keep(g.developer),
      year := Keep(g.year),
      roms := Some(Items(NormalizeRoms(nfkc, g.roms))),
      description := if Truthy(g.description) then Some(CleanText(nfkc, g.description.value)) else None,
      launchBlock := UnindentBlock(g.launchBlock),
      coreOverride := Keep(g.coreOverride))
  }

  /** The normalised game does not depend on the order or multiplicity of
      the roms: two rom lists with the same members normalise alike. */
  lemma NormalizeGameRomOrderFree(nfkc: string -> string, g: Game, roms: seq<string>)
    requires g.roms.Some? && g.roms.value.Items?
    requires forall y :: y in roms <==> y in g.roms.value.items
    ensures NormalizeGame(nfkc, g.(roms := Some(Items(roms)))) == NormalizeGame(nfkc, g)
  {
    var a := CleanRoms(nfkc, roms);
    var b := CleanRoms(nfkc, g.roms.value.items);
    CleanRomsMembers(nfkc, roms);
    CleanRomsMembers(nfkc, g.roms.value.items);
    assert forall y :: y in a <==> y in b;
    SortedSetOrderFree(a, b);
  }

  // ---------------------------------------------------------------------
  // Sort keys
  // ---------------------------------------------------------------------

  /** `_game_key`: the name (`game`, else `title`, else `""`) and the first
      rom, a string `roms` being its own first rom. */
  function GameKey(g: Game): (key: (string, string))
    ensures key.0 == (if Truthy(g.game) then g.game.value else if Truthy(g.title) then g.title.value else "")
    ensures g.roms.Some? && g.roms.value.Items? && |g.roms.value.items| > 0 ==> key.1 == g.roms.value.items[0]
    ensures g.roms.Some? && g.roms.value.Text? ==> key.1 == g.roms.value.text
    ensures !TruthyItems(g.roms) ==> key.1 == ""
  {
    var rom0 :=
      match g.roms
      case Some(Items(xs)) => if |xs| > 0 then xs[0] else ""
      case Some(Text(s)) => s
      case None => "";
    (OrEmpty(Or(g.game, g.title)), rom0)
  }

  /** Normalising keeps the name part of the key; its rom part becomes the
      least cleaned rom. */
  lemma GameKeyNormalized(nfkc: string -> string, g: Game)
    ensures GameKey(NormalizeGame(nfkc, g)).0 == GameKey(g).0
    ensures var rs := NormalizeRoms(nfkc, g.roms);
      GameKey(NormalizeGame(nfkc, g)).1 == (if |rs| > 0 then rs[0] else "")
    ensures var rs := NormalizeRoms(nfkc, g.roms);
      forall j :: 0 < j < |rs| ==> Less(rs[0], rs[j])
  {
  }
}

=== FILE: ordering.dfy ===
/** Python's ordering of `str` values, and `sorted(set(xs))` on a list of
    strings. */
module StringOrder {

  /** `a < b` on Python strings: lexicographic by code point, a proper
      prefix coming first. */
  predicate Less(a: string, b: string)
    decreases |a|
  {
    |b| > 0 && (|a| == 0 || a[0] < b[0] || (a[0] == b[0] && Less(a[1..], b[1..])))
  }

  lemma {:induction false} LessIrreflexive(a: string)
    ensures !Less(a, a)
    decreases |a|
  {
    if |a| > 0 {
      LessIrreflexive(a[1..]);
    }
  }

  lemma {:induction false} LessTransitive(a: string, b: string, c: string)
    requires Less(a, b) && Less(b, c)
    ensures Less(a, c)
    decreases |a|
  {
    if |a| > 0 && a[0] == b[0] && b[0] == c[0] {
      LessTransitive(a[1..], b[1..], c[1..]);
    }
  }

  lemma {:induction false} LessTotal(a: string, b: string)
    requires a != b
    ensures Less(a, b) || Less(b, a)
    decreases |a|
  {
    if |a| > 0 && |b| > 0 && a[0] == b[0] {
      assert a == [a[0]] + a[1..] && b == [b[0]] + b[1..];
      LessTotal(a[1..], b[1..]);
    }
  }

  lemma LessAsymmetric(a: string, b: string)
    requires Less(a, b)
    ensures !Less(b, a)
  {
    if Less(b, a) {
      LessTransitive(a, b, a);
      LessIrreflexive(a);
    }
  }

  /** Strictly increasing, hence free of duplicates. */
  predicate StrictlySorted(s: seq<string>) {
    forall i, j :: 0 <= i < j < |s| ==> Less(s[i], s[j])
  }

  /** Adds `x` to a strictly sorted list in its place, unless it is there. */
  function InsertUnique(x: string, s: seq<string>): (r: seq<string>)
    requires StrictlySorted(s)
    ensures StrictlySorted(r)
    ensures forall y :: y in r <==> y in s || y == x
    decreases |s|
  {
    if |s| == 0 then [x]
    else if x == s[0] then s
    else if Less(x, s[0]) then
      forall j | 0 <= j < |s|
        ensures Less(x, s[j])
      {
        if j > 0 {
          LessTransitive(x, s[0], s[j]);
        }
      }
      [x] + s
    else
      LessTotal(x, s[0]);
      var rest := InsertUnique(x, s[1..]);
      assert forall y :: y in s[1..] ==> Less(s[0], y);
      assert forall y :: y in s <==> y == s[0] || y in s[1..] by {
        assert s == [s[0]] + s[1..];
      }
      var r := [s[0]] + rest;
      assert forall j :: 0 < j < |r| ==> r[j] == rest[j - 1] && r[j] in rest;
      r
  }

  /** `sorted(set(xs))`. */
  function SortedSet(xs: seq<string>): (r: seq<string>)
    ensures StrictlySorted(r)
    ensures forall y :: y in r <==> y in xs
    decreases |xs|
  {
    if |xs| == 0 then []
    else
      assert forall y :: y in xs <==> y == xs[0] || y in xs[1..] by {
        assert xs == [xs[0]] + xs[1..];
      }
      InsertUnique(xs[0], SortedSet(xs[1..]))
  }

  /** A strictly sorted list is fixed by its elements. */
  lemma {:induction false} SortedUnique(a: seq<string>, b: seq<string>)
    requires StrictlySorted(a) && StrictlySorted(b)
    requires forall y :: y in a <==> y in b
    ensures a == b
    decreases |a|
  {
    assert |b| > 0 ==> b[0] in b;
    if |a| > 0 {
      assert a[0] in b;
      assert |b| > 0;
      assert b[0] in a;
      if a[0] != b[0] {
        var i :| 0 <= i < |b| && b[i] == a[0];
        var j :| 0 <= j < |a| && a[j] == b[0];
        assert Less(b[0], a[0]);
        assert Less(a[0], b[0]);
        LessAsymmetric(a[0], b[0]);
      }
      forall y
        ensures y in a[1..] <==> y in b[1..]
      {
        assert a == [a[0]] + a[1..] && b == [b[0]] + b[1..];
        if y in a[1..] {
          var i :| 0 <= i < |a[1..]| && a[1..][i] == y;
          assert Less(a[0], a[i + 1]);
          LessIrreflexive(y);
          assert y != a[0] && y in b;
        }
        if y in b[1..] {
          var i :| 0 <= i < |b[1..]| && b[1..][i] == y;
          assert Less(b[0], b[i + 1]);
          LessIrreflexive(y);
          assert y != b[0] && y in a;
        }
      }
      SortedUnique(a[1..], b[1..]);
      assert a == [a[0]] + a[1..] && b == [b[0]] + b[1..];
    }
  }

  /** `sorted(set(xs))` depends only on which strings occur in `xs`, not on
      their order or how often they occur. */
  lemma SortedSetOrderFree(xs: seq<string>, ys: seq<string>)
    requires forall y :: y in xs <==> y in ys
    ensures SortedSet(xs) == SortedSet(ys)
  {
    SortedUnique(SortedSet(xs), SortedSet(ys));
  }
}

=== FILE: planner.dfy ===
/** `choose_core_for_game`: the libretro core a game is launched with,
    taken from the first of four sources that gives a truthy name. */
module CorePlanner {
  import opened Wrappers
  import opened PyStr
  import opened Records

  /** `PLATFORM_DEFAULT_CORES`: the fallback core of a platform key. */
  const PlatformDefaultCores: map<string, string> :=
    map["ss_hack" := "mednafen_saturn_hw", "dc" := "flycast", "psx" := "pcsx_rearmed"]

  /** `EXT_CORE_MAP`: the last-resort core of a lower-case file extension. */
  const ExtCoreMap: map<string, string> :=
    map[".chd" := "mednafen_saturn_hw", ".cue" := "mednafen_psx_hw",
        ".iso" := "mednafen_saturn", ".bin" := "mednafen_psx_hw"]

  /** `table.get(key)`. */
  function Lookup(table: map<string, string>, key: string): (r: Option<string>)
    ensures r.Some? <==> key in table
    ensures r.Some? ==> r.value == table[key]
  {
    if key in table then Some(table[key]) else None
  }

  /** The lower-cased `os.path.splitext` extension of the game's `file`,
      an absent or empty one counting as `""`. */
  function FileExtension(g: Game): (ext: string)
  {
    Lower(SplitExt(OrEmpty(g.file)).1)
  }

  /** The four sources in priority order: the game's `core_override`, the
      payload's `default_core`, the platform table and the extension table. */
  function Sources(platformKey: string, defaultCore: Option<string>, g: Game): (xs: seq<Option<string>>)
    ensures |xs| == 4
  {
    [g.coreOverride, defaultCore, Lookup(PlatformDefaultCores, platformKey), Lookup(ExtCoreMap, FileExtension(g))]
  }

  /** Python's `a or b or …` over optional names, `None` when every one is
      falsy. */
  function FirstTruthy(xs: seq<Option<string>>): (r: Option<string>)
    ensures r.None? <==> forall i :: 0 <= i < |xs| ==> !Truthy(xs[i])
    ensures r.Some? ==> exists i :: 0 <= i < |xs| && xs[i] == r && Truthy(r) &&
                                    forall j :: 0 <= j < i ==> !Truthy(xs[j])
    decreases |xs|
  {
    if |xs| == 0 then None
    else if Truthy(xs[0]) then xs[0]
    else
      var r := FirstTruthy(xs[1..]);
      assert r.Some? ==> exists i :: 0 <= i < |xs[1..]| && xs[1..][i] == r && forall j :: 0 <= j < i ==> !Truthy(xs[1..][j]);
      assert r.Some? ==> exists i :: 1 <= i < |xs| && xs[i] == r && forall j :: 0 <= j < i ==> !Truthy(xs[j]);
      r
  }

  /** `choose_core_for_game`, the four guarded returns in source order. */
  function ChooseCore(platformKey: string, defaultCore: Option<string>, g: Game): (r: Option<string>)
    ensures Truthy(g.coreOverride) ==> r == g.coreOverride
    ensures !Truthy(g.coreOverride) && Truthy(defaultCore) ==> r == defaultCore
    ensures !Truthy(g.coreOverride) && !Truthy(defaultCore) && platformKey in PlatformDefaultCores ==>
      r == Some(PlatformDefaultCores[platformKey])
    ensures !Truthy(g.coreOverride) && !Truthy(defaultCore) && platformKey !in PlatformDefaultCores ==>
      r == Lookup(ExtCoreMap, FileExtension(g))
    ensures r.None? <==>
      !Truthy(g.coreOverride) && !Truthy(defaultCore) && platformKey !in PlatformDefaultCores &&
      FileExtension(g) !in ExtCoreMap
  {
    if Truthy(g.coreOverride) then g.coreOverride
    else if Truthy(defaultCore) then defaultCore
    else
      var core := Lookup(PlatformDefaultCores, platformKey);
      if Truthy(core) then core
      else
        var core := Lookup(ExtCoreMap, FileExtension(g));
        if Truthy(core) then core else None
  }

  /** The chain is the first truthy source, and a chosen core is never the
      empty name. */
  lemma ChooseCoreFirstTruthy(platformKey: string, defaultCore: Option<string>, g: Game)
    ensures ChooseCore(platformKey, defaultCore, g) == FirstTruthy(Sources(platformKey, defaultCore, g))
    ensures ChooseCore(platformKey, defaultCore, g).Some? ==> Truthy(ChooseCore(platformKey, defaultCore, g))
  {
    var a := g.coreOverride;
    var b := defaultCore;
    var c := Lookup(PlatformDefaultCores, platformKey);
    var d := Lookup(ExtCoreMap, FileExtension(g));
    assert Sources(platformKey, defaultCore, g) == [a, b, c, d];
    FirstOfFour(a, b, c, d);
  }

  /** `a or b or c or d` over four optional names. */
  lemma FirstOfFour(a: Option<string>, b: Option<string>, c: Option<string>, d: Option<string>)
    ensures FirstTruthy([a, b, c, d]) ==
      if Truthy(a) then a else if Truthy(b) then b else if Truthy(c) then c else if Truthy(d) then d else None
  {
    assert FirstTruthy([d]) == if Truthy(d) then d else None by {
      assert [d][1..] == [];
    }
    assert FirstTruthy([c, d]) == if Truthy(c) then c else FirstTruthy([d]) by {
      assert [c, d][1..] == [d];
    }
    assert FirstTruthy([b, c, d]) == if Truthy(b) then b else FirstTruthy([c, d]) by {
      assert [b, c, d][1..] == [c, d];
    }
    assert [a, b, c, d][1..] == [b, c, d];
  }

  /** A file whose stem ends in an ordinary character and whose extension
      is written in capitals still finds its core: `.CHD` is looked up as
      `.chd`. */
  lemma UpperExtensionFound(platformKey: string, g: Game, stem: string)
    requires |stem| > 0 && stem[|stem| - 1] != '.' && stem[|stem| - 1] != '/'
    requires g.file == Some(stem + ".CHD")
    requires !Truthy(g.coreOverride) && platformKey !in PlatformDefaultCores
    ensures ChooseCore(platformKey, None, g) == Some("mednafen_saturn_hw")
  {
    SplitExtSuffix(stem, ".CHD");
    assert Lower(".CHD") == ".chd";
  }

  /** `os.path.splitext` of a stem followed by a one-dot extension. */
  lemma SplitExtSuffix(stem: string, ext: string)
    requires |stem| > 0 && stem[|stem| - 1] != '.' && stem[|stem| - 1] != '/'
    requires |ext| > 0 && ext[0] == '.' && '.' !in ext[1..] && '/' !in ext
    ensures SplitExt(stem + ext) == (stem, ext)
  {
    var p := stem + ext;
    var sepIndex := RFind(p, '/');
    var dotIndex := RFind(p, '.');
    assert p[|stem|] == '.';
    forall j | |stem| < j < |p|
      ensures p[j] != '.' && p[j] != '/'
    {
      assert p[j] == ext[j - |stem|];
      assert ext[j - |stem|] in ext;
      if j - |stem| >= 1 {
        assert ext[j - |stem|] == ext[1..][j - |stem| - 1];
      }
    }
    assert dotIndex == |stem|;
    assert p[|stem| - 1] == stem[|stem| - 1];
    assert sepIndex < |stem| - 1;
    assert p[..dotIndex] == stem;
  }
}

=== FILE: ps2jsondb.dfy ===
/** `apply_to_jsondb`: renaming the PS2 CHD files inside a platform's JSON
    database. Each game's `file`, `roms` and `rom_hashes[*].rom_rel` go
    through the old-to-new name table, and every `media/...` asset path is
    moved under `media/<old stem>/`, the stem being taken from the file name
    before the rename. Reading and writing the JSON file is left out. */
module Ps2JsonDb {
  import opened Wrappers
  import opened PyStr
  import opened Records

  // ---------------------------------------------------------------------
  // Paths
  // ---------------------------------------------------------------------

  /** The stem the media directory is named after: the last `/` component of
      a truthy `file`, cut at its last dot (`rsplit(".", 1)[0]`). */
  function OldStem(file: Option<string>): (stem: Option<string>)
    ensures stem.Some? <==> Truthy(file)
    ensures stem.Some? ==> '/' !in stem.value && StartsWith(LastPart(file.value, '/'), stem.value)
  {
    if Truthy(file) then
      var name := LastPart(file.value, '/');
      var r := BeforeLast(name, '.');
      assert '/' !in r by {
        assert forall i :: 0 <= i < |r| ==> r[i] == name[i];
      }
      Some(r)
    else None
  }

  /** A component `PurePosixPath` keeps: neither empty nor `.`. */
  predicate Segment(s: string) {
    s != "" && s != "." && '/' !in s
  }

  /** The pieces of a `/` split that `PurePosixPath` keeps. */
  function Segments(xs: seq<string>): (ys: seq<string>)
    requires forall k :: 0 <= k < |xs| ==> '/' !in xs[k]
    ensures |ys| <= |xs|
    ensures forall k :: 0 <= k < |ys| ==> Segment(ys[k])
    ensures (forall k :: 0 <= k < |xs| ==> Segment(xs[k])) ==> ys == xs
    decreases |xs|
  {
    if |xs| == 0 then []
    else
      var rest := Segments(xs[1..]);
      if xs[0] == "" || xs[0] == "." then rest else [xs[0]] + rest
  }

  /** `PurePosixPath(v).parts`: a leading `/` becomes the part `/`, then the
      non-empty components other than `.`. */
  function PosixParts(v: string): (parts: seq<string>)
  {
    (if StartsWith(v, "/") then ["/"] else []) + Segments(Split(v, '/'))
  }

  /** `_fix_assets_paths` on one path: a path with at least two parts
      starting at `media` has its second part replaced by the stem; any
      other path is kept. A stem of `.` is dropped as `PurePosixPath` drops
      it. */
  function FixPath(v: string, stem: string): (r: string)
  {
    var parts := PosixParts(v);
    if |parts| >= 2 && parts[0] == "media" then
      Join(["media"] + (if stem == "." then [] else [stem]) + parts[2..], "/")
    else v
  }

  /** The first part is `media` only when the path does not start at the
      root. */
  lemma MediaPartsRelative(v: string)
    requires |PosixParts(v)| >= 1 && PosixParts(v)[0] == "media"
    ensures !StartsWith(v, "/") && PosixParts(v) == Segments(Split(v, '/'))
    ensures forall k :: 0 <= k < |PosixParts(v)| ==> Segment(PosixParts(v)[k])
  {
  }

  /** Joining segments and reading the parts back gives the segments. */
  lemma PartsOfJoin(parts: seq<string>)
    requires |parts| >= 1 && parts[0] == "media"
    requires forall k :: 0 <= k < |parts| ==> Segment(parts[k])
    ensures PosixParts(Join(parts, "/")) == parts
  {
    var s := Join(parts, "/");
    SplitJoin(parts, '/');
    assert s[0] == 'm' by {
      if |parts| > 1 {
        assert s == parts[0] + "/" + Join(parts[1..], "/");
      }
    }
  }

  /** The path `FixPath` builds from the old parts. */
  lemma FixPathJoin(v: string, stem: string)
    requires Segment(stem)
    requires |PosixParts(v)| >= 2 && PosixParts(v)[0] == "media"
    ensures FixPath(v, stem) == Join(["media", stem] + PosixParts(v)[2..], "/")
  {
    var parts := PosixParts(v);
    assert ["media"] + (if stem == "." then [] else [stem]) + parts[2..] == ["media", stem] + parts[2..];
  }

  /** Putting `media` and the stem before the later parts keeps every part
      a segment. */
  lemma TailSegments(parts: seq<string>, stem: string)
    requires Segment(stem) && |parts| >= 2
    requires forall k :: 0 <= k < |parts| ==> Segment(parts[k])
    ensures var np := ["media", stem] + parts[2..];
      forall k :: 0 <= k < |np| ==> Segment(np[k])
  {
    var np := ["media", stem] + parts[2..];
    forall k | 2 <= k < |np|
      ensures Segment(np[k])
    {
      assert np[k] == parts[k];
    }
  }

  /** A rewritten path reads back as `media`, the stem, and the parts after
      the old second one. */
  lemma FixPathParts(v: string, stem: string)
    requires Segment(stem)
    requires |PosixParts(v)| >= 2 && PosixParts(v)[0] == "media"
    ensures PosixParts(FixPath(v, stem)) == ["media", stem] + PosixParts(v)[2..]
  {
    FixPathJoin(v, stem);
    MediaPartsRelative(v);
    TailSegments(PosixParts(v), stem);
    PartsOfJoin(["media", stem] + PosixParts(v)[2..]);
  }

  /** Rewriting a rewritten path changes nothing. */
  lemma FixPathIdempotent(v: string, stem: string)
    requires Segment(stem)
    ensures FixPath(FixPath(v, stem), stem) == FixPath(v, stem)
  {
    var parts := PosixParts(v);
    if |parts| >= 2 && parts[0] == "media" {
      FixPathParts(v, stem);
      var np := ["media", stem] + parts[2..];
      assert np[2..] == parts[2..];
    }
  }

  lemma JoinThree(a: string, b: string, c: string)
    ensures Join([a, b, c], "/") == a + "/" + b + "/" + c
  {
    assert Join([b, c], "/") == b + "/" + c by {
      assert [b, c][1..] == [c];
    }
    assert Join([a, b, c], "/") == a + "/" + (b + "/" + c) by {
      assert [a, b, c][1..] == [b, c];
    }
  }

  /** The common case: `media/<dir>/<name>` becomes `media/<stem>/<name>`. */
  lemma FixMediaPath(dir: string, name: string, stem: string)
    requires Segment(dir) && Segment(name) && Segment(stem)
    ensures FixPath("media/" + dir + "/" + name, stem) == "media/" + stem + "/" + name
  {
    var parts := ["media", dir, name];
    assert "media" + "/" == "media/";
    JoinThree("media", dir, name);
    PartsOfJoin(parts);
    FixPathJoin(Join(parts, "/"), stem);
    assert ["media", stem] + parts[2..] == ["media", stem, name];
    JoinThree("media", stem, name);
  }

  // ---------------------------------------------------------------------
  // Assets
  // ---------------------------------------------------------------------

  function FixValue(v: AssetValue, stem: string): (r: AssetValue)
    ensures r.AssetPath? <==> v.AssetPath?
  {
    match v
    case AssetPath(p) => AssetPath(FixPath(p, stem))
    case AssetOther => AssetOther
  }

  /** `_fix_assets_paths`: nothing without a truthy stem or an `assets`
      dictionary; otherwise every string value is rewritten and every key
      kept. */
  function FixAssets(assets: Option<Assets>, stem: Option<string>): (r: Option<Assets>)
    ensures !Truthy(stem) || !(assets.Some? && assets.value.AssetDict?) ==> r == assets
    ensures assets.Some? && assets.value.AssetDict? ==>
      r.Some? && r.value.AssetDict? && r.value.entries.Keys == assets.value.entries.Keys
    ensures Truthy(stem) && assets.Some? && assets.value.AssetDict? ==>
      forall k :: k in assets.value.entries ==>
        r.value.entries[k] == FixValue(assets.value.entries[k], stem.value)
  {
    if !Truthy(stem) then assets
    else
      match assets
      case Some(AssetDict(entries)) =>
        Some(AssetDict(map k | k in entries :: FixValue(entries[k], stem.value)))
      case _ => assets
  }

  /** One rewritten value is its own rewrite. */
  lemma FixValueIdempotent(v: AssetValue, stem: string)
    requires Segment(stem)
    ensures FixValue(FixValue(v, stem), stem) == FixValue(v, stem)
  {
    if v.AssetPath? {
      FixPathIdempotent(v.path, stem);
    }
  }

  /** With a proper stem, fixing the assets twice is fixing them once. */
  lemma FixAssetsIdempotent(assets: Option<Assets>, stem: string)
    requires Segment(stem)
    ensures FixAssets(FixAssets(assets, Some(stem)), Some(stem)) == FixAssets(assets, Some(stem))
  {
    if assets.Some? && assets.value.AssetDict? {
      var e := assets.value.entries;
      var once := FixAssets(assets, Some(stem));
      var twice := FixAssets(once, Some(stem));
      forall k | k in e
        ensures twice.value.entries[k] == once.value.entries[k]
      {
        FixValueIdempotent(e[k], stem);
      }
      assert twice.value.entries == once.value.entries;
    }
  }

  // ---------------------------------------------------------------------
  // Games
  // ---------------------------------------------------------------------

  /** `mapping[r] if r in mapping else r`. */
  function Rename(mapping: map<string, string>, r: string): (n: string)
    ensures r in mapping ==> n == mapping[r]
    ensures r !in mapping ==> n == r
  {
    if r in mapping then mapping[r] else r
  }

  /** The same for a value that may be absent. */
  function RenameOpt(mapping: map<string, string>, o: Option<string>): (n: Option<string>)
    ensures n.Some? <==> o.Some?
    ensures o.Some? ==> n.value == Rename(mapping, o.value)
  {
    if o.Some? then Some(Rename(mapping, o.value)) else None
  }

  /** The renamed `roms` list: each entry renamed in place. A `roms` value
      that is not a list is left alone. */
  function RenameRoms(mapping: map<string, string>, roms: Option<TextOrList>): (r: Option<TextOrList>)
    ensures !(roms.Some? && roms.value.Items?) ==> r == roms
    ensures roms.Some? && roms.value.Items? ==>
      r.Some? && r.value.Items? && |r.value.items| == |roms.value.items| &&
      forall i :: 0 <= i < |roms.value.items| ==> r.value.items[i] == Rename(mapping, roms.value.items[i])
  {
    match roms
    case Some(Items(xs)) => Some(Items(seq(|xs|, i requires 0 <= i < |xs| => Rename(mapping, xs[i]))))
    case _ => roms
  }

  /** The renamed `rom_hashes` list: each `rom_rel` renamed, every other key
      kept. */
  function RenameHashes(mapping: map<string, string>, hashes: Option<RomHashes>): (r: Option<RomHashes>)
    ensures !(hashes.Some? && hashes.value.RomHashList?) ==> r == hashes
    ensures hashes.Some? && hashes.value.RomHashList? ==>
      r.Some? && r.value.RomHashList? && |r.value.entries| == |hashes.value.entries| &&
      forall i :: 0 <= i < |hashes.value.entries| ==>
        r.value.entries[i].other == hashes.value.entries[i].other &&
        r.value.entries[i].romRel == RenameOpt(mapping, hashes.value.entries[i].romRel)
  {
    match hashes
    case Some(RomHashList(es)) =>
      Some(RomHashList(seq(|es|, i requires 0 <= i < |es| => es[i].(romRel := RenameOpt(mapping, es[i].romRel)))))
    case _ => hashes
  }

  /** Whether the game's `file` is counted as changed: it is in the table
      and maps to a different name. */
  predicate FileChanged(mapping: map<string, string>, g: Game) {
    g.file.Some? && g.file.value in mapping && mapping[g.file.value] != g.file.value
  }

  /** One iteration of `apply_to_jsondb`'s loop. */
  function RenameGame(mapping: map<string, string>, g: Game): (r: Game)
    ensures r.file == RenameOpt(mapping, g.file)
    ensures r.roms == RenameRoms(mapping, g.roms)
    ensures r.romHashes == RenameHashes(mapping, g.romHashes)
    ensures r.assets == FixAssets(g.assets, OldStem(g.file))
    ensures r.(file := g.file, roms := g.roms, romHashes := g.romHashes, assets := g.assets) == g
    ensures r.file != g.file <==> FileChanged(mapping, g)
  {
    g.(file := RenameOpt(mapping, g.file),
       roms := RenameRoms(mapping, g.roms),
       romHashes := RenameHashes(mapping, g.romHashes),
       assets := FixAssets(g.assets, OldStem(g.file)))
  }

  /** The number of games whose `file` changed: the `changed` counter. */
  function CountChanged(mapping: map<string, string>, games: seq<Game>): (n: nat)
    ensures n <= |games|
    ensures n == 0 <==> forall i :: 0 <= i < |games| ==> !FileChanged(mapping, games[i])
    decreases |games|
  {
    if |games| == 0 then 0
    else
      var n := CountChanged(mapping, games[1..]);
      assert forall i :: 1 <= i < |games| ==> games[i] == games[1..][i - 1];
      (if FileChanged(mapping, games[0]) then 1 else 0) + n
  }

  /** `apply_to_jsondb`: every game rewritten in place, and the count of
      changed `file` values. */
  function ApplyToJsonDb(mapping: map<string, string>, games: seq<Game>): (out: (seq<Game>, nat))
    ensures |out.0| == |games|
    ensures forall i :: 0 <= i < |games| ==> out.0[i] == RenameGame(mapping, games[i])
    ensures out.1 == CountChanged(mapping, games) && out.1 <= |games|
  {
    (seq(|games|, i requires 0 <= i < |games| => RenameGame(mapping, games[i])), CountChanged(mapping, games))
  }

  /** The counter adds up over consecutive runs of games. */
  lemma {:induction false} CountChangedConcat(mapping: map<string, string>, a: seq<Game>, b: seq<Game>)
    ensures CountChanged(mapping, a + b) == CountChanged(mapping, a) + CountChanged(mapping, b)
    decreases |a|
  {
    if |a| == 0 {
      assert a + b == b;
    } else {
      assert (a + b)[0] == a[0] && (a + b)[1..] == a[1..] + b;
      CountChangedConcat(mapping, a[1..], b);
    }
  }

  /** An empty table renames nothing: only the asset paths move. */
  lemma EmptyTableMovesOnlyAssets(games: seq<Game>)
    ensures ApplyToJsonDb(map[], games).1 == 0
    ensures forall i :: 0 <= i < |games| ==>
      ApplyToJsonDb(map[], games).0[i] == games[i].(assets := FixAssets(games[i].assets, OldStem(games[i].file)))
  {
    forall i | 0 <= i < |games|
      ensures RenameGame(map[], games[i]) == games[i].(assets := FixAssets(games[i].assets, OldStem(games[i].file)))
    {
      var g := games[i];
      if g.roms.Some? && g.roms.value.Items? {
        assert RenameRoms(map[], g.roms).value.items == g.roms.value.items;
      }
      if g.romHashes.Some? && g.romHashes.value.RomHashList? {
        assert RenameHashes(map[], g.romHashes).value.entries == g.romHashes.value.entries;
      }
    }
  }

  lemma BeforeLastChd(stem: string)
    requires '.' !in stem
    ensures BeforeLast(stem + ".chd", '.') == stem
  {
    var name := stem + ".chd";
    var r := BeforeLast(name, '.');
    assert name[|stem|] == '.';
    assert name[|stem| + 1..] == "chd";
  }

  /** The media directory follows the old file name: a game `506.chd`
      renamed to anything keeps its art under `media/506/`. */
  lemma StemOfChd(dir: string, stem: string)
    requires '/' !in stem && '.' !in stem && stem != ""
    ensures OldStem(Some(dir + "/" + stem + ".chd")) == Some(stem)
  {
    var name := stem + ".chd";
    assert '/' !in name by {
      assert '/' !in ".chd";
    }
    LastPartSuffix(dir + "/", name);
    assert dir + "/" + stem + ".chd" == (dir + "/") + name;
    BeforeLastChd(stem);
  }
}

=== FILE: ps2mapping.dfy ===
/** The PS2 rename tools' name tables: the raw table read from the
    translation notes (`parse_mapping_from_txt`), the file-name cleaner
    (`sanitize_filename`) and the table of old to new CHD names
    (`load_name_mapping`). Reading the files is left out: the notes are
    their lines and the JSON mapping its items in order. */
module Ps2Mapping {
  import opened Wrappers
  import opened PyStr
  import opened Records

  // ---------------------------------------------------------------------
  // Dictionary filling
  // ---------------------------------------------------------------------

  /** A dictionary filled by `mapping[key] = value` for each present entry
      in order, a later entry overwriting an earlier one with the same key. */
  function Collect(es: seq<Option<(string, string)>>): (m: map<string, string>)
    ensures |es| > 0 && es[|es| - 1].Some? ==>
      es[|es| - 1].value.0 in m && m[es[|es| - 1].value.0] == es[|es| - 1].value.1
    ensures |es| == 0 ==> m == map[]
    decreases |es|
  {
    if |es| == 0 then map[]
    else
      var m := Collect(es[..|es| - 1]);
      match es[|es| - 1]
      case None => m
      case Some(kv) => m[kv.0 := kv.1]
  }

  /** A key is in the table exactly when some entry has it, and its value
      comes from an entry with that key. */
  lemma {:induction false} CollectKeys(es: seq<Option<(string, string)>>)
    ensures forall k :: k in Collect(es) <==> exists i :: 0 <= i < |es| && Gives(es[i], k)
    ensures forall k :: k in Collect(es) ==> exists i :: 0 <= i < |es| && es[i] == Some((k, Collect(es)[k]))
    decreases |es|
  {
    if |es| > 0 {
      var pre := es[..|es| - 1];
      CollectKeys(pre);
      assert forall i :: 0 <= i < |pre| ==> es[i] == pre[i];
      CollectSnoc(pre, es[|es| - 1]);
      assert pre + [es[|es| - 1]] == es;
    }
  }

  /** The last entry with a key decides its value. */
  lemma {:induction false} CollectLastWins(es: seq<Option<(string, string)>>, k: string, v: string,
                                           post: seq<Option<(string, string)>>)
    requires forall j :: 0 <= j < |post| ==> post[j].None? || post[j].value.0 != k
    ensures k in Collect(es + [Some((k, v))] + post)
    ensures Collect(es + [Some((k, v))] + post)[k] == v
    decreases |post|
  {
    if |post| == 0 {
      assert es + [Some((k, v))] + post == es + [Some((k, v))];
      CollectSnoc(es, Some((k, v)));
    } else {
      var shorter := post[..|post| - 1];
      var last := post[|post| - 1];
      assert forall j :: 0 <= j < |shorter| ==> shorter[j] == post[j];
      assert es + [Some((k, v))] + post == (es + [Some((k, v))] + shorter) + [last];
      CollectLastWins(es, k, v, shorter);
      CollectSnoc(es + [Some((k, v))] + shorter, last);
    }
  }

  /** One more entry overwrites its key, or changes nothing when absent. */
  lemma CollectSnoc(es: seq<Option<(string, string)>>, e: Option<(string, string)>)
    ensures Collect(es + [e]) == if e.Some? then Collect(es)[e.value.0 := e.value.1] else Collect(es)
  {
    assert (es + [e])[..|es + [e]| - 1] == es;
  }

  // ---------------------------------------------------------------------
  // CHD names
  // ---------------------------------------------------------------------

  /** Ends in `.chd` in any letter case. */
  predicate HasChdSuffix(s: string) {
    EndsWith(Lower(s), ".chd")
  }

  /** `k if k.lower().endswith(".chd") else k + ".chd"`. */
  function ChdName(k: string): (r: string)
    ensures HasChdSuffix(r)
    ensures StartsWith(r, k) && (r == k || r == k + ".chd")
  {
    if HasChdSuffix(k) then k
    else
      assert Lower(k + ".chd")[|k|..] == ".chd";
      k + ".chd"
  }

  /** A name that already ends in `.chd` keeps it, so the suffix is never
      doubled. */
  lemma ChdNameIdempotent(k: string)
    ensures ChdName(ChdName(k)) == ChdName(k)
  {
  }

  /** An upper-case `.CHD` counts as the suffix. */
  lemma ChdNameUpper(stem: string)
    ensures ChdName(stem + ".CHD") == stem + ".CHD"
  {
    assert Lower(stem + ".CHD")[|stem|..] == ".chd";
  }

  // ---------------------------------------------------------------------
  // The raw table from the translation notes
  // ---------------------------------------------------------------------

  /** Words joined by single spaces are neither empty nor padded. */
  lemma {:induction false} JoinWordsTrimmed(ws: seq<string>)
    requires AllWords(ws) && |ws| > 0
    ensures Join(ws, " ") != "" && Trimmed(Join(ws, " "))
    ensures StartsWith(Join(ws, " "), ws[0])
    decreases |ws|
  {
    assert IsWord(ws[0]);
    if |ws| > 1 {
      assert AllWords(ws[1..]) by {
        forall k | 0 <= k < |ws| - 1
          ensures IsWord(ws[1..][k])
        {
          assert ws[1..][k] == ws[k + 1];
        }
      }
      JoinWordsTrimmed(ws[1..]);
      var tail := Join(ws[1..], " ");
      var j := ws[0] + " " + tail;
      assert j[|j| - 1] == tail[|tail| - 1];
      assert j[..|ws[0]|] == ws[0];
    }
  }

  /** `tokens[0].isdigit() and tokens[1].lower() == "disc" and
      tokens[2].upper() in {"A", "B", "1", "2"}`: the first three tokens
      name one disc of a multi-disc game. */
  predicate DiscKey(tokens: seq<string>) {
    |tokens| >= 3 && IsDigits(tokens[0]) && Lower(tokens[1]) == "disc" &&
    Upper(tokens[2]) in {"A", "B", "1", "2"}
  }

  /** The tokens that name the disc and those that describe it. */
  function KeyTokens(tokens: seq<string>): (n: nat)
    requires |tokens| >= 2
    ensures n == 1 || n == 3
    ensures n <= |tokens|
  {
    if DiscKey(tokens) then 3 else 1
  }

  /** A stripped line that gives no entry: blank, a `#` or `//` comment,
      fewer than two tokens, or a disc key with nothing after it. */
  predicate SkippedLine(line: string) {
    line == "" || StartsWith(line, "#") || StartsWith(line, "//") ||
    |Words(line)| < 2 || (DiscKey(Words(line)) && |Words(line)| == 3)
  }

  /** `tokens[n:] or [""]`: the description tokens after the key. */
  function DescTokens(tokens: seq<string>, n: nat): (ds: seq<string>)
    requires n <= |tokens|
    ensures |ds| >= 1
  {
    if n == |tokens| then [""] else tokens[n..]
  }

  /** The key tokens joined are trimmed and start with the first token, and
      the joined description is empty exactly when no token follows the key. */
  lemma KeyAndDescription(tokens: seq<string>, n: nat)
    requires AllWords(tokens) && 1 <= n <= |tokens|
    ensures var keyRaw := Join(tokens[..n], " ");
      Strip(keyRaw) == keyRaw && StartsWith(keyRaw, tokens[0])
    ensures var desc := Strip(Join(DescTokens(tokens, n), " "));
      Trimmed(desc) && (desc == "" <==> n == |tokens|)
  {
    assert AllWords(tokens[..n]) by {
      assert forall k :: 0 <= k < n ==> tokens[..n][k] == tokens[k];
    }
    JoinWordsTrimmed(tokens[..n]);
    StripTrimmed(Join(tokens[..n], " "));
    if n < |tokens| {
      assert AllWords(tokens[n..]) by {
        assert forall k :: 0 <= k < |tokens| - n ==> tokens[n..][k] == tokens[n + k];
      }
      JoinWordsTrimmed(tokens[n..]);
      StripTrimmed(Join(tokens[n..], " "));
    } else {
      assert Join([""], " ") == "";
    }
  }

  /** The entry of a line's tokens: the key tokens joined and given the
      `.chd` suffix, and the rest joined, unless nothing follows the key. */
  function TokensEntry(tokens: seq<string>): (e: Option<(string, string)>)
    requires AllWords(tokens) && |tokens| >= 2
    ensures e.None? <==> DiscKey(tokens) && |tokens| == 3
    ensures e.Some? ==> HasChdSuffix(e.value.0) && e.value.1 != "" && Trimmed(e.value.1)
    ensures e.Some? ==> StartsWith(e.value.0, tokens[0])
  {
    var n := KeyTokens(tokens);
    KeyAndDescription(tokens, n);
    var desc := Strip(Join(DescTokens(tokens, n), " "));
    var key := ChdName(Strip(Join(tokens[..n], " ")));
    StartsWithTrans(key, Join(tokens[..n], " "), tokens[0]);
    if desc == "" then None else Some((key, desc))
  }

  /** One line of `parse_mapping_from_txt`: the CHD name and its stripped
      description. */
  function MappingLine(raw: string): (e: Option<(string, string)>)
    ensures e.None? <==> SkippedLine(Strip(raw))
    ensures e.Some? ==> HasChdSuffix(e.value.0) && e.value.1 != "" && Trimmed(e.value.1)
    ensures e.Some? ==> |Words(Strip(raw))| >= 2 && StartsWith(e.value.0, Words(Strip(raw))[0])
  {
    var line := Strip(raw);
    if line == "" || StartsWith(line, "#") || StartsWith(line, "//") then None
    else
      var tokens := Words(line);
      if |tokens| < 2 then None else TokensEntry(tokens)
  }

  /** An ordinary line, neither a comment nor a bare disc key: the first
      token names the CHD file and the other tokens, joined by single
      spaces, describe it. */
  lemma OrdinaryLine(raw: string, k: string, desc: seq<string>)
    requires !StartsWith(Strip(raw), "#") && !StartsWith(Strip(raw), "//")
    requires Words(Strip(raw)) == [k] + desc && |desc| > 0 && !DiscKey([k] + desc)
    ensures MappingLine(raw) == Some((ChdName(k), Join(desc, " ")))
  {
    var tokens := Words(Strip(raw));
    assert Strip(raw) != "" by { assert |tokens| > 0; }
    assert MappingLine(raw) == TokensEntry(tokens);
    assert KeyTokens(tokens) == 1;
    TokensEntryOf(tokens, 1);
    assert tokens[..1] == [k] && tokens[1..] == desc;
    assert Join([k], " ") == k;
  }

  /** A CHD name with a non-empty, stripped description. */
  predicate ValidEntry(k: string, v: string) {
    HasChdSuffix(k) && v != "" && Trimmed(v)
  }

  /** The entry names the CHD file `k`. */
  predicate Gives(e: Option<(string, string)>, k: string) {
    e.Some? && e.value.0 == k
  }

  /** The entry of each line under a line reader `f`, in order. The table
      lemmas below hold for any reader; `ParseMapping` uses `MappingLine`. */
  function Entries(lines: seq<string>, f: string -> Option<(string, string)>): (es: seq<Option<(string, string)>>)
    ensures |es| == |lines|
    ensures forall i :: 0 <= i < |lines| ==> es[i] == f(lines[i])
  {
    seq(|lines|, i requires 0 <= i < |lines| => f(lines[i]))
  }

  lemma EntriesConcat(a: seq<string>, b: seq<string>, f: string -> Option<(string, string)>)
    ensures Entries(a + b, f) == Entries(a, f) + Entries(b, f)
  {
    var l := Entries(a + b, f);
    var r := Entries(a, f) + Entries(b, f);
    forall i | 0 <= i < |l|
      ensures l[i] == r[i]
    {
      if i < |a| {
        assert (a + b)[i] == a[i];
      } else {
        assert (a + b)[i] == b[i - |a|];
      }
    }
  }

  /** The table of the notes' lines: every entry names a CHD file with a
      description, and a key is present exactly when some line gives it. */
  lemma ParsedTable(lines: seq<string>, m: map<string, string>)
    requires m == Collect(Entries(lines, MappingLine))
    ensures forall k :: k in m ==> ValidEntry(k, m[k])
    ensures forall k :: k in m <==> exists i :: 0 <= i < |lines| && Gives(MappingLine(lines[i]), k)
  {
    var es := Entries(lines, MappingLine);
    CollectKeys(es);
    forall k | k in m
      ensures ValidEntry(k, m[k])
    {
      var i :| 0 <= i < |es| && es[i] == Some((k, m[k]));
      EntryFacts(lines[i], k, m[k]);
    }
    forall k
      ensures k in m <==> exists i :: 0 <= i < |lines| && Gives(MappingLine(lines[i]), k)
    {
      if k in m {
        var i :| 0 <= i < |es| && Gives(es[i], k);
        assert es[i] == MappingLine(lines[i]);
      }
      if exists i :: 0 <= i < |lines| && Gives(MappingLine(lines[i]), k) {
        var i :| 0 <= i < |lines| && Gives(MappingLine(lines[i]), k);
        assert es[i] == MappingLine(lines[i]);
      }
    }
  }

  lemma EntryFacts(raw: string, k: string, v: string)
    requires MappingLine(raw) == Some((k, v))
    ensures ValidEntry(k, v)
  {
  }

  /** `parse_mapping_from_txt`: the raw table of the notes' lines. */
  function ParseMapping(lines: seq<string>): (m: map<string, string>)
    ensures forall k :: k in m ==> ValidEntry(k, m[k])
    ensures forall k :: k in m <==> exists i :: 0 <= i < |lines| && Gives(MappingLine(lines[i]), k)
  {
    var m := Collect(Entries(lines, MappingLine));
    ParsedTable(lines, m);
    m
  }

  /** The line of the last-named disc decides its description: a later line
      for the same CHD name overwrites an earlier one. */
  lemma ParseMappingLastWins(pre: seq<string>, line: string, post: seq<string>, k: string, v: string)
    requires MappingLine(line) == Some((k, v))
    requires forall j :: 0 <= j < |post| ==> !Gives(MappingLine(post[j]), k)
    ensures k in ParseMapping(pre + [line] + post) && ParseMapping(pre + [line] + post)[k] == v
  {
    EntriesLastWins(pre, line, post, MappingLine, k, v);
  }

  /** The same for any line reader. */
  lemma EntriesLastWins(pre: seq<string>, line: string, post: seq<string>,
                        f: string -> Option<(string, string)>, k: string, v: string)
    requires f(line) == Some((k, v))
    requires forall j :: 0 <= j < |post| ==> !Gives(f(post[j]), k)
    ensures var m := Collect(Entries(pre + [line] + post, f)); k in m && m[k] == v
  {
    var head := Entries(pre, f);
    var tail := Entries(post, f);
    EntriesConcat(pre + [line], post, f);
    EntriesConcat(pre, [line], f);
    assert Entries([line], f) == [Some((k, v))];
    assert Entries(pre + [line] + post, f) == head + [Some((k, v))] + tail;
    assert forall j :: 0 <= j < |tail| ==> tail[j].None? || tail[j].value.0 != k;
    CollectLastWins(head, k, v, tail);
  }

  /** A multi-disc line `043 Disc A <description>` is keyed by its first
      three tokens and described by the rest. */
  lemma DiscLine(raw: string, n: string, d: string, x: string, desc: seq<string>)
    requires !StartsWith(Strip(raw), "#") && !StartsWith(Strip(raw), "//")
    requires Words(Strip(raw)) == [n, d, x] + desc && |desc| > 0
    requires IsDigits(n) && Lower(d) == "disc" && Upper(x) in {"A", "B", "1", "2"}
    ensures MappingLine(raw) == Some((ChdName(n + " " + d + " " + x), Join(desc, " ")))
  {
    var tokens := Words(Strip(raw));
    assert Strip(raw) != "" by {
      assert |tokens| > 0;
    }
    assert MappingLine(raw) == TokensEntry(tokens);
    DiscTokens(tokens, n, d, x, desc);
  }

  lemma AllWordsSlice(ws: seq<string>, i: nat, j: nat)
    requires AllWords(ws) && i <= j <= |ws|
    ensures AllWords(ws[i..j])
  {
    assert forall k :: 0 <= k < j - i ==> ws[i..j][k] == ws[i + k];
  }

  /** Words joined by single spaces survive `strip`. */
  lemma JoinedWords(ws: seq<string>)
    requires AllWords(ws) && |ws| > 0
    ensures Join(ws, " ") != "" && Strip(Join(ws, " ")) == Join(ws, " ")
  {
    JoinWordsTrimmed(ws);
    StripTrimmed(Join(ws, " "));
  }

  /** A line's tokens with something after the key: the key tokens joined
      and suffixed, and the remaining tokens joined. */
  lemma TokensEntryOf(tokens: seq<string>, n: nat)
    requires AllWords(tokens) && |tokens| >= 2 && n == KeyTokens(tokens) && n < |tokens|
    ensures TokensEntry(tokens) == Some((ChdName(Join(tokens[..n], " ")), Join(tokens[n..], " ")))
  {
    AllWordsSlice(tokens, 0, n);
    AllWordsSlice(tokens, n, |tokens|);
    JoinedWords(tokens[..n]);
    JoinedWords(tokens[n..]);
    assert DescTokens(tokens, n) == tokens[n..];
  }

  lemma JoinThree(n: string, d: string, x: string)
    ensures Join([n, d, x], " ") == n + " " + d + " " + x
  {
    assert [n, d, x][1..] == [d, x];
    assert [d, x][1..] == [x];
    assert Join([x], " ") == x;
    assert Join([d, x], " ") == d + " " + x;
    assert Join([n, d, x], " ") == n + " " + (d + " " + x);
    assert n + " " + (d + " " + x) == n + " " + d + " " + x;
  }

  lemma DiscTokens(tokens: seq<string>, n: string, d: string, x: string, desc: seq<string>)
    requires AllWords(tokens) && tokens == [n, d, x] + desc && |desc| > 0
    requires IsDigits(n) && Lower(d) == "disc" && Upper(x) in {"A", "B", "1", "2"}
    ensures TokensEntry(tokens) == Some((ChdName(n + " " + d + " " + x), Join(desc, " ")))
  {
    assert DiscKey(tokens);
    TokensEntryOf(tokens, 3);
    assert tokens[..3] == [n, d, x] && tokens[3..] == desc;
    JoinThree(n, d, x);
  }

  // ---------------------------------------------------------------------
  // File names
  // ---------------------------------------------------------------------

  /** The characters Windows does not allow in a file name. */
  const Illegal: string := "<>:\"/\\|?*"

  /** `for ch in chars: if ch != ":": s = s.replace(ch, "")`. */
  function RemoveIllegal(s: string, chars: string): (r: string)
    ensures forall c :: c in chars && c != ':' ==> c !in r
    ensures forall x :: x in r ==> x in s
    decreases |chars|
  {
    if |chars| == 0 then s
    else if chars[0] == ':' then RemoveIllegal(s, chars[1..])
    else
      var r := RemoveIllegal(ReplaceChar(s, chars[0], ""), chars[1..]);
      assert forall c :: c in chars ==> c == chars[0] || c in chars[1..];
      r
  }

  /** A character `sanitize_filename` leaves off the end of a name. */
  predicate TrailingJunk(c: char) {
    c == ' ' || c == '.'
  }

  /** No character Windows forbids in a file name. */
  predicate Legal(s: string) {
    forall c :: c in Illegal ==> c !in s
  }

  /** The replacements of `sanitize_filename`: each colon becomes ` -` and
      the other illegal characters go. */
  function Replaced(s: string): (r: string)
    ensures Legal(r)
    ensures forall x :: x in r ==> x in s || x == ' ' || x == '-'
  {
    RemoveIllegal(ReplaceChar(s, ':', " -"), Illegal)
  }

  /** `sanitize_filename`: strip, replace, then drop trailing spaces and
      dots. */
  function Sanitize(name: string): (r: string)
    ensures Legal(r)
    ensures |r| == 0 || !TrailingJunk(r[|r| - 1])
    ensures forall x :: x in r ==> x in name || x == ' ' || x == '-'
  {
    var s := Replaced(Strip(name));
    var r := RStripWhere(s, TrailingJunk);
    SanitizeFacts(name, s, r);
    r
  }

  lemma SanitizeFacts(name: string, s: string, r: string)
    requires s == Replaced(Strip(name)) && r == RStripWhere(s, TrailingJunk)
    ensures Legal(r)
    ensures |r| == 0 || !TrailingJunk(r[|r| - 1])
    ensures forall x :: x in r ==> x in name || x == ' ' || x == '-'
  {
    var t := Strip(name);
    InfixChars(name, t, |name| - |LStrip(name)|);
    InfixChars(s, r, 0);
    LegalWithin(s, r);
    CharsThrough(name, t, s, r);
  }

  /** Characters drawn from `s`, which draws on `t` and the two
      replacement characters, which in turn draws on `name`. */
  lemma CharsThrough(name: string, t: string, s: string, r: string)
    requires forall x :: x in t ==> x in name
    requires forall x :: x in s ==> x in t || x == ' ' || x == '-'
    requires forall x :: x in r ==> x in s
    ensures forall x :: x in r ==> x in name || x == ' ' || x == '-'
  {
  }

  /** A slice of `s` holds only characters of `s`. */
  lemma InfixChars(s: string, t: string, a: nat)
    requires a + |t| <= |s| && t == s[a..a + |t|]
    ensures forall x :: x in t ==> x in s
  {
    forall x | x in t
      ensures x in s
    {
      var i :| 0 <= i < |t| && t[i] == x;
      assert s[a + i] == x;
    }
  }

  lemma LegalWithin(s: string, t: string)
    requires Legal(s) && forall x :: x in t ==> x in s
    ensures Legal(t)
  {
  }

  lemma {:induction false} RemoveCleanSame(s: string, chars: string)
    requires forall c :: c in chars ==> c !in s
    ensures RemoveIllegal(s, chars) == s
    decreases |chars|
  {
    if |chars| > 0 {
      if chars[0] != ':' {
        ReplaceCharAbsentSame(s, chars[0], "");
      }
      RemoveCleanSame(s, chars[1..]);
    }
  }

  /** Legal text is left alone by the replacements. */
  lemma ReplacedLegal(s: string)
    requires Legal(s)
    ensures Replaced(s) == s
  {
    ReplaceCharAbsentSame(s, ':', " -");
    RemoveCleanSame(s, Illegal);
  }

  /** A name that is already clean comes back unchanged. */
  lemma SanitizeClean(name: string)
    requires Trimmed(name) && Legal(name)
    requires |name| == 0 || name[|name| - 1] != '.'
    ensures Sanitize(name) == name
  {
    StripTrimmed(name);
    ReplacedLegal(name);
    RStripTrimmed(name, TrailingJunk);
  }

  /** Turning the colon of `a:b` into ` -`. */
  lemma ColonReplaced(a: string, b: string)
    requires Legal(a) && Legal(b)
    ensures ReplaceChar(a + ":" + b, ':', " -") == a + " -" + b
  {
    ReplaceCharConcat(a + ":", b, ':', " -");
    ReplaceCharConcat(a, ":", ':', " -");
    ReplaceCharAbsentSame(a, ':', " -");
    ReplaceCharAbsentSame(b, ':', " -");
    assert ReplaceChar(":", ':', " -") == " -";
  }

  lemma LegalDash(a: string, b: string)
    requires Legal(a) && Legal(b)
    ensures Legal(a + " -" + b)
  {
    forall c | c in Illegal
      ensures c !in a + " -" + b
    {
      assert c !in " -";
    }
  }

  /** A colon between two clean halves becomes ` -`. */
  lemma SanitizeColon(a: string, b: string)
    requires |a| > 0 && |b| > 0 && !IsSpace(a[0]) && !IsSpace(b[|b| - 1]) && b[|b| - 1] != '.'
    requires Legal(a) && Legal(b)
    ensures Sanitize(a + ":" + b) == a + " -" + b
  {
    var s := a + ":" + b;
    var t := a + " -" + b;
    assert s[0] == a[0] && s[|s| - 1] == b[|b| - 1];
    StripTrimmed(s);
    ColonReplaced(a, b);
    LegalDash(a, b);
    RemoveCleanSame(t, Illegal);
    assert Replaced(s) == t;
    assert t[|t| - 1] == b[|b| - 1];
    RStripTrimmed(t, TrailingJunk);
  }

  // ---------------------------------------------------------------------
  // The old-to-new name table
  // ---------------------------------------------------------------------

  /** A value of the Redump mapping: a dictionary with optional `en` and
      `cn` names, or any other JSON value as its `str()`. */
  datatype RawName = Names(en: Option<string>, cn: Option<string>) | Plain(text: string)

  /** `(v.get("en") or v.get("cn") or "").strip()`, or `str(v).strip()`. */
  function TargetBase(v: RawName): (b: string)
    ensures Trimmed(b)
  {
    match v
    case Names(en, cn) => Strip(OrEmpty(Or(en, cn)))
    case Plain(text) => Strip(text)
  }

  /** One item of `load_name_mapping`: the CHD name and the sanitised
      target, or nothing when the target base is empty. */
  function NameEntry(key: string, v: RawName): (e: Option<(string, string)>)
    ensures e.None? <==> TargetBase(v) == ""
    ensures e.Some? ==> e.value.0 == ChdName(Strip(key))
    ensures e.Some? ==> HasChdSuffix(e.value.1) && Legal(e.value.1)
  {
    var base := TargetBase(v);
    if base == "" then None
    else
      var target := ChdName(Sanitize(base));
      ChdNameLegal(Sanitize(base));
      Some((ChdName(Strip(key)), target))
  }

  lemma LegalConcat(a: string, b: string)
    requires Legal(a) && Legal(b)
    ensures Legal(a + b)
  {
  }

  lemma ChdNameLegal(k: string)
    requires Legal(k)
    ensures Legal(ChdName(k))
  {
    if !HasChdSuffix(k) {
      assert ChdName(k) == k + ".chd";
      LegalSuffix();
      LegalConcat(k, ".chd");
    }
  }

  lemma LegalSuffix()
    ensures Legal(".chd")
  {
  }

  /** The entry of each item, in order. */
  function NameEntries(raw: seq<(string, RawName)>): (es: seq<Option<(string, string)>>)
    ensures |es| == |raw|
    ensures forall i :: 0 <= i < |raw| ==> es[i] == NameEntry(raw[i].0, raw[i].1)
  {
    seq(|raw|, i requires 0 <= i < |raw| => NameEntry(raw[i].0, raw[i].1))
  }

  lemma NameEntriesConcat(a: seq<(string, RawName)>, b: seq<(string, RawName)>)
    ensures NameEntries(a + b) == NameEntries(a) + NameEntries(b)
  {
    var l, r := NameEntries(a + b), NameEntries(a) + NameEntries(b);
    assert |l| == |r|;
    forall i | 0 <= i < |l|
      ensures l[i] == r[i]
    {
      if i < |a| { assert (a + b)[i] == a[i]; } else { assert (a + b)[i] == b[i - |a|]; }
    }
  }

  lemma NameEntryFacts(key: string, v: RawName, k: string, t: string)
    requires NameEntry(key, v) == Some((k, t))
    ensures HasChdSuffix(k) && HasChdSuffix(t) && Legal(t)
  {
  }

  /** `load_name_mapping`: every old name and every new name ends in
      `.chd`, and no new name holds a character Windows forbids. */
  function LoadNameMapping(raw: seq<(string, RawName)>): (m: map<string, string>)
    ensures forall k :: k in m ==> HasChdSuffix(k) && HasChdSuffix(m[k]) && Legal(m[k])
    ensures forall k :: k in m <==> exists i :: 0 <= i < |raw| && Gives(NameEntry(raw[i].0, raw[i].1), k)
    ensures forall k :: k in m ==> exists i :: 0 <= i < |raw| && NameEntry(raw[i].0, raw[i].1) == Some((k, m[k]))
  {
    var m := Collect(NameEntries(raw));
    CollectKeys(NameEntries(raw));
    LoadedTable(raw, m);
    m
  }

  lemma LoadedTable(raw: seq<(string, RawName)>, m: map<string, string>)
    requires m == Collect(NameEntries(raw))
    ensures forall k :: k in m ==> HasChdSuffix(k) && HasChdSuffix(m[k]) && Legal(m[k])
  {
    var es := NameEntries(raw);
    CollectKeys(es);
    forall k | k in m
      ensures HasChdSuffix(k) && HasChdSuffix(m[k]) && Legal(m[k])
    {
      var i :| 0 <= i < |es| && es[i] == Some((k, m[k]));
      NameEntryFacts(raw[i].0, raw[i].1, k, m[k]);
    }
  }

  /** A later item for the same old name overwrites an earlier one. */
  lemma LoadNameMappingLastWins(pre: seq<(string, RawName)>, item: (string, RawName), post: seq<(string, RawName)>, k: string, t: string)
    requires NameEntry(item.0, item.1) == Some((k, t))
    requires forall j :: 0 <= j < |post| ==> !Gives(NameEntry(post[j].0, post[j].1), k)
    ensures var m := LoadNameMapping(pre + [item] + post); k in m && m[k] == t
  {
    NameEntriesLastWins(pre, item, post, k, t);
    LoadNameMappingCollects(pre + [item] + post);
  }

  lemma NameEntriesLastWins(pre: seq<(string, RawName)>, item: (string, RawName), post: seq<(string, RawName)>, k: string, t: string)
    requires NameEntry(item.0, item.1) == Some((k, t))
    requires forall j :: 0 <= j < |post| ==> !Gives(NameEntry(post[j].0, post[j].1), k)
    ensures var m := Collect(NameEntries(pre + [item] + post)); k in m && m[k] == t
  {
    NameEntriesSplit(pre, item, post);
    NameEntriesMiss(post, k);
    CollectLastWins(NameEntries(pre), k, t, NameEntries(post));
  }

  lemma NameEntriesSplit(pre: seq<(string, RawName)>, item: (string, RawName), post: seq<(string, RawName)>)
    ensures NameEntries(pre + [item] + post) == NameEntries(pre) + [NameEntry(item.0, item.1)] + NameEntries(post)
  {
    NameEntriesConcat(pre + [item], post);
    NameEntriesConcat(pre, [item]);
    assert NameEntries([item]) == [NameEntry(item.0, item.1)];
  }

  lemma NameEntriesMiss(post: seq<(string, RawName)>, k: string)
    requires forall j :: 0 <= j < |post| ==> !Gives(NameEntry(post[j].0, post[j].1), k)
    ensures forall j :: 0 <= j < |NameEntries(post)| ==> NameEntries(post)[j].None? || NameEntries(post)[j].value.0 != k
  {
  }

  lemma LoadNameMappingCollects(raw: seq<(string, RawName)>)
    ensures LoadNameMapping(raw) == Collect(NameEntries(raw))
  {
  }

  /** An English name of only whitespace is truthy, so the Chinese name is
      not consulted and the item is skipped. */
  lemma BlankEnglishSkips(key: string, en: string, cn: Option<string>)
    requires en != "" && Blank(en)
    ensures NameEntry(key, Names(Some(en), cn)).None?
  {
    StripBlank(en);
  }

  lemma StripBlank(s: string)
    requires Blank(s)
    ensures Strip(s) == ""
  {
  }

  /** The English name wins over the Chinese one whenever it has text. */
  lemma EnglishPreferred(key: string, en: string, cn: Option<string>)
    requires Strip(en) != ""
    ensures NameEntry(key, Names(Some(en), cn)) == Some((ChdName(Strip(key)), ChdName(Sanitize(Strip(en)))))
  {
  }
}

=== FILE: pystr.dfy ===
/** The Python `str` operations the tools are built from, over `seq<char>`.
    Whitespace is exactly Python's `str.isspace`; case mapping covers ASCII
    letters only; path helpers follow `posixpath`. */
module PyStr {

  /** `c.isspace()` in Python 3. */
  predicate IsSpace(c: char) {
    || c == ' '
    || ('\t' <= c <= '\r')
    || ('\U{1c}' <= c <= '\U{1f}')
    || c == '\U{85}' || c == '\U{a0}' || c == '\U{1680}'
    || ('\U{2000}' <= c <= '\U{200a}')
    || c == '\U{2028}' || c == '\U{2029}' || c == '\U{202f}'
    || c == '\U{205f}' || c == '\U{3000}'
  }

  /** The characters at which `str.splitlines` breaks a string. */
  predicate IsLineBoundary(c: char) {
    || ('\n' <= c <= '\r')
    || ('\U{1c}' <= c <= '\U{1e}')
    || c == '\U{85}' || c == '\U{2028}' || c == '\U{2029}'
  }

  /** The characters at which reading a file in text mode ends a line
      (universal newlines). */
  predicate IsFileBreak(c: char) {
    c == '\n' || c == '\r'
  }

  lemma LineBoundaryIsSpace(c: char)
    ensures IsFileBreak(c) ==> IsLineBoundary(c)
    ensures IsLineBoundary(c) ==> IsSpace(c)
  {
  }

  /** No character of `s` satisfies `bad`. */
  predicate Avoids(s: string, bad: char -> bool) {
    forall i :: 0 <= i < |s| ==> !bad(s[i])
  }

  predicate StartsWith(s: string, p: string) {
    |p| <= |s| && s[..|p|] == p
  }

  predicate EndsWith(s: string, p: string) {
    |p| <= |s| && s[|s| - |p|..] == p
  }

  lemma StartsWithTrans(a: string, b: string, c: string)
    requires StartsWith(a, b) && StartsWith(b, c)
    ensures StartsWith(a, c)
  {
    assert a[..|c|] == a[..|b|][..|c|];
  }

  /** Python's `sub in s`. */
  predicate Contains(s: string, sub: string)
    decreases |s|
  {
    StartsWith(s, sub) || (|s| > 0 && Contains(s[1..], sub))
  }

  lemma ContainsSomeChar(s: string, sub: string)
    requires Contains(s, sub) && |sub| > 0
    ensures exists i :: 0 <= i < |s| && s[i] == sub[0]
    decreases |s|
  {
    if StartsWith(s, sub) {
      assert s[..|sub|][0] == s[0];
    } else {
      ContainsSomeChar(s[1..], sub);
      var i :| 0 <= i < |s[1..]| && s[1..][i] == sub[0];
      assert s[i + 1] == sub[0];
    }
  }

  // ---------------------------------------------------------------------
  // Stripping
  // ---------------------------------------------------------------------

  /** `s.lstrip(chars)` where `drop` says which characters are in `chars`. */
  function LStripWhere(s: string, drop: char -> bool): (r: string)
    ensures |r| <= |s| && r == s[|s| - |r|..]
    ensures |r| == 0 || !drop(r[0])
    ensures forall i :: 0 <= i < |s| - |r| ==> drop(s[i])
    decreases |s|
  {
    if |s| > 0 && drop(s[0]) then
      var t := LStripWhere(s[1..], drop);
      LStripStep(s, drop, t);
      t
    else s
  }

  lemma LStripStep(s: string, drop: char -> bool, t: string)
    requires |s| > 0 && drop(s[0])
    requires |t| <= |s| - 1 && t == s[1..][|s| - 1 - |t|..]
    requires forall i :: 0 <= i < |s| - 1 - |t| ==> drop(s[1..][i])
    ensures t == s[|s| - |t|..]
    ensures forall i :: 0 <= i < |s| - |t| ==> drop(s[i])
  {
    forall i | 0 <= i < |s| - |t|
      ensures drop(s[i])
    {
      if i > 0 {
        assert s[i] == s[1..][i - 1];
      }
    }
  }

  /** `s.rstrip(chars)` where `drop` says which characters are in `chars`. */
  function RStripWhere(s: string, drop: char -> bool): (r: string)
    ensures |r| <= |s| && r == s[..|r|]
    ensures |r| == 0 || !drop(r[|r| - 1])
    ensures forall i :: |r| <= i < |s| ==> drop(s[i])
    decreases |s|
  {
    if |s| > 0 && drop(s[|s| - 1]) then RStripWhere(s[..|s| - 1], drop) else s
  }

  function LStrip(s: string): string {
    LStripWhere(s, IsSpace)
  }

  function RStrip(s: string): string {
    RStripWhere(s, IsSpace)
  }

  /** `s.strip()`: the longest infix of `s` that neither starts nor ends with
      whitespace, all the dropped characters being whitespace. */
  function Strip(s: string): (r: string)
    ensures |r| == 0 || (!IsSpace(r[0]) && !IsSpace(r[|r| - 1]))
    ensures var a := |s| - |LStrip(s)|; a + |r| <= |s| && r == s[a..a + |r|]
  {
    var l := LStrip(s);
    var r := RStrip(l);
    InfixOfSuffix(s, l, r);
    r
  }

  /** A prefix of a suffix is an infix. */
  lemma InfixOfSuffix(s: string, l: string, r: string)
    requires |l| <= |s| && l == s[|s| - |l|..] && |r| <= |l| && r == l[..|r|]
    ensures r == s[|s| - |l|..|s| - |l| + |r|]
  {
    assert s[|s| - |l|..][..|r|] == s[|s| - |l|..|s| - |l| + |r|];
  }

  /** Neither end of `s` is whitespace: `s.strip() == s`. */
  predicate Trimmed(s: string) {
    |s| == 0 || (!IsSpace(s[0]) && !IsSpace(s[|s| - 1]))
  }

  lemma LStripPadded(pad: string, v: string, drop: char -> bool)
    requires forall i :: 0 <= i < |pad| ==> drop(pad[i])
    requires |v| == 0 || !drop(v[0])
    ensures LStripWhere(pad + v, drop) == v
    decreases |pad|
  {
    if |pad| > 0 {
      assert (pad + v)[1..] == pad[1..] + v;
      LStripPadded(pad[1..], v, drop);
    }
  }

  lemma RStripTrimmed(v: string, drop: char -> bool)
    requires |v| == 0 || !drop(v[|v| - 1])
    ensures RStripWhere(v, drop) == v
  {
  }

  /** Stripping whitespace padding off a trimmed value gives the value back. */
  lemma {:induction false} StripPadded(pad: string, v: string)
    requires Avoids(pad, c => !IsSpace(c))
    requires Trimmed(v)
    ensures Strip(pad + v) == v
  {
    LStripPadded(pad, v, IsSpace);
    RStripTrimmed(v, IsSpace);
  }

  /** Stripping adds no character. */
  lemma StripAvoids(s: string, c: char)
    requires c !in s
    ensures c !in Strip(s)
  {
    var a := |s| - |LStrip(s)|;
    var r := Strip(s);
    assert forall i :: 0 <= i < |r| ==> r[i] == s[a + i];
  }

  lemma StripTrimmed(v: string)
    requires Trimmed(v)
    ensures Strip(v) == v
  {
    StripPadded("", v);
    assert "" + v == v;
  }

  // ---------------------------------------------------------------------
  // Searching
  // ---------------------------------------------------------------------

  /** Index of the first character satisfying `p`, or `|s|` when none does. */
  function FindWhere(s: string, p: char -> bool): (i: nat)
    ensures i <= |s|
    ensures i < |s| ==> p(s[i])
    ensures forall j :: 0 <= j < i ==> !p(s[j])
    decreases |s|
  {
    if |s| == 0 then 0 else if p(s[0]) then 0 else 1 + FindWhere(s[1..], p)
  }

  /** `s.find(c)`, with `|s|` for "not found". */
  function Find(s: string, c: char): (i: nat)
    ensures i <= |s|
    ensures i < |s| ==> s[i] == c
    ensures forall j :: 0 <= j < i ==> s[j] != c
    ensures i == |s| <==> c !in s
    decreases |s|
  {
    if |s| == 0 then 0 else if s[0] == c then 0 else 1 + Find(s[1..], c)
  }

  /** `s.rfind(c)`: the last index holding `c`, or -1. */
  function RFind(s: string, c: char): (i: int)
    ensures -1 <= i < |s|
    ensures 0 <= i ==> s[i] == c
    ensures forall j :: i < j < |s| ==> s[j] != c
    decreases |s|
  {
    if |s| == 0 then -1
    else if s[|s| - 1] == c then |s| - 1
    else RFind(s[..|s| - 1], c)
  }

  lemma FindPrefix(a: string, b: string, c: char)
    requires c !in a
    ensures Find(a + b, c) == |a| + Find(b, c)
    decreases |a|
  {
    if |a| > 0 {
      assert (a + b)[0] == a[0] != c;
      assert (a + b)[1..] == a[1..] + b;
      assert c !in a[1..] by {
        assert forall x :: x in a[1..] ==> x in a;
      }
      FindPrefix(a[1..], b, c);
    } else {
      assert a + b == b;
    }
  }

  // ---------------------------------------------------------------------
  // Splitting and joining
  // ---------------------------------------------------------------------

  /** `sep.join(parts)`. */
  function Join(parts: seq<string>, sep: string): string
    decreases |parts|
  {
    if |parts| == 0 then ""
    else if |parts| == 1 then parts[0]
    else parts[0] + sep + Join(parts[1..], sep)
  }

  /** `s.split(sep)` for a one-character separator: never empty, no piece
      holds the separator, and joining the pieces gives `s` back. */
  function Split(s: string, sep: char): (parts: seq<string>)
    ensures |parts| >= 1
    ensures forall k :: 0 <= k < |parts| ==> sep !in parts[k]
    ensures Join(parts, [sep]) == s
    decreases |s|
  {
    var i := Find(s, sep);
    if i == |s| then [s]
    else
      var rest := Split(s[i + 1..], sep);
      var parts := [s[..i]] + rest;
      SplitStep(s, sep, i, rest, parts);
      parts
  }

  lemma SplitStep(s: string, sep: char, i: nat, rest: seq<string>, parts: seq<string>)
    requires i < |s| && s[i] == sep && sep !in s[..i]
    requires |rest| >= 1 && forall k :: 0 <= k < |rest| ==> sep !in rest[k]
    requires Join(rest, [sep]) == s[i + 1..]
    requires parts == [s[..i]] + rest
    ensures |parts| >= 1
    ensures forall k :: 0 <= k < |parts| ==> sep !in parts[k]
    ensures Join(parts, [sep]) == s
  {
    assert parts[1..] == rest;
    assert s == s[..i] + [sep] + s[i + 1..];
    forall k | 0 <= k < |parts|
      ensures sep !in parts[k]
    {
      if k > 0 {
        assert parts[k] == rest[k - 1];
      }
    }
  }

  /** Splitting a piece without the separator, the separator and the rest. */
  lemma SplitCons(a: string, sep: char, t: string)
    requires sep !in a
    ensures Split(a + [sep] + t, sep) == [a] + Split(t, sep)
  {
    var s := a + [sep] + t;
    assert s == a + ([sep] + t);
    FindPrefix(a, [sep] + t, sep);
    assert Find(s, sep) == |a|;
    assert s[..|a|] == a;
    assert s[|a| + 1..] == t;
  }

  /** Splitting a join on a separator none of the pieces holds recovers the
      pieces. */
  lemma {:induction false} SplitJoin(parts: seq<string>, sep: char)
    requires |parts| >= 1
    requires forall k :: 0 <= k < |parts| ==> sep !in parts[k]
    ensures Split(Join(parts, [sep]), sep) == parts
    decreases |parts|
  {
    if |parts| == 1 {
      assert Find(parts[0], sep) == |parts[0]|;
    } else {
      var tail := Join(parts[1..], [sep]);
      assert Join(parts, [sep]) == parts[0] + [sep] + tail;
      SplitCons(parts[0], sep, tail);
      assert forall k :: 0 <= k < |parts| - 1 ==> parts[1..][k] == parts[k + 1];
      SplitJoin(parts[1..], sep);
      assert [parts[0]] + parts[1..] == parts;
    }
  }

  /** `s.split(c, 1)[1]`: the text after the first `c`. */
  function AfterFirst(s: string, c: char): (r: string)
    requires c in s
    ensures |r| < |s| && r == s[|s| - |r|..]
    ensures s[|s| - |r| - 1] == c && c !in s[..|s| - |r| - 1]
  {
    var i := Find(s, c);
    s[i + 1..]
  }

  lemma AfterFirstOfKey(key: string, rest: string, c: char)
    requires c !in key
    ensures c in key + [c] + rest
    ensures AfterFirst(key + [c] + rest, c) == rest
  {
    var s := key + [c] + rest;
    assert s[|key|] == c;
    assert s == key + ([c] + rest);
    FindPrefix(key, [c] + rest, c);
    assert s[|key| + 1..] == rest;
  }

  /** `s.split("/")[-1]`, which is also `posixpath.basename(s)`. */
  function LastPart(s: string, sep: char): (r: string)
    ensures sep !in r
    ensures EndsWith(s, r)
    ensures |r| < |s| ==> s[|s| - |r| - 1] == sep
  {
    var i := RFind(s, sep);
    LastPartAvoids(s, sep, i);
    s[i + 1..]
  }

  /** The last `/` component of `pre + name` is `name` when `pre` ends in `/`
      and `name` has none. */
  lemma LastPartSuffix(pre: string, name: string)
    requires |pre| > 0 && pre[|pre| - 1] == '/' && '/' !in name
    ensures LastPart(pre + name, '/') == name
  {
    assert (pre + name)[|pre| - 1] == '/';
  }

  lemma LastPartAvoids(s: string, c: char, i: int)
    requires -1 <= i < |s|
    requires forall j :: i < j < |s| ==> s[j] != c
    ensures c !in s[i + 1..]
  {
    var r := s[i + 1..];
    assert forall j :: 0 <= j < |r| ==> r[j] == s[i + 1 + j] != c;
  }

  /** `s.rsplit(c, 1)[0]`: everything before the last `c`, or all of `s`. */
  function BeforeLast(s: string, c: char): (r: string)
    ensures StartsWith(s, r)
    ensures |r| < |s| ==> s[|r|] == c && c !in s[|r| + 1..]
    ensures |r| == |s| ==> c !in s
  {
    var i := RFind(s, c);
    LastPartAvoids(s, c, i);
    if i < 0 then s else s[..i]
  }

  /** The lines of `s`, broken at characters satisfying `brk`, with `\r\n`
      counting as one break and no empty piece after a final break. This
      is `str.splitlines()` for `IsLineBoundary` and iteration over a file
      opened in text mode for `IsFileBreak`. */
  function LinesBy(s: string, brk: char -> bool): (lines: seq<string>)
    requires brk('\r')
    ensures forall k :: 0 <= k < |lines| ==> Avoids(lines[k], brk)
    ensures |s| > 0 <==> |lines| > 0
    decreases |s|
  {
    if |s| == 0 then []
    else
      var i := FindWhere(s, brk);
      if i == |s| then [s]
      else
        var next := if s[i] == '\r' && i + 1 < |s| && s[i + 1] == '\n' then i + 2 else i + 1;
        [s[..i]] + LinesBy(s[next..], brk)
  }

  /** `s.splitlines()`. */
  function SplitLines(s: string): seq<string> {
    LinesBy(s, IsLineBoundary)
  }

  /** The lines `for raw in open(path, "r")` yields, each without its
      terminator. */
  function FileLines(text: string): seq<string> {
    LinesBy(text, IsFileBreak)
  }

  /** The text written by `f.write(line + "\n")` for every line in turn. */
  function ToText(lines: seq<string>): string
    decreases |lines|
  {
    if |lines| == 0 then "" else lines[0] + "\n" + ToText(lines[1..])
  }

  /** A line that holds no break, a `\n`, and the rest: the line comes
      first and the rest is read on. */
  lemma LinesByCons(l: string, rest: string, brk: char -> bool)
    requires brk('\r') && brk('\n') && Avoids(l, brk)
    ensures LinesBy(l + "\n" + rest, brk) == [l] + LinesBy(rest, brk)
  {
    var s := l + "\n" + rest;
    assert s[|l|] == '\n';
    assert forall j :: 0 <= j < |l| ==> s[j] == l[j];
    assert FindWhere(s, brk) == |l|;
    assert s[..|l|] == l;
    assert s[|l| + 1..] == rest;
  }

  /** Reading back what was written line by line gives the same lines, as
      long as no line holds a line break of its own. */
  lemma {:induction false} FileLinesToText(lines: seq<string>)
    requires forall k :: 0 <= k < |lines| ==> Avoids(lines[k], IsFileBreak)
    ensures FileLines(ToText(lines)) == lines
    decreases |lines|
  {
    if |lines| > 0 {
      LinesByCons(lines[0], ToText(lines[1..]), IsFileBreak);
      assert forall k :: 0 <= k < |lines| - 1 ==> lines[1..][k] == lines[k + 1];
      FileLinesToText(lines[1..]);
      assert [lines[0]] + lines[1..] == lines;
    }
  }

  /** `splitlines` undoes a `"\n"` join of break-free lines whose last line
      is not empty. */
  lemma {:induction false} SplitLinesJoin(lines: seq<string>)
    requires |lines| >= 1 && |lines[|lines| - 1]| > 0
    requires forall k :: 0 <= k < |lines| ==> Avoids(lines[k], IsLineBoundary)
    ensures SplitLines(Join(lines, "\n")) == lines
    decreases |lines|
  {
    if |lines| == 1 {
      SplitLinesOne(lines[0]);
    } else {
      SplitLinesStep(lines[0], lines[1..]);
      assert forall k :: 0 <= k < |lines| - 1 ==> lines[1..][k] == lines[k + 1];
      SplitLinesJoin(lines[1..]);
      assert [lines[0]] + lines[1..] == lines;
    }
  }

  lemma SplitLinesOne(l: string)
    requires |l| > 0 && Avoids(l, IsLineBoundary)
    ensures SplitLines(Join([l], "\n")) == [l]
  {
    assert FindWhere(l, IsLineBoundary) == |l|;
  }

  lemma SplitLinesStep(l: string, rest: seq<string>)
    requires |rest| >= 1 && Avoids(l, IsLineBoundary)
    ensures SplitLines(Join([l] + rest, "\n")) == [l] + SplitLines(Join(rest, "\n"))
  {
    var tail := Join(rest, "\n");
    assert ([l] + rest)[1..] == rest;
    assert Join([l] + rest, "\n") == l + "\n" + tail;
    LinesByCons(l, tail, IsLineBoundary);
  }

  /** Every character of `s` is whitespace. */
  predicate Blank(s: string) {
    forall i :: 0 <= i < |s| ==> IsSpace(s[i])
  }

  /** A non-empty run of non-whitespace characters. */
  predicate IsWord(w: string) {
    |w| > 0 && Avoids(w, IsSpace)
  }

  predicate AllWords(ws: seq<string>) {
    forall k :: 0 <= k < |ws| ==> IsWord(ws[k])
  }

  /** `s.split()`: the maximal runs of non-whitespace characters. */
  function Words(s: string): (ws: seq<string>)
    ensures AllWords(ws)
    ensures |ws| == 0 ==> Blank(s)
    decreases |s|
  {
    var t := LStrip(s);
    if |t| == 0 then []
    else
      var i := FindWhere(t, IsSpace);
      var rest := Words(t[i..]);
      var r := [t[..i]] + rest;
      WordsStep(t, i, rest, r);
      r
  }

  lemma WordsStep(t: string, i: nat, rest: seq<string>, r: seq<string>)
    requires |t| > 0 && !IsSpace(t[0]) && i <= |t|
    requires i < |t| ==> IsSpace(t[i])
    requires forall j :: 0 <= j < i ==> !IsSpace(t[j])
    requires AllWords(rest) && r == [t[..i]] + rest
    ensures AllWords(r)
  {
    var w := t[..i];
    assert i > 0;
    assert IsWord(w) by {
      assert forall j :: 0 <= j < |w| ==> w[j] == t[j];
    }
    forall k | 0 <= k < |r|
      ensures IsWord(r[k])
    {
      if k > 0 {
        assert r[k] == rest[k - 1];
      }
    }
  }

  /** `s.split()[-1]`, defined when `s` is not all whitespace. */
  function LastWord(s: string): (w: string)
    requires exists i :: 0 <= i < |s| && !IsSpace(s[i])
    ensures IsWord(w)
  {
    var ws := Words(s);
    ws[|ws| - 1]
  }

  // ---------------------------------------------------------------------
  // Character mapping
  // ---------------------------------------------------------------------

  function LowerChar(c: char): char {
    if 'A' <= c <= 'Z' then (c as int + 32) as char else c
  }

  function UpperChar(c: char): char {
    if 'a' <= c <= 'z' then (c as int - 32) as char else c
  }

  /** `s.lower()` on ASCII letters. */
  function Lower(s: string): (r: string)
    ensures |r| == |s|
    ensures forall i :: 0 <= i < |s| ==> r[i] == LowerChar(s[i])
  {
    seq(|s|, i requires 0 <= i < |s| => LowerChar(s[i]))
  }

  /** `s.upper()` on ASCII letters. */
  function Upper(s: string): (r: string)
    ensures |r| == |s|
    ensures forall i :: 0 <= i < |s| ==> r[i] == UpperChar(s[i])
  {
    seq(|s|, i requires 0 <= i < |s| => UpperChar(s[i]))
  }

  /** `s.replace(c, t)` for a one-character `c`. */
  function ReplaceChar(s: string, c: char, t: string): (r: string)
    ensures c !in t ==> c !in r
    ensures forall x :: x in r ==> x in s || x in t
    decreases |s|
  {
    if |s| == 0 then ""
    else (if s[0] == c then t else [s[0]]) + ReplaceChar(s[1..], c, t)
  }

  /** Replacing one character by one character maps the string pointwise. */
  lemma {:induction false} ReplaceCharPointwise(s: string, c: char, d: char)
    ensures |ReplaceChar(s, c, [d])| == |s|
    ensures forall i :: 0 <= i < |s| ==> ReplaceChar(s, c, [d])[i] == if s[i] == c then d else s[i]
    decreases |s|
  {
    if |s| > 0 {
      ReplaceCharPointwise(s[1..], c, d);
    }
  }

  /** Replacing a character that does not occur changes nothing. */
  lemma {:induction false} ReplaceCharAbsentSame(s: string, c: char, t: string)
    requires c !in s
    ensures ReplaceChar(s, c, t) == s
    decreases |s|
  {
    if |s| > 0 {
      assert c !in s[1..] by {
        assert forall x :: x in s[1..] ==> x in s;
      }
      ReplaceCharAbsentSame(s[1..], c, t);
      assert s == [s[0]] + s[1..];
    }
  }

  /** Replacing distributes over concatenation. */
  lemma {:induction false} ReplaceCharConcat(a: string, b: string, c: char, t: string)
    ensures ReplaceChar(a + b, c, t) == ReplaceChar(a, c, t) + ReplaceChar(b, c, t)
    decreases |a|
  {
    if |a| > 0 {
      assert (a + b)[0] == a[0] && (a + b)[1..] == a[1..] + b;
      ReplaceCharConcat(a[1..], b, c, t);
    } else {
      assert a + b == b;
    }
  }

  /** `s.isdigit()` on ASCII digits. */
  predicate IsDigits(s: string) {
    |s| > 0 && forall i :: 0 <= i < |s| ==> '0' <= s[i] <= '9'
  }

  // ---------------------------------------------------------------------
  // Paths (posixpath)
  // ---------------------------------------------------------------------

  /** `posixpath.splitext(p)`: the extension is the text from the last dot
      of the final component, unless that component has only dots before
      it. */
  function SplitExt(p: string): (parts: (string, string))
    ensures parts.0 + parts.1 == p
    ensures parts.1 == "" || (parts.1[0] == '.' && '/' !in parts.1 && '.' !in parts.1[1..])
  {
    var sepIndex := RFind(p, '/');
    var dotIndex := RFind(p, '.');
    if dotIndex > sepIndex && exists j :: sepIndex + 1 <= j < dotIndex && p[j] != '.' then
      assert p[..dotIndex] + p[dotIndex..] == p;
      var ext := p[dotIndex..];
      assert forall j :: 1 <= j < |ext| ==> ext[j] == p[dotIndex + j];
      (p[..dotIndex], p[dotIndex..])
    else
      (p, "")
  }

  /** `posixpath.join(a, b)`. */
  function PathJoin(a: string, b: string): (r: string)
    ensures EndsWith(r, b)
  {
    if StartsWith(b, "/") then b
    else if |a| == 0 || EndsWith(a, "/") then a + b
    else a + "/" + b
  }
}

=== FILE: records.dfy ===
/** The header and game records the Pegasus tools pass around. The Python
    code keeps them as dictionaries with a fixed vocabulary of keys; here
    each key is a field, `None` meaning the key is absent or holds `None`. */
module Records {
  import opened Wrappers
  import opened PyStr

  /** A value the tools accept either as one `str` or as a `list[str]`
      (`roms` and `extensions` are read both ways). */
  datatype TextOrList = Text(text: string) | Items(items: seq<string>)

  /** The collection-wide part of a metadata file. */
  datatype Header = Header(
    collection: Option<string>,
    defaultSortBy: Option<string>,   // key `default_sort_by`, written as `sort-by`
    launch: Option<string>,          // text after `launch:` on the key line
    launchBlock: Option<string>,     // key `launch_block`
    ignoreFiles: Option<seq<string>>,
    extensions: Option<TextOrList>)

  const EmptyHeader: Header := Header(None, None, None, None, None, None)

  /** One entry of a game's `assets` dictionary. */
  datatype AssetValue = AssetPath(path: string) | AssetOther

  /** A game's `assets` value: normally a dictionary, possibly anything else. */
  datatype Assets = AssetDict(entries: map<string, AssetValue>) | AssetScalar(text: string)

  /** One entry of a game's `rom_hashes` list; `other` holds its other keys. */
  datatype RomHashRef = RomHashRef(romRel: Option<string>, other: map<string, string>)

  /** A game's `rom_hashes` value: normally a list, possibly anything else. */
  datatype RomHashes = RomHashList(entries: seq<RomHashRef>) | RomHashScalar(text: string)

  /** One game entry, as produced by the parser or read from the JSON db.
      `extra` holds string-valued keys outside the modelled vocabulary. */
  datatype Game = Game(
    game: Option<string>,
    title: Option<string>,
    file: Option<string>,
    roms: Option<TextOrList>,
    sortBy: Option<string>,          // key `sort_by`
    developer: Option<string>,
    description: Option<string>,
    year: Option<string>,
    launch: Option<string>,
    launchOverride: Option<string>,  // key `launch_override`
    launchBlock: Option<string>,     // key `launch_block`
    coreOverride: Option<string>,    // key `core_override`
    id: Option<string>,
    assets: Option<Assets>,
    romHashes: Option<RomHashes>,
    extra: map<string, string>)

  const EmptyGame: Game :=
    Game(None, None, None, None, None, None, None, None, None, None, None, None, None, None, None, map[])

  /** Python truthiness of an optional string: present and not `""`. */
  predicate Truthy(o: Option<string>) {
    o.Some? && o.value != ""
  }

  /** Python's `a or b` on optional strings. */
  function Or(a: Option<string>, b: Option<string>): (r: Option<string>)
    ensures Truthy(r) <==> Truthy(a) || Truthy(b)
    ensures Truthy(a) ==> r == a
  {
    if Truthy(a) then a else b
  }

  /** Python's `o or ""`. */
  function OrEmpty(o: Option<string>): (s: string)
    ensures s != "" <==> Truthy(o)
  {
    if Truthy(o) then o.value else ""
  }

  /** The items `for r in (value or [])` visits: a list gives its items and a
      string gives its characters, each as a one-character string. */
  function IterItems(v: Option<TextOrList>): (xs: seq<string>)
    ensures v.Some? && v.value.Items? ==> xs == v.value.items
    ensures v.Some? && v.value.Text? ==> |xs| == |v.value.text|
    ensures v.None? ==> xs == []
  {
    match v
    case None => []
    case Some(Items(items)) => items
    case Some(Text(s)) => seq(|s|, i requires 0 <= i < |s| => [s[i]])
  }

  /** Python truthiness of an optional str-or-list value. */
  predicate TruthyItems(v: Option<TextOrList>) {
    match v
    case None => false
    case Some(Items(items)) => |items| > 0
    case Some(Text(s)) => |s| > 0
  }

  /** The non-empty items of `xs`, in order. */
  function DropEmpty(xs: seq<string>): (ys: seq<string>)
    ensures |ys| <= |xs|
    ensures forall k :: 0 <= k < |ys| ==> ys[k] != ""
    ensures forall x :: x in ys <==> x in xs && x != ""
    decreases |xs|
  {
    if |xs| == 0 then []
    else (if xs[0] == "" then [] else [xs[0]]) + DropEmpty(xs[1..])
  }

  /** `[p.strip() for p in s.split(",") if p.strip()]`: the writer and the
      closure check both read a comma string this way. */
  function CommaList(s: string): (items: seq<string>)
    ensures forall k :: 0 <= k < |items| ==>
      items[k] != "" && Trimmed(items[k]) && ',' !in items[k]
  {
    var parts := Split(s, ',');
    var stripped := seq(|parts|, k requires 0 <= k < |parts| => Strip(parts[k]));
    var items := DropEmpty(stripped);
    CommaItems(parts, stripped, items);
    items
  }

  /** The kept pieces are stripped, non-empty and free of commas. */
  lemma CommaItems(parts: seq<string>, stripped: seq<string>, items: seq<string>)
    requires forall k :: 0 <= k < |parts| ==> ',' !in parts[k]
    requires |stripped| == |parts| && forall k :: 0 <= k < |parts| ==> stripped[k] == Strip(parts[k])
    requires items == DropEmpty(stripped)
    ensures forall k :: 0 <= k < |items| ==> items[k] != "" && Trimmed(items[k]) && ',' !in items[k]
  {
    forall k | 0 <= k < |parts|
      ensures ',' !in stripped[k] && Trimmed(stripped[k])
    {
      StripAvoids(parts[k], ',');
    }
    assert forall k :: 0 <= k < |items| ==> items[k] in stripped;
  }
}

=== FILE: romscanner.dfy ===
/** `rom_scanner`: the ROM hash database of one platform. `RomHasher` reads a
    file in fixed-size chunks, feeding every byte to the full-file hash and
    the first `header_bytes` bytes to the header hash; the scanner expands
    each game's ROM list and makes one entry per named ROM. The digests
    themselves are left out: a hash is represented by the bytes it was fed,
    and the file system by a function from paths to file contents. */
module RomScanner {
  import opened Wrappers
  import opened PyStr
  import opened Records

  type byte = b: int | 0 <= b < 256

  /** `HEADER_BYTES`. */
  const HeaderBytes: int := 65536

  /** The size of each `f.read` in `hash_rom`. */
  const ReadSize: nat := 8192

  function Min(a: int, b: int): int {
    if a <= b then a else b
  }

  /** What one `hash_rom` call yields: the size, the bytes fed to the full
      hash, and the bytes fed to the header hash when there is one. */
  datatype HashInputs = HashInputs(size: nat, full: seq<byte>, header: Option<seq<byte>>)

  /** The intended outcome of hashing `data`: every byte counted and
      hashed, the first `min(size, header_bytes)` bytes in the header hash,
      and no header hash at all when `header_bytes <= 0`. */
  function Expected(data: seq<byte>, headerBytes: int): (h: HashInputs)
  {
    HashInputs(|data|, data, if headerBytes > 0 then Some(data[..Min(|data|, headerBytes)]) else None)
  }

  /** `RomHasher.hash_rom` over the file's bytes, read `chunk` bytes at a
      time. The result does not depend on the chunk size: a chunk that
      straddles the header boundary is cut there. */
  method HashRom(data: seq<byte>, headerBytes: int, chunk: nat) returns (h: HashInputs)
    requires chunk > 0
    ensures h.size == |data| && h.full == data
    ensures h.header.Some? <==> headerBytes > 0
    ensures h.header.Some? ==> h.header.value == data[..Min(|data|, headerBytes)]
    ensures h == Expected(data, headerBytes)
  {
    var size := 0;
    var remaining := headerBytes;
    var full: seq<byte> := [];
    var header: seq<byte> := [];
    var pos := 0;
    while pos < |data|
      invariant 0 <= pos <= |data|
      invariant size == pos && full == data[..pos]
      invariant headerBytes > 0 ==>
        header == data[..Min(pos, headerBytes)] && remaining == headerBytes - Min(pos, headerBytes)
      invariant headerBytes <= 0 ==> header == [] && remaining == headerBytes
      decreases |data| - pos
    {
      var piece := data[pos..Min(pos + chunk, |data|)];
      size := size + |piece|;
      full := full + piece;
      if remaining > 0 {
        if |piece| <= remaining {
          header := header + piece;
          remaining := remaining - |piece|;
        } else {
          header := header + piece[..remaining];
          remaining := 0;
        }
      }
      assert data[..pos + |piece|] == data[..pos] + piece;
      pos := pos + |piece|;
    }
    assert data[..pos] == data;
    h := HashInputs(size, full, if headerBytes > 0 then Some(header) else None);
  }

  // ---------------------------------------------------------------------
  // Scanning
  // ---------------------------------------------------------------------

  /** One element of the `roms` list the scanner returns. `contents` is
      the file at `rom_path`, `None` when it is not a regular file. */
  datatype RomEntry = RomEntry(
    platform: string,
    gameTitle: string,
    gameId: Option<string>,
    romRel: string,
    romPath: string,
    exists_: bool,
    size: Option<nat>,
    sha256Input: Option<seq<byte>>,
    md5Input: Option<seq<byte>>,
    headerBytes: int)

  /** `game.get("roms") or []`, falling back to `[file]` when that is empty
      and `file` is truthy. A `roms` string is iterated character by
      character, as Python iterates a `str`. */
  function RomList(g: Game): (xs: seq<string>)
    ensures TruthyItems(g.roms) ==> xs == IterItems(g.roms)
    ensures !TruthyItems(g.roms) && Truthy(g.file) ==> xs == [g.file.value]
    ensures !TruthyItems(g.roms) && !Truthy(g.file) ==> xs == []
  {
    if TruthyItems(g.roms) then IterItems(g.roms)
    else if Truthy(g.file) then [g.file.value]
    else []
  }

  /** The entry of one ROM path, hashed when the path names a file. */
  function MakeEntry(platform: string, g: Game, romRoot: string, romRel: string,
                     files: string -> Option<seq<byte>>): (e: RomEntry)
    ensures e.romRel == romRel && e.romPath == PathJoin(romRoot, romRel)
    ensures e.exists_ <==> files(e.romPath).Some?
    ensures !e.exists_ ==> e.size.None? && e.sha256Input.None? && e.md5Input.None?
    ensures e.exists_ ==> e.size == Some(|files(e.romPath).value|) && e.sha256Input == files(e.romPath)
    ensures e.exists_ ==>
      var data := files(e.romPath).value;
      e.md5Input == Some(data[..Min(|data|, HeaderBytes)])
    ensures e.headerBytes == HeaderBytes && e.gameTitle == OrEmpty(g.game) && e.gameId == g.id
    ensures e.platform == platform
  {
    var path := PathJoin(romRoot, romRel);
    var contents := files(path);
    var base := RomEntry(platform, OrEmpty(g.game), g.id, romRel, path, contents.Some?, None, None, None, HeaderBytes);
    match contents
    case None => base
    case Some(data) =>
      var h := Expected(data, HeaderBytes);
      base.(size := Some(h.size), sha256Input := Some(h.full), md5Input := h.header)
  }

  /** The stripped, non-empty entries of a ROM list, in order. */
  function NonBlank(xs: seq<string>): (ys: seq<string>)
    ensures |ys| <= |xs|
    ensures forall k :: 0 <= k < |ys| ==> ys[k] != "" && Trimmed(ys[k])
    decreases |xs|
  {
    if |xs| == 0 then []
    else
      var r := Strip(xs[0]);
      (if r == "" then [] else [r]) + NonBlank(xs[1..])
  }

  /** The entries of one game: one per stripped, non-empty ROM path. */
  function GameEntries(platform: string, g: Game, romRoot: string, files: string -> Option<seq<byte>>): (es: seq<RomEntry>)
    ensures |es| == |NonBlank(RomList(g))|
    ensures forall k :: 0 <= k < |es| ==>
      es[k] == MakeEntry(platform, g, romRoot, NonBlank(RomList(g))[k], files)
    ensures AllWellFormed(es, platform)
  {
    var rels := NonBlank(RomList(g));
    var es := seq(|rels|, k requires 0 <= k < |rels| => MakeEntry(platform, g, romRoot, rels[k], files));
    EntriesWellFormed(platform, g, romRoot, files, rels, es);
    es
  }

  lemma EntriesWellFormed(platform: string, g: Game, romRoot: string, files: string -> Option<seq<byte>>,
                          rels: seq<string>, es: seq<RomEntry>)
    requires forall k :: 0 <= k < |rels| ==> rels[k] != "" && Trimmed(rels[k])
    requires |es| == |rels|
    requires forall k :: 0 <= k < |es| ==> es[k] == MakeEntry(platform, g, romRoot, rels[k], files)
    ensures AllWellFormed(es, platform)
  {
  }

  /** An entry of the platform, for a stripped, non-empty ROM path, with
      the header size recorded. */
  predicate WellFormed(e: RomEntry, platform: string) {
    e.romRel != "" && Trimmed(e.romRel) && e.platform == platform && e.headerBytes == HeaderBytes
  }

  predicate AllWellFormed(es: seq<RomEntry>, platform: string) {
    forall k :: 0 <= k < |es| ==> WellFormed(es[k], platform)
  }

  lemma WellFormedConcat(a: seq<RomEntry>, b: seq<RomEntry>, es: seq<RomEntry>, platform: string)
    requires AllWellFormed(a, platform) && AllWellFormed(b, platform) && es == a + b
    ensures AllWellFormed(es, platform)
  {
    forall k | 0 <= k < |es|
      ensures WellFormed(es[k], platform)
    {
      if k < |a| {
        assert es[k] == a[k];
      } else {
        assert es[k] == b[k - |a|];
      }
    }
  }

  /** `scan_roms_for_platform`'s `roms` list: the games' entries, game by
      game. */
  function Scan(platform: string, games: seq<Game>, romRoot: string, files: string -> Option<seq<byte>>): (es: seq<RomEntry>)
    ensures AllWellFormed(es, platform)
    ensures |games| == 0 ==> es == []
    decreases |games|
  {
    if |games| == 0 then []
    else
      var first := GameEntries(platform, games[0], romRoot, files);
      var rest := Scan(platform, games[1..], romRoot, files);
      var es := first + rest;
      WellFormedConcat(first, rest, es, platform);
      es
  }

  /** Scanning two runs of games is scanning each and concatenating: the
      entries come game by game, in order. */
  lemma {:induction false} ScanConcat(platform: string, a: seq<Game>, b: seq<Game>, romRoot: string,
                                      files: string -> Option<seq<byte>>)
    ensures Scan(platform, a + b, romRoot, files) == Scan(platform, a, romRoot, files) + Scan(platform, b, romRoot, files)
    decreases |a|
  {
    if |a| == 0 {
      assert a + b == b;
    } else {
      assert (a + b)[0] == a[0] && (a + b)[1..] == a[1..] + b;
      ScanConcat(platform, a[1..], b, romRoot, files);
    }
  }

  /** A single game is scanned into its own entries. With `ScanConcat`,
      this determines every scan: the entries of each game in turn. */
  lemma ScanSingle(platform: string, g: Game, romRoot: string, files: string -> Option<seq<byte>>)
    ensures Scan(platform, [g], romRoot, files) == GameEntries(platform, g, romRoot, files)
  {
    assert [g][0] == g && [g][1..] == [];
    assert GameEntries(platform, g, romRoot, files) + [] == GameEntries(platform, g, romRoot, files);
  }

  /** A game with no `roms` and no `file` contributes no entry; a game with
      only a `file` contributes exactly one when the name is not blank. */
  lemma FileFallback(platform: string, g: Game, romRoot: string, files: string -> Option<seq<byte>>)
    requires !TruthyItems(g.roms)
    ensures !Truthy(g.file) ==> GameEntries(platform, g, romRoot, files) == []
    ensures Truthy(g.file) && Strip(g.file.value) != "" ==>
      GameEntries(platform, g, romRoot, files) == [MakeEntry(platform, g, romRoot, Strip(g.file.value), files)]
  {
    if Truthy(g.file) {
      assert NonBlank([g.file.value]) == (if Strip(g.file.value) == "" then [] else [Strip(g.file.value)]) + NonBlank([]) by {
        assert [g.file.value][1..] == [];
      }
    }
  }
}

=== FILE: roundtrip.dfy ===
/** Parsing what `dump_pegasus_metadata` wrote. On a fragment of clean
    headers and games the parser gives back exactly what was written; the
    lemmas below build that up line by line. */
module RoundTrip {
  import opened Wrappers
  import opened PyStr
  import opened Records
  import opened MetadataScanner
  import opened MetadataWriter

  /** A value that survives being written on a key line: non-empty, no
      whitespace at either end and no line boundary inside. */
  predicate Clean(s: string) {
    s != "" && Trimmed(s) && Avoids(s, IsLineBoundary)
  }

  predicate CleanOpt(o: Option<string>) {
    o.None? || Clean(o.value)
  }

  predicate AllClean(xs: seq<string>) {
    forall k :: 0 <= k < |xs| ==> Clean(xs[k])
  }

  /** The headers the writer and the parser agree on: only a collection, a
      default sort key and a non-empty list of ignore patterns, all clean. */
  predicate HeaderFragment(h: Header) {
    && h == EmptyHeader.(collection := h.collection, defaultSortBy := h.defaultSortBy,
                         ignoreFiles := h.ignoreFiles)
    && CleanOpt(h.collection) && CleanOpt(h.defaultSortBy)
    && (h.ignoreFiles.None? || (|h.ignoreFiles.value| > 0 && AllClean(h.ignoreFiles.value)))
  }

  /** The `file` the parser sets for a rom list the writer emits: the rom
      itself when there is exactly one, none otherwise. */
  function FileOf(roms: Option<TextOrList>): Option<string> {
    match roms
    case Some(Items(rs)) => if |rs| == 1 then Some(rs[0]) else None
    case _ => None
  }

  /** A rom list the writer and the parser agree on: none, or a non-empty
      list of clean paths. */
  predicate RomsFragment(roms: Option<TextOrList>) {
    match roms
    case None => true
    case Some(Text(_)) => false
    case Some(Items(rs)) => |rs| > 0 && AllClean(rs)
  }

  /** The games the writer and the parser agree on: a clean `game` name, a
      rom list as above with the matching `file`, and clean optional sort
      key, developer and one-line description; nothing else. */
  predicate GameFragment(g: Game) {
    && g == EmptyGame.(game := g.game, file := g.file, roms := g.roms, sortBy := g.sortBy,
                       developer := g.developer, description := g.description)
    && g.game.Some? && Clean(g.game.value)
    && RomsFragment(g.roms) && g.file == FileOf(g.roms)
    && CleanOpt(g.sortBy) && CleanOpt(g.developer) && CleanOpt(g.description)
  }

  /** A key as the parser tests for it: a name with no colon, not starting
      with whitespace, followed by one colon. */
  predicate IsKey(k: string) {
    |k| > 1 && k[|k| - 1] == ':' && ':' !in k[..|k| - 1] && !IsSpace(k[0])
  }

  /** The parser is between blocks: no launch block and no `files:` block
      is open. */
  predicate Quiet(st: State) {
    !st.inGlobalLaunch && !st.inGameLaunch && !st.inFiles
  }

  // ---------------------------------------------------------------------
  // Facts about single lines
  // ---------------------------------------------------------------------

  /** A line that starts with one key does not start with another. */
  lemma OtherKey(line: string, k1: string, k2: string)
    requires IsKey(k1) && IsKey(k2) && k1 != k2 && StartsWith(line, k1)
    ensures !StartsWith(line, k2)
  {
    if |k1| < |k2| && |k2| <= |line| {
      var i := |k1| - 1;
      assert line[i] == line[..|k1|][i] == ':';
      assert k2[i] == k2[..|k2| - 1][i] != ':';
      assert line[..|k2|][i] != k2[i];
    } else if |k2| < |k1| {
      var i := |k2| - 1;
      assert line[i] == line[..|k1|][i] == k1[..|k1| - 1][i] != ':';
      assert line[..|k2|][i] != k2[i];
    } else if |k1| == |k2| {
      assert line[..|k2|] == k1;
    }
  }

  /** A key line neither is blank nor looks indented. */
  lemma KeyLineShape(line: string, k: string)
    requires IsKey(k) && StartsWith(line, k)
    ensures Strip(line) != "" && !StartsWith(line, "  ")
  {
    assert line[0] == line[..|k|][0] == k[0];
    assert !IsSpace(line[0]);
    var l := LStrip(line);
    assert l == line;
  }

  /** The line `k v` starts with its key, is not blank and is not
      indented. */
  lemma KeyLineHead(line: string, k: string, v: string)
    requires IsKey(k) && Clean(v) && line == k + " " + v
    ensures StartsWith(line, k) && Strip(line) != "" && !StartsWith(line, "  ")
  {
    assert line[..|k|] == k;
    KeyLineShape(line, k);
  }

  /** `k v` is read back as `v`. */
  lemma KeyLineValue(k: string, v: string)
    requires IsKey(k) && Clean(v)
    ensures ':' in k + " " + v && Value(k + " " + v) == v
  {
    var line := k + " " + v;
    var name := k[..|k| - 1];
    assert line == name + [':'] + (" " + v);
    AfterFirstOfKey(name, " " + v, ':');
    StripPadded(" ", v);
  }

  /** The line `k v` of a key other than `game:`: it starts with `k` and
      no other of the writer's keys, and is read back as `v`. */
  lemma KeyLine(line: string, k: string, v: string)
    requires IsKey(k) && k != "game:" && Clean(v) && line == k + " " + v
    ensures StartsWith(line, k) && Strip(line) != "" && !StartsWith(line, "  ")
    ensures !StartsWith(line, "game:")
    ensures ':' in line && Value(line) == v
  {
    WriterKeys();
    KeyLineHead(line, k, v);
    OtherKey(line, k, "game:");
    KeyLineValue(k, v);
  }

  /** The keys the writer emits, as the parser tests for keys. */
  lemma WriterKeys()
    ensures IsKey("collection:") && IsKey("sort-by:") && IsKey("ignore-files:") && IsKey("extension:")
    ensures IsKey("launch:") && IsKey("game:") && IsKey("file:") && IsKey("files:")
    ensures IsKey("developer:") && IsKey("description:")
    ensures "collection:" != "game:" && "sort-by:" != "game:" && "file:" != "game:"
    ensures "developer:" != "game:" && "description:" != "game:" && "launch:" != "game:"
  {
  }

  /** An indented clean value: not blank, not a key line, read back as the
      value by `strip`. */
  lemma IndentedLine(v: string)
    requires Clean(v)
    ensures StartsWith("  " + v, "  ") && Strip("  " + v) == v && v != ""
  {
    StripPadded("  ", v);
    assert ("  " + v)[..2] == "  ";
  }

  /** An indented line does not start with a key. */
  lemma IndentedNotKey(line: string, k: string)
    requires IsKey(k) && StartsWith(line, "  ")
    ensures !StartsWith(line, k)
  {
    assert line[0] == line[..2][0] == ' ';
    if |k| <= |line| {
      assert line[..|k|][0] == ' ';
    }
  }

  /** A clean value is one line, so the writer puts it on its key line. */
  lemma BlockOneLine(key: string, v: string)
    requires Clean(v)
    ensures Block(key, v) == [key + ": " + v]
  {
    SplitLinesJoin([v]);
  }

  // ---------------------------------------------------------------------
  // One parser step per kind of line the writer emits
  // ---------------------------------------------------------------------

  /** Outside launch blocks a line goes straight to `Dispatch`. */
  lemma StepOutsideLaunch(st: State, line: string)
    requires !st.inGlobalLaunch && !st.inGameLaunch
    ensures Step(st, line) == Dispatch(st, line)
  {
  }

  /** A non-blank line other than `game:` before the first game. */
  lemma DispatchHeader(st: State, line: string)
    requires st.current.None? && Strip(line) != "" && !StartsWith(line, "game:")
    ensures Dispatch(st, line) == Ok(HeaderLine(st, line))
  {
  }

  /** A non-blank line other than `game:` after the first game. */
  lemma DispatchGame(st: State, line: string)
    requires st.current.Some? && Strip(line) != "" && !StartsWith(line, "game:")
    ensures Dispatch(st, line) == GameLine(st, line)
  {
  }

  /** `collection:` sets the collection. */
  lemma HeaderLineCollection(st: State, line: string)
    requires st.current.None? && StartsWith(line, "collection:") && !StartsWith(line, "  ")
    ensures ':' in line
    ensures HeaderLine(st, line) == st.(header := st.header.(collection := Some(Value(line))))
  {
    KeyLineHasColon(line, "collection:");

  }

  lemma StepCollection(st: State, v: string)
    requires Quiet(st) && st.current.None? && Clean(v)
    ensures Step(st, "collection: " + v) == Ok(st.(header := st.header.(collection := Some(v))))
  {
    var line := "collection: " + v;
    assert line == "collection:" + " " + v;
    WriterKeys();
    KeyLine(line, "collection:", v);
    StepOutsideLaunch(st, line);
    DispatchHeader(st, line);
    HeaderLineCollection(st, line);
  }

  /** `sort-by:` before the first game sets the default sort key. */
  lemma HeaderLineSortBy(st: State, line: string)
    requires st.current.None? && StartsWith(line, "sort-by:") && !StartsWith(line, "  ")
    ensures ':' in line
    ensures HeaderLine(st, line) == st.(header := st.header.(defaultSortBy := Some(Value(line))))
  {
    KeyLineHasColon(line, "sort-by:");
    OtherKey(line, "sort-by:", "collection:");
    OtherKey(line, "sort-by:", "ignore-files:");
    OtherKey(line, "sort-by:", "extension:");
  }

  lemma StepHeaderSortBy(st: State, v: string)
    requires Quiet(st) && st.current.None? && Clean(v)
    ensures Step(st, "sort-by: " + v) == Ok(st.(header := st.header.(defaultSortBy := Some(v))))
  {
    var line := "sort-by: " + v;
    assert line == "sort-by:" + " " + v;
    WriterKeys();
    KeyLine(line, "sort-by:", v);
    StepOutsideLaunch(st, line);
    DispatchHeader(st, line);
    HeaderLineSortBy(st, line);
  }

  lemma StepIgnoreFiles(st: State)
    requires Quiet(st) && st.current.None?
    ensures Step(st, "ignore-files:") == Ok(st.(header := st.header.(ignoreFiles := Some([]))))
  {
    var line := "ignore-files:";
    KeyLineShape(line, line);
    OtherKey(line, line, "game:");
    OtherKey(line, line, "collection:");
  }

  /** An indented line after `ignore-files:` adds an ignore pattern. */
  lemma HeaderLineIgnoreItem(st: State, line: string)
    requires st.current.None? && st.header.ignoreFiles.Some? && StartsWith(line, "  ")
    ensures HeaderLine(st, line) ==
      st.(header := st.header.(ignoreFiles := Some(st.header.ignoreFiles.value + [Strip(line)])))
  {
    IndentedNotKey(line, "collection:");
    IndentedNotKey(line, "ignore-files:");
  }

  lemma StepGame(st: State, v: string)
    requires Quiet(st) && Clean(v)
    ensures Step(st, "game: " + v) ==
      Ok(st.(games := Pending(st), current := Some(EmptyGame.(game := Some(v)))))
  {
    var line := "game: " + v;
    assert line == "game:" + " " + v;
    assert Strip(line) != "" && StartsWith(line, "game:") by {
      KeyLineHead(line, "game:", v);
    }
    StepOutsideLaunch(st, line);
    KeyLineValue("game:", v);
  }

  /** `file:` sets the file and makes it the only rom. */
  lemma GameLineFile(st: State, line: string)
    requires st.current.Some? && StartsWith(line, "file:") && !StartsWith(line, "  ")
    ensures ':' in line
    ensures GameLine(st, line) == Ok(st.(current := Some(st.current.value.(file := Some(Value(line)), roms := Some(Items([Value(line)]))))))
  {
    KeyLineHasColon(line, "file:");

  }

  lemma StepFile(st: State, v: string)
    requires !st.inGlobalLaunch && !st.inGameLaunch && st.current.Some? && Clean(v)
    ensures Step(st, "file: " + v) == Ok(st.(current := Some(st.current.value.(file := Some(v), roms := Some(Items([v]))))))
  {
    var line := "file: " + v;
    assert line == "file:" + " " + v;
    WriterKeys();
    KeyLine(line, "file:", v);
    StepOutsideLaunch(st, line);
    DispatchGame(st, line);
    GameLineFile(st, line);
  }

  lemma StepFiles(st: State)
    requires !st.inGlobalLaunch && !st.inGameLaunch && st.current.Some?
    ensures Step(st, "files:") ==
      Ok(st.(inFiles := true, current := Some(st.current.value.(roms := Some(Items([]))))))
  {
    var line := "files:";
    KeyLineShape(line, line);
    OtherKey(line, line, "game:");
    OtherKey(line, line, "file:");
  }

  /** An indented line inside `files:` adds a rom. */
  lemma GameLineRomItem(st: State, xs: seq<string>, line: string)
    requires st.inFiles && st.current.Some? && st.current.value.roms == Some(Items(xs))
    requires StartsWith(line, "  ")
    ensures GameLine(st, line) ==
      Ok(st.(current := Some(st.current.value.(roms := Some(Items(xs + [Strip(line)]))))))
  {
    IndentedNotKey(line, "file:");
    IndentedNotKey(line, "files:");
  }

  /** `sort-by:` in a game. */
  lemma GameLineSortBy(st: State, line: string)
    requires st.current.Some? && StartsWith(line, "sort-by:") && !StartsWith(line, "  ")
    ensures ':' in line
    ensures GameLine(st, line) == Ok(st.(current := Some(st.current.value.(sortBy := Some(Value(line))))))
  {
    KeyLineHasColon(line, "sort-by:");
    OtherKey(line, "sort-by:", "file:");
    OtherKey(line, "sort-by:", "files:");
  }

  lemma StepGameSortBy(st: State, v: string)
    requires !st.inGlobalLaunch && !st.inGameLaunch && st.current.Some? && Clean(v)
    ensures Step(st, "sort-by: " + v) == Ok(st.(current := Some(st.current.value.(sortBy := Some(v)))))
  {
    var line := "sort-by: " + v;
    assert line == "sort-by:" + " " + v;
    WriterKeys();
    KeyLine(line, "sort-by:", v);
    StepOutsideLaunch(st, line);
    DispatchGame(st, line);
    GameLineSortBy(st, line);
  }

  /** `developer:`. */
  lemma GameLineDeveloper(st: State, line: string)
    requires st.current.Some? && StartsWith(line, "developer:") && !StartsWith(line, "  ")
    ensures ':' in line
    ensures GameLine(st, line) == Ok(st.(current := Some(st.current.value.(developer := Some(Value(line))))))
  {
    KeyLineHasColon(line, "developer:");
    OtherKey(line, "developer:", "file:");
    OtherKey(line, "developer:", "files:");
    OtherKey(line, "developer:", "sort-by:");
  }

  lemma StepDeveloper(st: State, v: string)
    requires !st.inGlobalLaunch && !st.inGameLaunch && st.current.Some? && Clean(v)
    ensures Step(st, "developer: " + v) == Ok(st.(current := Some(st.current.value.(developer := Some(v)))))
  {
    var line := "developer: " + v;
    assert line == "developer:" + " " + v;
    WriterKeys();
    KeyLine(line, "developer:", v);
    StepOutsideLaunch(st, line);
    DispatchGame(st, line);
    GameLineDeveloper(st, line);
  }

  /** A one-line `description:`. */
  lemma GameLineDescription(st: State, line: string)
    requires st.current.Some? && StartsWith(line, "description:") && !StartsWith(line, "  ")
    ensures ':' in line
    ensures GameLine(st, line) == Ok(st.(current := Some(st.current.value.(description := Some(Value(line))))))
  {
    KeyLineHasColon(line, "description:");
    OtherKey(line, "description:", "file:");
    OtherKey(line, "description:", "files:");
    OtherKey(line, "description:", "sort-by:");
    OtherKey(line, "description:", "developer:");
  }

  lemma StepDescription(st: State, v: string)
    requires !st.inGlobalLaunch && !st.inGameLaunch && st.current.Some? && Clean(v)
    ensures Step(st, "description: " + v) == Ok(st.(current := Some(st.current.value.(description := Some(v)))))
  {
    var line := "description: " + v;
    assert line == "description:" + " " + v;
    WriterKeys();
    KeyLine(line, "description:", v);
    StepOutsideLaunch(st, line);
    DispatchGame(st, line);
    GameLineDescription(st, line);
  }

  lemma StepBlank(st: State)
    requires !st.inGlobalLaunch && !st.inGameLaunch
    ensures Step(st, "") == Ok(st.(inFiles := false))
  {
  }

  // ---------------------------------------------------------------------
  // Runs over the blocks the writer emits
  // ---------------------------------------------------------------------

  /** Running two pieces of input runs the second from where the first
      stopped. */
  lemma {:induction false} RunAppend(st: State, a: seq<string>, b: seq<string>, mid: State)
    requires Run(st, a) == Ok(mid)
    ensures Run(st, a + b) == Run(mid, b)
    decreases |a|
  {
    if |a| == 0 {
      assert a + b == b;
    } else {
      assert (a + b)[0] == a[0];
      assert (a + b)[1..] == a[1..] + b;
      var r := Step(st, a[0]);
      assert r.Ok?;
      RunAppend(r.value, a[1..], b, mid);
    }
  }

  lemma RunCons(st: State, line: string, rest: seq<string>, next: State)
    requires Step(st, line) == Ok(next)
    ensures Run(st, [line] + rest) == Run(next, rest)
  {
    assert ([line] + rest)[1..] == rest;
  }

  /** Running a non-empty input is running its tail from the first step. */
  lemma RunFirst(st: State, lines: seq<string>, next: State)
    requires |lines| > 0 && Step(st, lines[0]) == Ok(next)
    ensures Run(st, lines) == Run(next, lines[1..])
  {
  }

  lemma RunOne(st: State, line: string, next: State)
    requires Step(st, line) == Ok(next)
    ensures Run(st, [line]) == Ok(next)
  {
    RunCons(st, line, [], next);
    assert [line] + [] == [line];
  }

  /** `lines` are `xs` indented: each starts with two spaces and strips to
      the non-empty item. */
  predicate IndentedAs(lines: seq<string>, xs: seq<string>) {
    |lines| == |xs| &&
    forall k :: 0 <= k < |lines| ==> StartsWith(lines[k], "  ") && Strip(lines[k]) == xs[k] != ""
  }

  lemma IndentedClean(xs: seq<string>)
    requires AllClean(xs)
    ensures IndentedAs(Indented(xs), xs)
  {
    forall k | 0 <= k < |xs|
      ensures StartsWith(Indented(xs)[k], "  ") && Strip(Indented(xs)[k]) == xs[k] != ""
    {
      IndentedLine(xs[k]);
    }
  }

  /** Header zone: an indented non-blank line adds an ignore pattern. */
  lemma StepIgnoreLine(st: State, line: string)
    requires Quiet(st) && st.current.None? && st.header.ignoreFiles.Some?
    requires StartsWith(line, "  ") && Strip(line) != ""
    ensures Step(st, line) ==
      Ok(st.(header := st.header.(ignoreFiles := Some(st.header.ignoreFiles.value + [Strip(line)]))))
  {
    IndentedNotKey(line, "game:");
    StepOutsideLaunch(st, line);
    DispatchHeader(st, line);
    HeaderLineIgnoreItem(st, line);
  }

  /** Game zone inside `files:`: an indented non-blank line adds a rom. */
  lemma StepRomLine(st: State, xs: seq<string>, line: string)
    requires !st.inGlobalLaunch && !st.inGameLaunch && st.inFiles
    requires st.current.Some? && st.current.value.roms == Some(Items(xs))
    requires StartsWith(line, "  ") && Strip(line) != ""
    ensures Step(st, line) ==
      Ok(st.(current := Some(st.current.value.(roms := Some(Items(xs + [Strip(line)]))))))
  {
    IndentedNotKey(line, "game:");
    StepOutsideLaunch(st, line);
    DispatchGame(st, line);
    GameLineRomItem(st, xs, line);
  }

  lemma IndentedAsTail(lines: seq<string>, xs: seq<string>)
    requires IndentedAs(lines, xs) && |lines| > 0
    ensures IndentedAs(lines[1..], xs[1..])
  {
    forall k | 0 <= k < |lines| - 1
      ensures lines[1..][k] == lines[k + 1]
    {
    }
  }

  lemma AppendHead<T>(pre: seq<T>, xs: seq<T>)
    requires |xs| > 0
    ensures pre + [xs[0]] + xs[1..] == pre + xs
  {
  }

  /** Setting the ignore patterns twice keeps the second value. */
  lemma IgnoresTwice(st: State, a: seq<string>, b: seq<string>)
    ensures var n := st.(header := st.header.(ignoreFiles := Some(a)));
      n.(header := n.header.(ignoreFiles := Some(b))) == st.(header := st.header.(ignoreFiles := Some(b)))
  {
  }

  /** Setting the rom list of the open game twice keeps the second value. */
  lemma RomsTwice(st: State, a: seq<string>, b: seq<string>)
    requires st.current.Some?
    ensures var n := st.(current := Some(st.current.value.(roms := Some(Items(a)))));
      n.(current := Some(n.current.value.(roms := Some(Items(b))))) ==
      st.(current := Some(st.current.value.(roms := Some(Items(b)))))
  {
  }

  /** The first indented line after `ignore-files:` adds its pattern. */
  lemma RunIgnoreHead(st: State, pre: seq<string>, lines: seq<string>, xs: seq<string>)
    requires Quiet(st) && st.current.None? && st.header.ignoreFiles == Some(pre)
    requires IndentedAs(lines, xs) && |lines| > 0
    ensures Run(st, lines) == Run(st.(header := st.header.(ignoreFiles := Some(pre + [xs[0]]))), lines[1..])
  {
    var next := st.(header := st.header.(ignoreFiles := Some(pre + [xs[0]])));
    StepIgnoreLine(st, lines[0]);
    RunFirst(st, lines, next);
  }

  /** The indented lines after `ignore-files:` add the patterns in order. */
  lemma {:induction false} RunIgnoreItems(st: State, pre: seq<string>, lines: seq<string>, xs: seq<string>)
    requires Quiet(st) && st.current.None? && st.header.ignoreFiles == Some(pre)
    requires IndentedAs(lines, xs)
    ensures Run(st, lines) == Ok(st.(header := st.header.(ignoreFiles := Some(pre + xs))))
    decreases |lines|
  {
    if |lines| == 0 {
      assert pre + xs == pre;
      assert st.header.(ignoreFiles := Some(pre)) == st.header;
    } else {
      var next := st.(header := st.header.(ignoreFiles := Some(pre + [xs[0]])));
      RunIgnoreHead(st, pre, lines, xs);
      IndentedAsTail(lines, xs);
      RunIgnoreItems(next, pre + [xs[0]], lines[1..], xs[1..]);
      AppendHead(pre, xs);
      IgnoresTwice(st, pre + [xs[0]], pre + xs);
    }
  }

  /** The first indented line of a `files:` block adds its rom. */
  lemma RunRomHead(st: State, pre: seq<string>, lines: seq<string>, xs: seq<string>)
    requires !st.inGlobalLaunch && !st.inGameLaunch && st.inFiles
    requires st.current.Some? && st.current.value.roms == Some(Items(pre))
    requires IndentedAs(lines, xs) && |lines| > 0
    ensures Run(st, lines) ==
      Run(st.(current := Some(st.current.value.(roms := Some(Items(pre + [xs[0]]))))), lines[1..])
  {
    var next := st.(current := Some(st.current.value.(roms := Some(Items(pre + [xs[0]])))));
    StepRomLine(st, pre, lines[0]);
    RunFirst(st, lines, next);
  }

  /** The indented lines of a `files:` block add the roms in order. */
  lemma {:induction false} RunRomItems(st: State, pre: seq<string>, lines: seq<string>, xs: seq<string>)
    requires !st.inGlobalLaunch && !st.inGameLaunch && st.inFiles
    requires st.current.Some? && st.current.value.roms == Some(Items(pre))
    requires IndentedAs(lines, xs)
    ensures Run(st, lines) ==
      Ok(st.(current := Some(st.current.value.(roms := Some(Items(pre + xs))))))
    decreases |lines|
  {
    if |lines| == 0 {
      assert pre + xs == pre;
      assert st.current.value.(roms := Some(Items(pre))) == st.current.value;
    } else {
      var next := st.(current := Some(st.current.value.(roms := Some(Items(pre + [xs[0]])))));
      RunRomHead(st, pre, lines, xs);
      IndentedAsTail(lines, xs);
      RunRomItems(next, pre + [xs[0]], lines[1..], xs[1..]);
      AppendHead(pre, xs);
      RomsTwice(st, pre + [xs[0]], pre + xs);
    }
  }

  // ---------------------------------------------------------------------
  // Runs over whole fields
  // ---------------------------------------------------------------------

  /** Two runs one after the other. */
  lemma RunThen(st: State, a: seq<string>, b: seq<string>, mid: State, fin: State)
    requires Run(st, a) == Ok(mid) && Run(mid, b) == Ok(fin)
    ensures Run(st, a + b) == Ok(fin)
  {
    RunAppend(st, a, b, mid);
  }

  /** A clean value is written as one key line. */
  lemma FieldClean(prefix: string, v: Option<string>)
    requires CleanOpt(v)
    ensures Field(prefix, v) == (if v.Some? then [prefix + v.value] else [])
  {
  }

  /** A clean description is written as a key line, like any other field. */
  lemma BlockFieldClean(v: Option<string>)
    requires CleanOpt(v)
    ensures BlockField("description", v) == Field("description: ", v)
  {
    if v.Some? {
      BlockOneLine("description", v.value);
      assert "description" + ": " == "description: ";
    }
  }

  /** The `collection` line, if any. */
  lemma RunCollection(st: State, v: Option<string>)
    requires Quiet(st) && st.current.None? && CleanOpt(v)
    ensures Run(st, Field("collection: ", v)) ==
      Ok(if v.Some? then st.(header := st.header.(collection := v)) else st)
  {
    if v.Some? {
      StepCollection(st, v.value);
      RunOne(st, "collection: " + v.value, st.(header := st.header.(collection := v)));
    }
  }

  /** The header `sort-by` line, if any. */
  lemma RunHeaderSortBy(st: State, v: Option<string>)
    requires Quiet(st) && st.current.None? && CleanOpt(v)
    ensures Run(st, Field("sort-by: ", v)) ==
      Ok(if v.Some? then st.(header := st.header.(defaultSortBy := v)) else st)
  {
    if v.Some? {
      StepHeaderSortBy(st, v.value);
      RunOne(st, "sort-by: " + v.value, st.(header := st.header.(defaultSortBy := v)));
    }
  }

  /** The `ignore-files:` block, if any: the key line, then one line per
      pattern. */
  lemma RunIgnoreBlock(st: State, v: Option<seq<string>>)
    requires Quiet(st) && st.current.None?
    requires v.None? || (|v.value| > 0 && AllClean(v.value))
    ensures Run(st, ListField("ignore-files:", v.GetOr([]))) ==
      Ok(if v.Some? then st.(header := st.header.(ignoreFiles := v)) else st)
  {
    if v.Some? {
      RunIgnoreList(st, v.value);
    }
  }

  /** A non-empty `ignore-files:` block sets the patterns. */
  lemma RunIgnoreList(st: State, xs: seq<string>)
    requires Quiet(st) && st.current.None? && |xs| > 0 && AllClean(xs)
    ensures Run(st, ListField("ignore-files:", xs)) == Ok(st.(header := st.header.(ignoreFiles := Some(xs))))
  {
    var lines := ListField("ignore-files:", xs);
    RunIgnoreLines(st, xs, lines);
  }

  lemma RunIgnoreLines(st: State, xs: seq<string>, lines: seq<string>)
    requires Quiet(st) && st.current.None? && AllClean(xs)
    requires |lines| > 0 && lines[0] == "ignore-files:" && lines[1..] == Indented(xs)
    ensures Run(st, lines) == Ok(st.(header := st.header.(ignoreFiles := Some(xs))))
  {
    var next := st.(header := st.header.(ignoreFiles := Some([])));
    StepIgnoreFiles(st);
    RunFirst(st, lines, next);
    IndentedClean(xs);
    RunIgnoreItems(next, [], lines[1..], xs);
    assert [] + xs == xs;
    IgnoresTwice(st, [], xs);
  }

  /** The parser state after the rom lines the writer emits for `roms`: one
      rom sets the file as well, several leave the `files:` block open. */
  function AfterRoms(st: State, roms: Option<TextOrList>): State
    requires st.current.Some?
  {
    match roms
    case Some(Items(rs)) =>
      if |rs| == 1 then st.(current := Some(st.current.value.(file := Some(rs[0]), roms := roms)))
      else st.(inFiles := true, current := Some(st.current.value.(roms := roms)))
    case _ => st
  }

  /** A single rom is written as a `file:` line. */
  lemma RunFileLine(st: State, roms: Option<TextOrList>, r: string)
    requires !st.inGlobalLaunch && !st.inGameLaunch && st.current.Some? && Clean(r)
    requires roms == Some(Items([r]))
    ensures Run(st, ["file: " + r]) ==
      Ok(st.(current := Some(st.current.value.(file := Some(r), roms := roms))))
  {
    StepFile(st, r);
    RunOne(st, "file: " + r, st.(current := Some(st.current.value.(file := Some(r), roms := roms))));
  }

  /** Several roms are written as a `files:` block. */
  lemma RunFilesBlock(st: State, roms: Option<TextOrList>, rs: seq<string>)
    requires !st.inGlobalLaunch && !st.inGameLaunch && st.current.Some? && AllClean(rs)
    requires roms == Some(Items(rs))
    ensures Run(st, ["files:"] + Indented(rs)) ==
      Ok(st.(inFiles := true, current := Some(st.current.value.(roms := roms))))
  {
    var lines := ["files:"] + Indented(rs);
    var next := st.(inFiles := true, current := Some(st.current.value.(roms := Some(Items([])))));
    StepFiles(st);
    RunFirst(st, lines, next);
    IndentedClean(rs);
    assert lines[1..] == Indented(rs);
    RunRomItems(next, [], lines[1..], rs);
    assert [] + rs == rs;
    RomsTwice(st.(inFiles := true), [], rs);
  }

  /** The rom lines of a game, read back. */
  lemma RunRoms(st: State, roms: Option<TextOrList>)
    requires !st.inGlobalLaunch && !st.inGameLaunch && st.current.Some? && RomsFragment(roms)
    ensures Run(st, RomLines(roms)) == Ok(AfterRoms(st, roms))
  {
    if roms.Some? {
      var rs := roms.value.items;
      if |rs| == 1 {
        assert rs == [rs[0]];
        RunFileLine(st, roms, rs[0]);
      } else {
        RunFilesBlock(st, roms, rs);
      }
    }
  }

  /** The game `sort-by` line, if any. */
  lemma RunGameSortBy(st: State, v: Option<string>)
    requires !st.inGlobalLaunch && !st.inGameLaunch && st.current.Some? && CleanOpt(v)
    ensures Run(st, Field("sort-by: ", v)) ==
      Ok(if v.Some? then st.(current := Some(st.current.value.(sortBy := v))) else st)
  {
    if v.Some? {
      StepGameSortBy(st, v.value);
      RunOne(st, "sort-by: " + v.value, st.(current := Some(st.current.value.(sortBy := v))));
    }
  }

  /** The `developer` line, if any. */
  lemma RunDeveloper(st: State, v: Option<string>)
    requires !st.inGlobalLaunch && !st.inGameLaunch && st.current.Some? && CleanOpt(v)
    ensures Run(st, Field("developer: ", v)) ==
      Ok(if v.Some? then st.(current := Some(st.current.value.(developer := v))) else st)
  {
    if v.Some? {
      StepDeveloper(st, v.value);
      RunOne(st, "developer: " + v.value, st.(current := Some(st.current.value.(developer := v))));
    }
  }

  /** A one-line `description`, if any. */
  lemma RunDescription(st: State, v: Option<string>)
    requires !st.inGlobalLaunch && !st.inGameLaunch && st.current.Some? && CleanOpt(v)
    ensures Run(st, Field("description: ", v)) ==
      Ok(if v.Some? then st.(current := Some(st.current.value.(description := v))) else st)
  {
    if v.Some? {
      StepDescription(st, v.value);
      RunOne(st, "description: " + v.value, st.(current := Some(st.current.value.(description := v))));
    }
  }

  /** The `game:` line. */
  lemma RunGameLine(st: State, v: string, rest: seq<string>)
    requires Quiet(st) && Clean(v)
    ensures Run(st, ["game: " + v] + rest) ==
      Run(st.(games := Pending(st), current := Some(EmptyGame.(game := Some(v)))), rest)
  {
    StepGame(st, v);
    RunCons(st, "game: " + v, rest, st.(games := Pending(st), current := Some(EmptyGame.(game := Some(v)))));
  }

  /** The closing blank line. */
  lemma RunBlank(st: State)
    requires !st.inGlobalLaunch && !st.inGameLaunch
    ensures Run(st, [""]) == Ok(st.(inFiles := false))
  {
    StepBlank(st);
    RunOne(st, "", st.(inFiles := false));
  }

  /** The lines the writer emits for a game of the fragment, key by key. */
  lemma GameLinesClean(g: Game)
    requires GameFragment(g)
    ensures GameLines(g) ==
      ["game: " + g.game.value] + (RomLines(g.roms) + (Field("sort-by: ", g.sortBy) +
        (Field("developer: ", g.developer) + (Field("description: ", g.description) + [""]))))
  {
    BlockFieldClean(g.description);
    assert Title(g) == g.game;
  }

  /** Five runs one after the other. */
  lemma RunChain(st: State, a: seq<string>, b: seq<string>, c: seq<string>, d: seq<string>, e: seq<string>,
                 s1: State, s2: State, s3: State, s4: State, s5: State)
    requires Run(st, a) == Ok(s1) && Run(s1, b) == Ok(s2) && Run(s2, c) == Ok(s3)
    requires Run(s3, d) == Ok(s4) && Run(s4, e) == Ok(s5)
    ensures Run(st, a + (b + (c + (d + e)))) == Ok(s5)
  {
    RunThen(s3, d, e, s4, s5);
    RunThen(s2, c, d + e, s3, s5);
    RunThen(s1, b, c + (d + e), s2, s5);
    RunThen(st, a, b + (c + (d + e)), s1, s5);
  }

  /** The fields of a fragment game, set one by one in the order the writer
      emits them, give back the game. */
  lemma GameAssembled(st: State, g: Game)
    requires Quiet(st) && GameFragment(g)
    ensures
      var s1 := st.(games := Pending(st), current := Some(EmptyGame.(game := Some(g.game.value))));
      var s2 := AfterRoms(s1, g.roms);
      var s3 := if g.sortBy.Some? then s2.(current := Some(s2.current.value.(sortBy := g.sortBy))) else s2;
      var s4 := if g.developer.Some? then s3.(current := Some(s3.current.value.(developer := g.developer))) else s3;
      var s5 := if g.description.Some? then s4.(current := Some(s4.current.value.(description := g.description))) else s4;
      s5.(inFiles := false) == st.(games := Pending(st), current := Some(g))
  {
  }

  /** Parsing the block the writer emits for a fragment game opens that game,
      closing the previous one, and leaves no block open. */
  lemma RunGame(st: State, g: Game)
    requires Quiet(st) && GameFragment(g)
    ensures Run(st, GameLines(g)) == Ok(st.(games := Pending(st), current := Some(g)))
  {
    var s1 := st.(games := Pending(st), current := Some(EmptyGame.(game := Some(g.game.value))));
    var s2 := AfterRoms(s1, g.roms);
    var s3 := if g.sortBy.Some? then s2.(current := Some(s2.current.value.(sortBy := g.sortBy))) else s2;
    var s4 := if g.developer.Some? then s3.(current := Some(s3.current.value.(developer := g.developer))) else s3;
    var s5 := if g.description.Some? then s4.(current := Some(s4.current.value.(description := g.description))) else s4;
    var a := RomLines(g.roms);
    var b := Field("sort-by: ", g.sortBy);
    var c := Field("developer: ", g.developer);
    var d := Field("description: ", g.description);
    GameLinesClean(g);
    RunGameLine(st, g.game.value, a + (b + (c + (d + [""]))));
    RunRoms(s1, g.roms);
    RunGameSortBy(s2, g.sortBy);
    RunDeveloper(s3, g.developer);
    RunDescription(s4, g.description);
    RunBlank(s5);
    RunChain(s1, a, b, c, d, [""], s2, s3, s4, s5, s5.(inFiles := false));
    GameAssembled(st, g);
  }

  /** The lines the writer emits for a fragment header. */
  lemma HeaderLinesClean(h: Header)
    requires HeaderFragment(h)
    ensures HeaderLines(h) ==
      Field("collection: ", h.collection) + (Field("sort-by: ", h.defaultSortBy) +
        ListField("ignore-files:", h.ignoreFiles.GetOr([])))
  {
    HeaderLinesPlain(h);
  }

  /** The header fields set in the order the writer emits them give back the
      header. */
  lemma HeaderAssembled(h: Header)
    requires HeaderFragment(h)
    ensures
      var s1 := if h.collection.Some? then Start.(header := Start.header.(collection := h.collection)) else Start;
      var s2 := if h.defaultSortBy.Some? then s1.(header := s1.header.(defaultSortBy := h.defaultSortBy)) else s1;
      var s3 := if h.ignoreFiles.Some? then s2.(header := s2.header.(ignoreFiles := h.ignoreFiles)) else s2;
      s3 == Start.(header := h)
  {
  }

  /** Parsing the header the writer emits for a fragment header gives it back,
      with no game open. */
  lemma RunHeader(h: Header)
    requires HeaderFragment(h)
    ensures Run(Start, HeaderLines(h)) == Ok(Start.(header := h))
  {
    var s1 := if h.collection.Some? then Start.(header := Start.header.(collection := h.collection)) else Start;
    var s2 := if h.defaultSortBy.Some? then s1.(header := s1.header.(defaultSortBy := h.defaultSortBy)) else s1;
    var s3 := if h.ignoreFiles.Some? then s2.(header := s2.header.(ignoreFiles := h.ignoreFiles)) else s2;
    var a := Field("collection: ", h.collection);
    var b := Field("sort-by: ", h.defaultSortBy);
    var c := ListField("ignore-files:", h.ignoreFiles.GetOr([]));
    HeaderLinesClean(h);
    RunCollection(Start, h.collection);
    RunHeaderSortBy(s1, h.defaultSortBy);
    RunIgnoreBlock(s2, h.ignoreFiles);
    RunThen(s1, b, c, s2, s3);
    RunThen(Start, a, b + c, s1, s3);
    HeaderAssembled(h);
  }

  /** A fragment game has no `file` without `roms`, so closing it changes
      nothing. */
  lemma FinalizeFragment(g: Game)
    requires GameFragment(g)
    ensures Finalize(g) == g
  {
  }

  /** Every game of `gs` is in the fragment. */
  predicate AllGames(gs: seq<Game>) {
    forall k :: 0 <= k < |gs| ==> GameFragment(gs[k])
  }

  /** The state after a fragment game's block: the games read so far gain
      that game, and no block is open. */
  lemma OpenedGame(st: State, g: Game)
    requires Quiet(st) && GameFragment(g)
    ensures var m := st.(games := Pending(st), current := Some(g));
      Quiet(m) && m.header == st.header && Pending(m) == Pending(st) + [g]
  {
    FinalizeFragment(g);
  }

  /** The first game block of several. */
  lemma RunGamesHead(st: State, gs: seq<Game>)
    requires Quiet(st) && |gs| > 0 && GameFragment(gs[0])
    ensures Run(st, GamesLines(gs)) ==
      Run(st.(games := Pending(st), current := Some(gs[0])), GamesLines(gs[1..]))
  {
    RunGame(st, gs[0]);
    RunAppend(st, GameLines(gs[0]), GamesLines(gs[1..]), st.(games := Pending(st), current := Some(gs[0])));
  }

  lemma AllGamesTail(gs: seq<Game>)
    requires AllGames(gs) && |gs| > 0
    ensures AllGames(gs[1..])
  {
    forall k | 0 <= k < |gs| - 1
      ensures GameFragment(gs[1..][k])
    {
      assert gs[1..][k] == gs[k + 1];
    }
  }

  /** Parsing the game blocks of fragment games adds those games, in order,
      to the ones already read, and leaves the header alone. */
  lemma {:induction false} RunGames(st: State, gs: seq<Game>)
    requires Quiet(st) && AllGames(gs)
    ensures Run(st, GamesLines(gs)).Ok?
    ensures var f := Run(st, GamesLines(gs)).value;
      Quiet(f) && f.header == st.header && Pending(f) == Pending(st) + gs
    decreases |gs|
  {
    if |gs| == 0 {
      assert Pending(st) + gs == Pending(st);
    } else {
      var m := st.(games := Pending(st), current := Some(gs[0]));
      RunGamesHead(st, gs);
      OpenedGame(st, gs[0]);
      AllGamesTail(gs);
      RunGames(m, gs[1..]);
      AppendHead(Pending(st), gs);
    }
  }

  /** The post-pass leaves fragment games alone: none has a launch block. */
  lemma WithCoresFragment(gs: seq<Game>)
    requires AllGames(gs)
    ensures WithCores(gs) == gs
  {
  }

  /** The round trip: parsing what the writer emits for a fragment header
      and fragment games gives back that header and those games, in order. */
  lemma ParseDump(h: Header, gs: seq<Game>)
    requires HeaderFragment(h) && AllGames(gs)
    ensures Parse(Dump(h, gs)) == Ok((h, gs))
  {
    var hs := Start.(header := h);
    RunHeader(h);
    RunAppend(Start, HeaderLines(h), GamesLines(gs), hs);
    RunGames(hs, gs);
    assert Pending(hs) == [];
    assert [] + gs == gs;
    WithCoresFragment(gs);
  }

  // ---------------------------------------------------------------------
  // The same round trip through the file text
  // ---------------------------------------------------------------------

  /** No line holds a character that ends a line when the file is read. */
  predicate NoBreaks(lines: seq<string>) {
    forall k :: 0 <= k < |lines| ==> Avoids(lines[k], IsFileBreak)
  }

  lemma NoBreaksConcat(a: seq<string>, b: seq<string>)
    requires NoBreaks(a) && NoBreaks(b)
    ensures NoBreaks(a + b)
  {
    forall k | 0 <= k < |a + b|
      ensures Avoids((a + b)[k], IsFileBreak)
    {
      if k >= |a| {
        assert (a + b)[k] == b[k - |a|];
      }
    }
  }

  /** A key prefix and a clean value make a line without breaks. */
  lemma CleanLine(prefix: string, v: string)
    requires Avoids(prefix, IsFileBreak) && Clean(v)
    ensures Avoids(prefix + v, IsFileBreak)
  {
    forall i | 0 <= i < |prefix + v|
      ensures !IsFileBreak((prefix + v)[i])
    {
      if i >= |prefix| {
        assert (prefix + v)[i] == v[i - |prefix|];
        LineBoundaryIsSpace(v[i - |prefix|]);
      }
    }
  }

  lemma FieldNoBreaks(prefix: string, v: Option<string>)
    requires Avoids(prefix, IsFileBreak) && CleanOpt(v)
    ensures NoBreaks(Field(prefix, v))
  {
    if v.Some? {
      CleanLine(prefix, v.value);
    }
  }

  lemma ListNoBreaks(head: string, xs: seq<string>)
    requires head != "" && Avoids(head, IsFileBreak) && AllClean(xs)
    ensures NoBreaks(ListField(head, xs))
  {
    var lines := ListField(head, xs);
    forall k | 0 <= k < |lines|
      ensures Avoids(lines[k], IsFileBreak)
    {
      if k > 0 {
        assert lines[k] == Indented(xs)[k - 1] == "  " + xs[k - 1];
        CleanLine("  ", xs[k - 1]);
      }
    }
  }

  lemma HeaderNoBreaks(h: Header)
    requires HeaderFragment(h)
    ensures NoBreaks(HeaderLines(h))
  {
    HeaderLinesClean(h);
    FieldNoBreaks("collection: ", h.collection);
    FieldNoBreaks("sort-by: ", h.defaultSortBy);
    ListNoBreaks("ignore-files:", h.ignoreFiles.GetOr([]));
    NoBreaksConcat(Field("sort-by: ", h.defaultSortBy), ListField("ignore-files:", h.ignoreFiles.GetOr([])));
    NoBreaksConcat(Field("collection: ", h.collection),
      Field("sort-by: ", h.defaultSortBy) + ListField("ignore-files:", h.ignoreFiles.GetOr([])));
  }

  lemma RomsNoBreaks(roms: Option<TextOrList>)
    requires RomsFragment(roms)
    ensures NoBreaks(RomLines(roms))
  {
    if roms.Some? {
      var rs := roms.value.items;
      if |rs| == 1 {
        CleanLine("file: ", rs[0]);
      } else {
        ListNoBreaks("files:", rs);
        assert RomLines(roms) == ListField("files:", rs);
      }
    }
  }

  lemma GameNoBreaks(g: Game)
    requires GameFragment(g)
    ensures NoBreaks(GameLines(g))
  {
    GameLinesClean(g);
    GameLineNoBreaks(g.game.value);
    RomsNoBreaks(g.roms);
    FieldNoBreaks("sort-by: ", g.sortBy);
    FieldNoBreaks("developer: ", g.developer);
    FieldNoBreaks("description: ", g.description);
    NoBreaksChain(["game: " + g.game.value], RomLines(g.roms), Field("sort-by: ", g.sortBy),
      Field("developer: ", g.developer), Field("description: ", g.description));
  }

  lemma GameLineNoBreaks(v: string)
    requires Clean(v)
    ensures NoBreaks(["game: " + v])
  {
    CleanLine("game: ", v);
  }

  /** The lines of a game block, each free of breaks, with the closing blank
      line. */
  lemma NoBreaksChain(x: seq<string>, a: seq<string>, b: seq<string>, c: seq<string>, d: seq<string>)
    requires NoBreaks(x) && NoBreaks(a) && NoBreaks(b) && NoBreaks(c) && NoBreaks(d)
    ensures NoBreaks(x + (a + (b + (c + (d + [""])))))
  {
    NoBreaksConcat(d, [""]);
    NoBreaksConcat(c, d + [""]);
    NoBreaksConcat(b, c + (d + [""]));
    NoBreaksConcat(a, b + (c + (d + [""])));
    NoBreaksConcat(x, a + (b + (c + (d + [""]))));
  }

  lemma {:induction false} GamesNoBreaks(gs: seq<Game>)
    requires AllGames(gs)
    ensures NoBreaks(GamesLines(gs))
    decreases |gs|
  {
    if |gs| > 0 {
      GameNoBreaks(gs[0]);
      AllGamesTail(gs);
      GamesNoBreaks(gs[1..]);
      NoBreaksConcat(GameLines(gs[0]), GamesLines(gs[1..]));
    }
  }

  /** The round trip through the file: reading back the text the writer
      wrote for a fragment header and fragment games gives them back. */
  lemma ParseTextDump(h: Header, gs: seq<Game>)
    requires HeaderFragment(h) && AllGames(gs)
    ensures ParseText(ToText(Dump(h, gs))) == Ok((h, gs))
  {
    HeaderNoBreaks(h);
    GamesNoBreaks(gs);
    NoBreaksConcat(HeaderLines(h), GamesLines(gs));
    FileLinesToText(Dump(h, gs));
    ParseDump(h, gs);
  }
}

=== FILE: scanner.dfy ===
/** `parse_pegasus_metadata`: a line-by-line state machine over the lines of
    a `metadata.pegasus.txt` file, written as a fold of `Step` over an
    explicit `State` record. */
module MetadataScanner {
  import opened Wrappers
  import opened PyStr
  import opened Records

  /** What the parser raises. An indented line that continues a `files:`
      block into a game that has no `roms` list (the block was not closed by
      a blank line before the next `game:`) makes Python raise `KeyError`. */
  datatype ParseError = NoRomsList

  /** The parser's variables: the header so far, the finished games, the
      game being read, the three block flags and the scratch buffer. */
  datatype State = State(
    header: Header,
    games: seq<Game>,
    current: Option<Game>,
    inGlobalLaunch: bool,
    inGameLaunch: bool,
    inFiles: bool,
    scratch: seq<string>)

  const Start: State := State(EmptyHeader, [], None, false, false, false, [])

  /** The marker of a launch line that selects a libretro core. */
  const CoreMarker: string := "-e LIBRETRO"

  lemma KeyLineHasColon(line: string, key: string)
    requires StartsWith(line, key) && |key| > 0 && key[|key| - 1] == ':'
    ensures ':' in line
  {
    assert line[..|key|][|key| - 1] == line[|key| - 1];
  }

  /** `line.split(":", 1)[1].strip()`. */
  function Value(line: string): string
    requires ':' in line
  {
    Strip(AfterFirst(line, ':'))
  }

  /** Strips every item. */
  function StripEach(xs: seq<string>): (ys: seq<string>)
    ensures |ys| == |xs|
    ensures forall i :: 0 <= i < |xs| ==> ys[i] == Strip(xs[i])
  {
    seq(|xs|, i requires 0 <= i < |xs| => Strip(xs[i]))
  }

  /** The items of an `extension: a, b` line: `stripped.split(":", 1)[1]`
      split on commas, each item stripped, empty items kept. */
  function ExtensionItems(line: string): (exts: seq<string>)
    requires StartsWith(line, "extension:")
    ensures |exts| >= 1
  {
    ExtensionLineColon(line);
    StripEach(Split(AfterFirst(Strip(line), ':'), ','))
  }

  lemma ExtensionLineColon(line: string)
    requires StartsWith(line, "extension:")
    ensures ':' in Strip(line)
  {
    assert line[..10][0] == line[0] == 'e';
    assert line[..10][9] == line[9] == ':';
    assert LStrip(line) == line;
    var r := RStrip(line);
    assert !IsSpace(line[9]);
    assert r[9] == ':';
  }

  /** Closing a game: one with a `file` but no `roms` gets `roms = [file]`. */
  function Finalize(g: Game): (f: Game)
    ensures g.roms.None? && g.file.Some? ==> f.roms == Some(Items([g.file.value]))
    ensures g.roms.Some? || g.file.None? ==> f == g
    ensures f.(roms := g.roms) == g
  {
    if g.roms.None? && g.file.Some? then g.(roms := Some(Items([g.file.value]))) else g
  }

  /** The games read so far, counting the open one as closed. */
  function Pending(st: State): seq<Game> {
    st.games + (if st.current.Some? then [Finalize(st.current.value)] else [])
  }

  /** One input line. A line opening with two spaces continues an open
      launch block; any other line closes it (storing the buffer) and is
      then dispatched. */
  function Step(st: State, line: string): Result<State, ParseError> {
    if st.inGlobalLaunch && StartsWith(line, "  ") then
      Ok(st.(scratch := st.scratch + [RStrip(line)]))
    else
      var st1 :=
        if st.inGlobalLaunch then
          st.(inGlobalLaunch := false,
              header := st.header.(launchBlock := Some(Join(st.scratch, "\n"))))
        else st;
      if st1.inGameLaunch && StartsWith(line, "  ") then
        Ok(st1.(scratch := st1.scratch + [RStrip(line)]))
      else
        var st2 :=
          if st1.inGameLaunch then
            st1.(inGameLaunch := false,
                 current :=
                   if st1.current.Some?
                   then Some(st1.current.value.(launchOverride := Some(Join(st1.scratch, "\n"))))
                   else None)
          else st1;
        Dispatch(st2, line)
  }

  /** A line outside any launch block: a blank line closes `files:`, a
      `game:` line starts a new game, anything else goes to the header
      before the first game and to the current game after it. */
  function Dispatch(st: State, line: string): Result<State, ParseError> {
    if Strip(line) == "" then
      Ok(st.(inFiles := false))
    else if StartsWith(line, "game:") then
      KeyLineHasColon(line, "game:");
      Ok(st.(games := Pending(st), current := Some(EmptyGame.(game := Some(Value(line))))))
    else if st.current.None? then
      Ok(HeaderLine(st, line))
    else
      GameLine(st, line)
  }

  /** A line before the first `game:` line. */
  function HeaderLine(st: State, line: string): State {
    var h := st.header;
    if StartsWith(line, "collection:") then
      KeyLineHasColon(line, "collection:");
      st.(header := h.(collection := Some(Value(line))))
    else if StartsWith(line, "ignore-files:") then
      st.(header := h.(ignoreFiles := Some([])))
    else if h.ignoreFiles.Some? && StartsWith(line, "  ") then
      st.(header := h.(ignoreFiles := Some(h.ignoreFiles.value + [Strip(line)])))
    else if StartsWith(line, "extension:") then
      st.(header := h.(extensions := Some(Items(ExtensionItems(line)))))
    else if StartsWith(line, "sort-by:") then
      KeyLineHasColon(line, "sort-by:");
      st.(header := h.(defaultSortBy := Some(Value(line))))
    else if StartsWith(line, "launch:") then
      KeyLineHasColon(line, "launch:");
      st.(inGlobalLaunch := true, scratch := [RStrip(line)], header := h.(launch := Some(Value(line))))
    else
      st
  }

  /** A line after the first `game:` line. */
  function GameLine(st: State, line: string): Result<State, ParseError>
    requires st.current.Some?
  {
    var g := st.current.value;
    if StartsWith(line, "file:") then
      KeyLineHasColon(line, "file:");
      var v := Value(line);
      Ok(st.(current := Some(g.(file := Some(v), roms := Some(Items([v]))))))
    else if StartsWith(line, "files:") then
      Ok(st.(inFiles := true, current := Some(g.(roms := Some(Items([]))))))
    else if st.inFiles && StartsWith(line, "  ") then
      match g.roms
      case Some(Items(xs)) => Ok(st.(current := Some(g.(roms := Some(Items(xs + [Strip(line)]))))))
      case _ => Err(NoRomsList)
    else if StartsWith(line, "sort-by:") then
      KeyLineHasColon(line, "sort-by:");
      Ok(st.(current := Some(g.(sortBy := Some(Value(line))))))
    else if StartsWith(line, "developer:") then
      KeyLineHasColon(line, "developer:");
      Ok(st.(current := Some(g.(developer := Some(Value(line))))))
    else if StartsWith(line, "description:") then
      KeyLineHasColon(line, "description:");
      Ok(st.(current := Some(g.(description := Some(Value(line))))))
    else if StartsWith(line, "launch:") then
      KeyLineHasColon(line, "launch:");
      Ok(st.(inGameLaunch := true, scratch := [RStrip(line)], current := Some(g.(launch := Some(Value(line))))))
    else
      Ok(st)
  }

  /** Feeds `lines` to `Step` in order, stopping at the first error. */
  function Run(st: State, lines: seq<string>): Result<State, ParseError>
    decreases |lines|
  {
    if |lines| == 0 then Ok(st)
    else
      match Step(st, lines[0])
      case Err(e) => Err(e)
      case Ok(next) => Run(next, lines[1..])
  }

  /** `core_override` of one launch line: the base name of its last
      whitespace-separated token when the line holds the core marker. */
  function CoreOfLine(line: string): (core: Option<string>)
    ensures core.Some? <==> Contains(line, CoreMarker)
  {
    if Contains(line, CoreMarker) then
      ContainsSomeChar(line, CoreMarker);
      Some(LastPart(LastWord(line), '/'))
    else None
  }

  /** The value `f` gives for the last line that it gives one for. The
      source scans forward and overwrites, so the last such line wins. */
  function LastSome(lines: seq<string>, f: string -> Option<string>): (r: Option<string>)
    ensures r.None? <==> forall k :: 0 <= k < |lines| ==> f(lines[k]).None?
    decreases |lines|
  {
    if |lines| == 0 then None
    else
      var last := f(lines[|lines| - 1]);
      if last.Some? then last
      else
        var init := lines[..|lines| - 1];
        assert forall k :: 0 <= k < |init| ==> init[k] == lines[k];
        LastSome(init, f)
  }

  /** No line after index `k` gives a value. */
  predicate LaterNone(lines: seq<string>, f: string -> Option<string>, k: int) {
    forall j :: 0 <= j < |lines| && k < j ==> f(lines[j]).None?
  }

  /** `LastSome` is the value of the last line that has one. */
  lemma {:induction false} LastSomeIsLast(lines: seq<string>, f: string -> Option<string>, k: int)
    requires 0 <= k < |lines| && f(lines[k]).Some? && LaterNone(lines, f, k)
    ensures LastSome(lines, f) == f(lines[k])
    decreases |lines|
  {
    var n := |lines| - 1;
    if k < n {
      assert f(lines[n]).None?;
      var init := lines[..n];
      assert init[k] == lines[k];
      assert LaterNone(init, f, k) by {
        forall j | 0 <= j < |init| && k < j
          ensures f(init[j]).None?
        {
          assert init[j] == lines[j];
        }
      }
      LastSomeIsLast(init, f, k);
    }
  }

  /** The core a launch block names: that of its last marked line, none when
      no line holds the marker. */
  function CoreFromLaunch(launchOverride: string): (core: Option<string>)
    ensures core.None? <==> NoMarkedLine(Split(launchOverride, '\n'))
  {
    var lines := Split(launchOverride, '\n');
    var r := LastSome(lines, CoreOfLine);
    assert r.None? <==> forall k :: 0 <= k < |lines| ==> CoreOfLine(lines[k]).None?;
    r
  }

  /** No line holds the core marker. */
  predicate NoMarkedLine(lines: seq<string>) {
    forall k :: 0 <= k < |lines| ==> !Contains(lines[k], CoreMarker)
  }

  /** The core of a launch block is the one named by its last marked line. */
  lemma CoreFromLastMarkedLine(launchOverride: string, k: int)
    requires var lines := Split(launchOverride, '\n');
      0 <= k < |lines| && Contains(lines[k], CoreMarker) &&
      forall j :: k < j < |lines| ==> !Contains(lines[j], CoreMarker)
    ensures CoreFromLaunch(launchOverride) == CoreOfLine(Split(launchOverride, '\n')[k])
  {
    LastSomeIsLast(Split(launchOverride, '\n'), CoreOfLine, k);
  }

  /** The post-pass: a game whose `launch_override` is non-empty gets the
      `core_override` its lines name, if any. */
  function WithCore(g: Game): (r: Game)
    ensures r.(coreOverride := g.coreOverride) == g
    ensures r.coreOverride != g.coreOverride ==>
      Truthy(g.launchOverride) && r.coreOverride == CoreFromLaunch(g.launchOverride.value)
    ensures Truthy(g.launchOverride) && !NoMarkedLine(Split(g.launchOverride.value, '\n')) ==>
      r.coreOverride.Some? && r.coreOverride == CoreFromLaunch(g.launchOverride.value)
    ensures !Truthy(g.launchOverride) || NoMarkedLine(Split(g.launchOverride.value, '\n')) ==> r == g
  {
    if Truthy(g.launchOverride) then
      match CoreFromLaunch(g.launchOverride.value)
      case Some(c) => g.(coreOverride := Some(c))
      case None => g
    else g
  }

  function WithCores(gs: seq<Game>): (rs: seq<Game>)
    ensures |rs| == |gs|
    ensures forall k :: 0 <= k < |gs| ==> rs[k] == WithCore(gs[k])
  {
    seq(|gs|, k requires 0 <= k < |gs| => WithCore(gs[k]))
  }

  /** The whole parser: the header and the games in input order. Launch
      blocks still open at the end of input are dropped, as in the source. */
  function Parse(lines: seq<string>): Result<(Header, seq<Game>), ParseError> {
    match Run(Start, lines)
    case Err(e) => Err(e)
    case Ok(st) => Ok((st.header, WithCores(Pending(st))))
  }

  /** Parsing the text of a file. */
  function ParseText(text: string): Result<(Header, seq<Game>), ParseError> {
    Parse(FileLines(text))
  }
}

=== FILE: slug.dfy ===
/** `slugify`: the platform key made from a resource folder name. */
module Slug {
  import opened PyStr

  /** No upper-case ASCII letter. */
  predicate LowerCase(s: string) {
    forall i :: 0 <= i < |s| ==> !('A' <= s[i] <= 'Z')
  }

  /** `name.replace("\\", "/").split("/")[-1]`: the last component of a
      path written with either separator. */
  function BaseName(name: string): (r: string)
    ensures '/' !in r && '\\' !in r
  {
    var unified := ReplaceChar(name, '\\', "/");
    var r := LastPart(unified, '/');
    assert '\\' !in r by {
      assert forall i :: 0 <= i < |r| ==> r[i] == unified[|unified| - |r| + i];
    }
    r
  }

  /** Lower-casing an ASCII letter changes neither whitespace nor the
      separators. */
  lemma LowerCharFacts(c: char)
    ensures !('A' <= LowerChar(c) <= 'Z')
    ensures IsSpace(LowerChar(c)) <==> IsSpace(c)
    ensures LowerChar(c) == '/' <==> c == '/'
    ensures LowerChar(c) == '\\' <==> c == '\\'
    ensures LowerChar(c) == ' ' <==> c == ' '
  {
    if 'A' <= c <= 'Z' {
      assert 'a' <= LowerChar(c) <= 'z';
    }
  }

  /** `s.replace(" ", "_")`. */
  function Underscored(s: string): (r: string)
    ensures |r| == |s|
    ensures forall i :: 0 <= i < |s| ==> r[i] == if s[i] == ' ' then '_' else s[i]
  {
    ReplaceCharPointwise(s, ' ', '_');
    ReplaceChar(s, ' ', "_")
  }

  /** Lower-casing keeps a trimmed string trimmed and free of separators. */
  lemma LowerKeepsShape(s: string)
    requires Trimmed(s) && '/' !in s && '\\' !in s
    ensures Trimmed(Lower(s)) && LowerCase(Lower(s))
    ensures '/' !in Lower(s) && '\\' !in Lower(s)
  {
    var l := Lower(s);
    forall i | 0 <= i < |s|
      ensures !('A' <= l[i] <= 'Z') && l[i] != '/' && l[i] != '\\'
      ensures IsSpace(l[i]) <==> IsSpace(s[i])
    {
      LowerCharFacts(s[i]);
    }
  }

  /** Underscoring keeps the shape and removes every space. */
  lemma UnderscoredKeepsShape(s: string)
    requires Trimmed(s) && LowerCase(s) && '/' !in s && '\\' !in s
    ensures Trimmed(Underscored(s)) && LowerCase(Underscored(s))
    ensures '/' !in Underscored(s) && '\\' !in Underscored(s) && ' ' !in Underscored(s)
  {
    var r := Underscored(s);
    assert forall i :: 0 <= i < |r| ==> r[i] != ' ' && r[i] != '/' && r[i] != '\\';
  }

  /** `slugify`: the last path component, stripped, lower-cased, with
      spaces made underscores. */
  function Slugify(name: string): (r: string)
    ensures '/' !in r && '\\' !in r && ' ' !in r
    ensures Trimmed(r) && LowerCase(r)
  {
    var base := BaseName(name);
    StripAvoids(base, '/');
    StripAvoids(base, '\\');
    LowerKeepsShape(Strip(base));
    UnderscoredKeepsShape(Lower(Strip(base)));
    Underscored(Lower(Strip(base)))
  }

  /** A name without separators is its own last component. */
  lemma LastPartWhole(s: string, sep: char)
    requires sep !in s
    ensures LastPart(s, sep) == s
  {
  }

  /** A trimmed name without separators is only lower-cased and
      underscored. */
  lemma SlugifyPlain(s: string)
    requires Trimmed(s) && '/' !in s && '\\' !in s
    ensures Slugify(s) == Underscored(Lower(s))
  {
    ReplaceCharAbsentSame(s, '\\', "/");
    LastPartWhole(s, '/');
    assert BaseName(s) == s;
    StripTrimmed(s);
  }

  lemma LowerOfLowerCase(s: string)
    requires LowerCase(s)
    ensures Lower(s) == s
  {
  }

  /** A slug is its own slug. */
  lemma SlugifyIdempotent(name: string)
    ensures Slugify(Slugify(name)) == Slugify(name)
  {
    var s := Slugify(name);
    SlugifyPlain(s);
    LowerOfLowerCase(s);
    ReplaceCharAbsentSame(s, ' ', "_");
  }

  /** The folder name `DC` gives the key `dc`. */
  lemma SlugifyDC(name: string)
    requires name == "DC"
    ensures Slugify(name) == "dc"
  {
    PlainLiteral(name, "dc", "dc");
  }

  /** The folder name `FBNEO ACT` gives the key `fbneo_act`. */
  lemma SlugifyFbneoAct(name: string)
    requires name == "FBNEO ACT"
    ensures Slugify(name) == "fbneo_act"
  {
    FbneoActPlain();
    LowerFbneoAct();
    UnderscoredFbneoAct();
    PlainLiteral(name, "fbneo act", "fbneo_act");
  }

  lemma FbneoActPlain()
    ensures Trimmed("FBNEO ACT") && '/' !in "FBNEO ACT" && '\\' !in "FBNEO ACT"
  {
  }

  lemma LowerFbneoAct()
    ensures Lower("FBNEO ACT") == "fbneo act"
  {
    var l := "fbneo act";
    forall i | 0 <= i < |l|
      ensures Lower("FBNEO ACT")[i] == l[i]
    {
    }
  }

  lemma UnderscoredFbneoAct()
    ensures Underscored("fbneo act") == "fbneo_act"
  {
    UnderscoredWords("fbneo", "act");
    assert "fbneo" + " " + "act" == "fbneo act";
    assert "fbneo" + "_" + "act" == "fbneo_act";
  }

  /** Two space-free words joined by a space are joined by `_` instead. */
  lemma UnderscoredWords(a: string, b: string)
    requires ' ' !in a && ' ' !in b
    ensures Underscored(a + " " + b) == a + "_" + b
  {
    var s := a + " " + b;
    var r := a + "_" + b;
    forall i | 0 <= i < |s|
      ensures Underscored(s)[i] == r[i]
    {
      if i < |a| {
        assert s[i] == a[i] && r[i] == a[i];
      } else if i > |a| {
        assert s[i] == b[i - |a| - 1] && r[i] == b[i - |a| - 1];
      }
    }
  }

  lemma PlainLiteral(name: string, lowered: string, slug: string)
    requires Trimmed(name) && '/' !in name && '\\' !in name
    requires Lower(name) == lowered && Underscored(lowered) == slug
    ensures Slugify(name) == slug
  {
    SlugifyPlain(name);
  }

  /** Only the last path component counts, with `\` and `/` alike. */
  lemma SlugifyLastComponent(dir: string, name: string, sep: char)
    requires sep == '/' || sep == '\\'
    requires '/' !in name && '\\' !in name
    ensures Slugify(dir + [sep] + name) == Slugify(name)
  {
    var s := dir + [sep] + name;
    ReplaceCharAbsentSame(name, '\\', "/");
    ReplaceCharConcat(dir + [sep], name, '\\', "/");
    var u := ReplaceChar(s, '\\', "/");
    var ud := ReplaceChar(dir + [sep], '\\', "/");
    assert u == ud + name;
    ReplaceCharPointwise(dir + [sep], '\\', '/');
    assert ud[|ud| - 1] == '/';
    LastPartSuffix(ud, name);
    LastPartSuffix("/", name);
    assert BaseName(s) == BaseName(name);
  }
}

=== FILE: todaijisho.dfy ===
/** The older lenient reader of `todaijisho.py` and the Daijisho entries it
    builds. Reading the file, writing the JSON files and the
    `os.path.exists` probes are left out; the probe is a parameter. */
module DaijishoExport {
  import opened Wrappers
  import opened PyStr
  import Esde = EsdeExport

  /** The loop state of this reader's `parse_pegasus_config`. */
  datatype ParseState = ParseState(
    games: seq<Esde.Dict>,
    current: Esde.Dict,
    launchLines: seq<string>,
    ignoreFiles: set<string>,
    inIgnore: bool)

  const Init := ParseState([], map[], [], {}, false)

  /** The game list with the current dictionary appended when it is not
      empty. */
  function Flush(st: ParseState): (gs: seq<Esde.Dict>)
    ensures st.current == map[] ==> gs == st.games
    ensures st.current != map[] ==> gs == st.games + [st.current]
  {
    if st.current != map[] then st.games + [st.current] else st.games
  }

  /** A line outside an ignore block: `launch:` starts the block afresh
      (without keeping the line), a started block or a `-e ` / `am start`
      line is appended to it, and only then are `game:` and `key: value`
      lines looked at. */
  function Entry(st: ParseState, line: string): (r: ParseState)
  {
    if StartsWith(line, "launch:") then st.(launchLines := [])
    else if |st.launchLines| > 0 || StartsWith(line, "-e ") || StartsWith(line, "am start") then
      st.(launchLines := st.launchLines + [line])
    else if StartsWith(line, "game:") then
      st.(games := Flush(st), current := map["title" := Strip(Esde.ColonSplit(line).1)])
    else if ':' in line then
      st.(current := st.current[Lower(Strip(Esde.ColonSplit(line).0)) := Strip(Esde.ColonSplit(line).1)])
    else st
  }

  /** One stripped, non-blank line: the ignore block as in the ES-DE
      reader, then the entry. */
  function Body(st: ParseState, line: string): (r: ParseState)
    requires line != ""
  {
    if StartsWith(line, "ignore-files:") then st.(inIgnore := true)
    else if st.inIgnore && StartsWith(line, "-") then st.(ignoreFiles := st.ignoreFiles + {Esde.DashItem(line)})
    else Entry(st.(inIgnore := false), line)
  }

  function Step(st: ParseState, raw: string): (r: ParseState)
  {
    var line := Strip(raw);
    if line == "" then st else Body(st, line)
  }

  function Run(st: ParseState, lines: seq<string>): (r: ParseState)
    decreases |lines|
  {
    if |lines| == 0 then st else Run(Step(st, lines[0]), lines[1..])
  }

  /** `parse_pegasus_config`: the games, the launch lines and the ignore
      set. */
  function Parse(lines: seq<string>): (r: (seq<Esde.Dict>, seq<string>, set<string>))
  {
    var st := Run(Init, lines);
    (Flush(st), st.launchLines, st.ignoreFiles)
  }

  /** Once a launch block has a line, a later `game:` line is appended to
      it like any other line: the game is not started. */
  lemma GameLineSwallowed(st: ParseState, raw: string)
    requires |st.launchLines| > 0 && StartsWith(Strip(raw), "game:")
    ensures Step(st, raw) == st.(inIgnore := false).(launchLines := st.launchLines + [Strip(raw)])
  {
    var line := Strip(raw);
    assert line[0] == 'g';
    Esde.NotPrefix(line, "ignore-files:");
    Esde.NotPrefix(line, "-");
    Esde.NotPrefix(line, "launch:");
  }

  /** A line that is not blank and does not start a launch block keeps a
      started block started and leaves the games alone. */
  lemma SwallowStep(st: ParseState, raw: string)
    requires |st.launchLines| > 0 && !StartsWith(Strip(raw), "launch:")
    ensures |Step(st, raw).launchLines| > 0
    ensures Step(st, raw).games == st.games && Step(st, raw).current == st.current
  {
  }

  /** The swallowing bug: from the first line of a launch block on, no
      further game is read until another `launch:` line, whatever the lines
      say. */
  lemma {:induction false} LaunchSwallowsGames(st: ParseState, lines: seq<string>)
    requires |st.launchLines| > 0
    requires forall k :: 0 <= k < |lines| ==> !StartsWith(Strip(lines[k]), "launch:")
    ensures Run(st, lines).games == st.games && Run(st, lines).current == st.current
    ensures |Run(st, lines).launchLines| > 0
    decreases |lines|
  {
    if |lines| > 0 {
      SwallowStep(st, lines[0]);
      LaunchSwallowsGames(Step(st, lines[0]), lines[1..]);
    }
  }

  /** A `launch:` line empties the block and is not kept in it. */
  lemma LaunchLineResets(st: ParseState, raw: string)
    requires StartsWith(Strip(raw), "launch:")
    ensures Step(st, raw) == st.(inIgnore := false).(launchLines := [])
  {
    var line := Strip(raw);
    assert line[0] == 'l';
    Esde.NotPrefix(line, "ignore-files:");
    Esde.NotPrefix(line, "-");
  }

  // -----------------------------------------------------------------------
  // parse_launch_block
  // -----------------------------------------------------------------------

  /** The `IndexError` of `parts[1]` when no `/` follows `-n `. */
  datatype LaunchError = NoActivity(line: string)

  /** Index of the first occurrence of `sub` in `s`, `|s|` when none. */
  function FindSub(s: string, sub: string): (i: nat)
    ensures i <= |s|
    ensures i < |s| ==> StartsWith(s[i..], sub)
    ensures forall j :: 0 <= j < i ==> !StartsWith(s[j..], sub)
    decreases |s|
  {
    if |s| == 0 then 0
    else if StartsWith(s, sub) then 0
    else
      var r := 1 + FindSub(s[1..], sub);
      assert forall j :: 1 <= j < |s| ==> s[j..] == s[1..][j - 1..];
      r
  }

  /** Python's `sub in s` for a non-empty `sub`. */
  predicate HasSub(s: string, sub: string) {
    FindSub(s, sub) < |s|
  }

  /** `s.split(sub)[1]`: the text after the first occurrence of `sub`, up
      to the next one. */
  function SecondPiece(s: string, sub: string): (r: string)
    requires |sub| > 0 && HasSub(s, sub)
  {
    var i := FindSub(s, sub);
    var rest := s[i + |sub|..];
    rest[..FindSub(rest, sub)]
  }

  /** The text a `-n ` line names the component by. */
  function Component(line: string): (c: string)
    requires HasSub(line, "-n ")
  {
    Strip(SecondPiece(line, "-n "))
  }

  /** A line `parse_launch_block` fails on. */
  predicate FailsLaunch(line: string) {
    HasSub(line, "-n ") && '/' !in Component(line)
  }

  /** The package, the activity and the intent extras a launch block
      gives. */
  datatype Launch = Launch(package: string, activity: string, intent: map<string, string>)

  /** Splitting yields one piece exactly when the separator is absent. */
  lemma SplitOnePiece(s: string, sep: char)
    ensures |Split(s, sep)| == 1 <==> sep !in s
  {
  }

  /** The first two `/` pieces of a component holding a `/`. */
  lemma SplitFirstTwo(s: string)
    requires '/' in s
    ensures |Split(s, '/')| >= 2
    ensures Split(s, '/')[0] == s[..Find(s, '/')]
    ensures Split(s, '/')[1] == AfterFirst(s, '/')[..Find(AfterFirst(s, '/'), '/')]
  {
    var rest := AfterFirst(s, '/');
    assert Split(s, '/') == [s[..Find(s, '/')]] + Split(rest, '/');
  }

  /** `s.split(c, 2)`: at most three pieces, the last keeping any further
      separators. */
  function SplitMax2(s: string, c: char): (parts: seq<string>)
    ensures 1 <= |parts| <= 3
  {
    var i := Find(s, c);
    if i == |s| then [s]
    else
      var rest := s[i + 1..];
      var j := Find(rest, c);
      if j == |rest| then [s[..i], rest] else [s[..i], rest[..j], rest[j + 1..]]
  }

  /** One line of `parse_launch_block`. */
  function LaunchLine(acc: Launch, line: string): (r: Result<Launch, LaunchError>)
  {
    if HasSub(line, "-n ") then
      var parts := Split(Component(line), '/');
      if |parts| < 2 then Err(NoActivity(line))
      else Ok(acc.(package := parts[0], activity := parts[1]))
    else if StartsWith(line, "-e ") then
      var parts := SplitMax2(line, ' ');
      if |parts| == 3 then Ok(acc.(intent := acc.intent[parts[1] := parts[2]])) else Ok(acc)
    else Ok(acc)
  }

  /** A `-n ` line fails exactly when its component has no `/`; otherwise
      the package is the text before the first `/` and the activity the
      text up to the next one. */
  lemma LaunchLineComponent(acc: Launch, line: string)
    requires HasSub(line, "-n ")
    ensures LaunchLine(acc, line).Err? <==> FailsLaunch(line)
    ensures !FailsLaunch(line) ==>
      var c := Component(line);
      var rest := AfterFirst(c, '/');
      LaunchLine(acc, line) == Ok(acc.(package := c[..Find(c, '/')], activity := rest[..Find(rest, '/')]))
  {
    SplitOnePiece(Component(line), '/');
    if !FailsLaunch(line) {
      SplitFirstTwo(Component(line));
    }
  }

  /** Splitting `a b c` on its first two spaces. */
  lemma SplitMax2Of(a: string, b: string, c: string)
    requires ' ' !in a && ' ' !in b
    ensures SplitMax2(a + " " + b + " " + c, ' ') == [a, b, c]
  {
    var rest := b + " " + c;
    assert a + " " + b + " " + c == a + " " + rest;
    FirstSpace(a, rest);
    FirstSpace(b, c);
  }

  /** The first space of `a + " " + rest` is the one after `a`. */
  lemma FirstSpace(a: string, rest: string)
    requires ' ' !in a
    ensures var s := a + " " + rest;
      Find(s, ' ') == |a| && s[..|a|] == a && s[|a| + 1..] == rest
  {
    var s := a + " " + rest;
    assert s == a + (" " + rest);
    FindPrefix(a, " " + rest, ' ');
  }

  /** A `-e key value` line sets `intent[key] = value`, the value keeping
      any further spaces. */
  lemma LaunchLineExtra(acc: Launch, line: string, key: string, value: string)
    requires !HasSub(line, "-n ") && ' ' !in key
    requires line == "-e " + key + " " + value
    ensures LaunchLine(acc, line) == Ok(acc.(intent := acc.intent[key := value]))
  {
    assert StartsWith(line, "-e ") by {
      assert line[..3] == "-e ";
    }
    assert line == "-e" + " " + key + " " + value;
    SplitMax2Of("-e", key, value);
  }

  /** A line that neither names a component nor sets an extra is
      ignored, as is a `-e ` line without a value. */
  lemma LaunchLineIgnored(acc: Launch, line: string)
    requires !HasSub(line, "-n ")
    requires !StartsWith(line, "-e ") || ' ' !in line[3..]
    ensures LaunchLine(acc, line) == Ok(acc)
  {
    if StartsWith(line, "-e ") {
      assert line == "-e" + (" " + line[3..]);
      FindPrefix("-e", " " + line[3..], ' ');
    }
  }

  /** `parse_launch_block` from a given accumulator. */
  function LaunchFrom(acc: Launch, lines: seq<string>): (r: Result<Launch, LaunchError>)
    decreases |lines|
  {
    if |lines| == 0 then Ok(acc)
    else
      match LaunchLine(acc, lines[0])
      case Err(e) => Err(e)
      case Ok(next) => LaunchFrom(next, lines[1..])
  }

  /** `parse_launch_block`: empty names and no extras to start with. */
  function ParseLaunchBlock(lines: seq<string>): (r: Result<Launch, LaunchError>)
  {
    LaunchFrom(Launch("", "", map[]), lines)
  }

  /** Whether one line fails does not depend on what came before. */
  lemma LaunchLineErr(acc: Launch, line: string)
    ensures LaunchLine(acc, line).Err? <==> FailsLaunch(line)
  {
    if HasSub(line, "-n ") {
      LaunchLineComponent(acc, line);
    }
  }

  lemma SomeFailsCons(lines: seq<string>)
    requires |lines| > 0
    ensures (exists k :: 0 <= k < |lines| && FailsLaunch(lines[k])) <==>
      FailsLaunch(lines[0]) || exists k :: 0 <= k < |lines[1..]| && FailsLaunch(lines[1..][k])
  {
    if exists k :: 0 <= k < |lines| && FailsLaunch(lines[k]) {
      var k :| 0 <= k < |lines| && FailsLaunch(lines[k]);
      if k > 0 {
        assert lines[1..][k - 1] == lines[k];
      }
    }
    if exists k :: 0 <= k < |lines[1..]| && FailsLaunch(lines[1..][k]) {
      var k :| 0 <= k < |lines[1..]| && FailsLaunch(lines[1..][k]);
      assert lines[k + 1] == lines[1..][k];
    }
  }

  /** The block fails exactly when one of its lines is a `-n ` line whose
      component has no `/`: the `IndexError` is not guarded. */
  lemma {:induction false} LaunchFails(acc: Launch, lines: seq<string>)
    ensures LaunchFrom(acc, lines).Err? <==> exists k :: 0 <= k < |lines| && FailsLaunch(lines[k])
    decreases |lines|
  {
    if |lines| > 0 {
      LaunchLineErr(acc, lines[0]);
      SomeFailsCons(lines);
      if !FailsLaunch(lines[0]) {
        LaunchFails(LaunchLine(acc, lines[0]).value, lines[1..]);
      }
    }
  }

  /** Without `-n ` lines the names stay as they were. */
  lemma {:induction false} LaunchKeepsNames(acc: Launch, lines: seq<string>)
    requires forall k :: 0 <= k < |lines| ==> !HasSub(lines[k], "-n ")
    ensures LaunchFrom(acc, lines).Ok?
    ensures LaunchFrom(acc, lines).value.package == acc.package
    ensures LaunchFrom(acc, lines).value.activity == acc.activity
    decreases |lines|
  {
    if |lines| > 0 {
      var next := LaunchLine(acc, lines[0]);
      assert next.Ok? && next.value.package == acc.package && next.value.activity == acc.activity;
      LaunchKeepsNames(next.value, lines[1..]);
    }
  }

  /** Running two parts of a block one after the other. */
  lemma {:induction false} LaunchConcat(acc: Launch, a: seq<string>, b: seq<string>)
    ensures LaunchFrom(acc, a + b) ==
      match LaunchFrom(acc, a)
      case Err(e) => Err(e)
      case Ok(mid) => LaunchFrom(mid, b)
    decreases |a|
  {
    if |a| > 0 {
      assert (a + b)[0] == a[0] && (a + b)[1..] == a[1..] + b;
      match LaunchLine(acc, a[0])
      case Err(e) =>
      case Ok(next) => LaunchConcat(next, a[1..], b);
    } else {
      assert a + b == b;
    }
  }

  /** The last well-formed `-n ` line names the component, when no later
      line fails or names another. */
  lemma LastComponentWins(pre: seq<string>, line: string, post: seq<string>)
    requires HasSub(line, "-n ") && !FailsLaunch(line)
    requires forall k :: 0 <= k < |post| ==> !HasSub(post[k], "-n ")
    requires ParseLaunchBlock(pre).Ok?
    ensures ParseLaunchBlock(pre + [line] + post).Ok?
    ensures var c := Component(line);
      ParseLaunchBlock(pre + [line] + post).value.package == c[..Find(c, '/')]
  {
    var all := pre + [line] + post;
    assert all == pre + ([line] + post);
    var mid := ParseLaunchBlock(pre).value;
    LaunchConcat(Launch("", "", map[]), pre, [line] + post);
    LastLineNames(mid, line, post);
  }

  /** A well-formed `-n ` line followed by none sets the package. */
  lemma LastLineNames(acc: Launch, line: string, post: seq<string>)
    requires HasSub(line, "-n ") && !FailsLaunch(line)
    requires forall k :: 0 <= k < |post| ==> !HasSub(post[k], "-n ")
    ensures LaunchFrom(acc, [line] + post).Ok?
    ensures var c := Component(line);
      LaunchFrom(acc, [line] + post).value.package == c[..Find(c, '/')]
  {
    LaunchLineComponent(acc, line);
    var next := LaunchLine(acc, line).value;
    assert ([line] + post)[0] == line && ([line] + post)[1..] == post;
    LaunchKeepsNames(next, post);
  }

  // -----------------------------------------------------------------------
  // make_daijisho_json and main
  // -----------------------------------------------------------------------

  /** The intent of one game: a copy of the block's extras with `ROM`
      replaced by the game's path only when the block sets `ROM`. */
  function GameIntent(base: map<string, string>, romPath: string): (intent: map<string, string>)
    ensures intent.Keys == base.Keys
    ensures "ROM" in base ==> intent["ROM"] == romPath
    ensures forall k :: k in base && k != "ROM" ==> intent[k] == base[k]
  {
    if "ROM" in base then base["ROM" := romPath] else base
  }

  /** The JSON object written for one game. */
  datatype DaijishoGame = DaijishoGame(
    title: string,
    rom: string,
    description: string,
    developer: string,
    sortTitle: string,
    image: string,
    marquee: string,
    video: string,
    package: string,
    activity: string,
    intent: map<string, string>)

  /** A media file of the game when the probe finds it, `""` otherwise. */
  function MediaFile(mediaPath: string, name: string, exists_: string -> bool): (m: string)
    ensures m == "" || m == mediaPath + "/" + name
    ensures m != "" <==> exists_(mediaPath + "/" + name)
  {
    if exists_(mediaPath + "/" + name) then mediaPath + "/" + name else ""
  }

  /** `make_daijisho_json`: the output file name `<file_base>.json` and the
      object written there. */
  function MakeGame(g: Esde.Dict, mediaRoot: string, romRoot: string, launch: Launch, exists_: string -> bool): (out: (string, DaijishoGame))
    ensures out.0 == SplitExt(Esde.Get(g, "file")).0 + ".json"
    ensures out.1.rom == romRoot + "/" + Esde.Get(g, "file")
    ensures out.1.title == Esde.Get(g, "title") && out.1.sortTitle == Esde.Get(g, "sort-by")
    ensures out.1.package == launch.package && out.1.activity == launch.activity
    ensures out.1.intent == GameIntent(launch.intent, out.1.rom)
    ensures out.1.description == Esde.Get(g, "description") && out.1.developer == Esde.Get(g, "developer")
    ensures var mediaPath := mediaRoot + "/" + SplitExt(Esde.Get(g, "file")).0;
      && out.1.image == MediaFile(mediaPath, "boxFront.jpg", exists_)
      && out.1.marquee == MediaFile(mediaPath, "logo.png", exists_)
      && out.1.video == MediaFile(mediaPath, "video.mp4", exists_)
  {
    var file := Esde.Get(g, "file");
    var fileBase := SplitExt(file).0;
    var romPath := romRoot + "/" + file;
    var mediaPath := mediaRoot + "/" + fileBase;
    (fileBase + ".json",
     DaijishoGame(Esde.Get(g, "title"), romPath, Esde.Get(g, "description"), Esde.Get(g, "developer"), Esde.Get(g, "sort-by"),
                  MediaFile(mediaPath, "boxFront.jpg", exists_),
                  MediaFile(mediaPath, "logo.png", exists_),
                  MediaFile(mediaPath, "video.mp4", exists_),
                  launch.package, launch.activity, GameIntent(launch.intent, romPath)))
  }

  /** The ROM directory `main` uses, and the media directory under it. */
  const RomRoot := "/storage/emulated/0/Emu/Arcade"
  const MediaRoot := RomRoot + "/media"

  /** The games `main` writes: those whose `file` (`""` when missing) is
      not ignored, in order. */
  function NotIgnored(games: seq<Esde.Dict>, ignoreFiles: set<string>): (r: seq<Esde.Dict>)
    ensures |r| <= |games|
    ensures forall k :: 0 <= k < |r| ==> r[k] in games && Esde.Get(r[k], "file") !in ignoreFiles
    decreases |games|
  {
    if |games| == 0 then []
    else
      var rest := NotIgnored(games[1..], ignoreFiles);
      assert forall k :: 0 <= k < |rest| ==> rest[k] in games by {
        forall k | 0 <= k < |rest|
          ensures rest[k] in games
        {
          assert rest[k] in games[1..];
        }
      }
      if Esde.Get(games[0], "file") !in ignoreFiles then [games[0]] + rest else rest
  }

  /** The filter works game by game, so the kept games stay in input
      order. */
  lemma {:induction false} NotIgnoredConcat(a: seq<Esde.Dict>, b: seq<Esde.Dict>, ignoreFiles: set<string>)
    ensures NotIgnored(a + b, ignoreFiles) == NotIgnored(a, ignoreFiles) + NotIgnored(b, ignoreFiles)
    decreases |a|
  {
    if |a| > 0 {
      assert (a + b)[1..] == a[1..] + b;
      NotIgnoredConcat(a[1..], b, ignoreFiles);
    } else {
      assert a + b == b;
    }
  }

  /** A game of the list whose `file` is not ignored is written. */
  lemma {:induction false} NotIgnoredKeeps(games: seq<Esde.Dict>, ignoreFiles: set<string>, g: Esde.Dict)
    requires g in games && Esde.Get(g, "file") !in ignoreFiles
    ensures g in NotIgnored(games, ignoreFiles)
    decreases |games|
  {
    if games[0] != g {
      assert g in games[1..];
      NotIgnoredKeeps(games[1..], ignoreFiles, g);
    }
  }

  /** A game without a `file` is still written, with the ROM directory
      itself as its path, unless `""` is listed as ignored. */
  lemma MissingFileWritten(g: Esde.Dict, ignoreFiles: set<string>)
    requires "file" !in g && "" !in ignoreFiles
    ensures NotIgnored([g], ignoreFiles) == [g]
    ensures MakeGame(g, MediaRoot, RomRoot, Launch("", "", map[]), _ => false).1.rom == RomRoot + "/"
  {
  }

  /** `main`: parse, read the launch block (raising on a malformed `-n `
      line), and build one file per game that is not ignored. */
  function Export(lines: seq<string>, exists_: string -> bool): (r: Result<seq<(string, DaijishoGame)>, LaunchError>)
    ensures r.Err? <==> exists k :: 0 <= k < |Parse(lines).1| && FailsLaunch(Parse(lines).1[k])
    ensures r.Ok? ==> |r.value| == |NotIgnored(Parse(lines).0, Parse(lines).2)|
    ensures r.Ok? ==> ParseLaunchBlock(Parse(lines).1).Ok?
    ensures r.Ok? ==> forall k :: 0 <= k < |r.value| ==>
      r.value[k] == MakeGame(NotIgnored(Parse(lines).0, Parse(lines).2)[k], MediaRoot, RomRoot, ParseLaunchBlock(Parse(lines).1).value, exists_)
  {
    var parsed := Parse(lines);
    LaunchFails(Launch("", "", map[]), parsed.1);
    match ParseLaunchBlock(parsed.1)
    case Err(e) => Err(e)
    case Ok(launch) =>
      var kept := NotIgnored(parsed.0, parsed.2);
      Ok(seq(|kept|, k requires 0 <= k < |kept| => MakeGame(kept[k], MediaRoot, RomRoot, launch, exists_)))
  }
}

=== FILE: toesde.dfy ===
/** The older lenient reader of `toesde.py` and the ES-DE game list it
    feeds: every line stripped, blank lines skipped, an `ignore-files:` block
    of `-` lines, `extension:` lines, and `key: value` lines stored in a
    plain dictionary per game. Reading the file, the XML tree and the
    `os.path.isfile` probes are left out; the probe is a parameter. */
module EsdeExport {
  import opened Wrappers
  import opened PyStr

  /** A game as this reader keeps it: lower-cased keys to stripped values. */
  type Dict = map<string, string>

  /** `d.get(k, "")`. */
  function Get(d: Dict, k: string): (v: string)
    ensures k in d ==> v == d[k]
    ensures k !in d ==> v == ""
  {
    if k in d then d[k] else ""
  }

  /** `s.split(":", 1)`: the text before the first colon and the text after
      it (the second part is `""` when there is no colon; the reader only
      uses it on lines that have one). */
  function ColonSplit(s: string): (kv: (string, string))
    ensures ':' in s ==> kv.0 + ":" + kv.1 == s && ':' !in kv.0
    ensures ':' !in s ==> kv == (s, "")
  {
    var i := Find(s, ':');
    if i < |s| then
      assert s == s[..i] + ":" + s[i + 1..];
      assert forall j :: 0 <= j < i ==> s[..i][j] == s[j];
      (s[..i], s[i + 1..])
    else (s, "")
  }

  /** Splitting a line that starts with a colon-free key and a colon. */
  lemma ColonSplitKey(key: string, line: string)
    requires ':' !in key && StartsWith(line, key + ":")
    ensures ':' in line
    ensures ColonSplit(line) == (key, line[|key| + 1..])
  {
    var rest := line[|key| + 1..];
    assert line[|key|] == (key + ":")[|key|] == ':';
    assert line == key + (":" + rest) by {
      assert line[..|key| + 1] == key + ":";
      assert line == line[..|key| + 1] + rest;
      assert key + ":" + rest == key + (":" + rest);
    }
    FindPrefix(key, ":" + rest, ':');
    assert Find(":" + rest, ':') == 0;
    assert line[..|key|] == key;
  }

  /** The loop state of `parse_pegasus_config`. */
  datatype ParseState = ParseState(
    games: seq<Dict>,
    current: Dict,
    ignoreFiles: set<string>,
    allowed: set<string>,
    inIgnore: bool)

  const Init := ParseState([], map[], {}, {}, false)

  /** `set(ext.strip().lower() for ext in exts.split(","))`. */
  function ExtensionSet(exts: string): (r: set<string>)
  {
    set p | p in Split(exts, ',') :: Lower(Strip(p))
  }

  /** The name `- name` adds to the ignore set: `line[1:].strip()`. */
  function DashItem(line: string): (name: string)
    ensures Trimmed(name)
  {
    if line == "" then "" else Strip(line[1..])
  }

  /** The names a run of `-` lines adds. */
  function DashItems(items: seq<string>): (names: set<string>)
  {
    set k | 0 <= k < |items| :: DashItem(Strip(items[k]))
  }

  lemma DashItemsCons(items: seq<string>)
    requires |items| > 0
    ensures DashItems(items) == {DashItem(Strip(items[0]))} + DashItems(items[1..])
  {
    DashItemsWithin(items);
    DashItemsCover(items);
  }

  lemma DashItemsWithin(items: seq<string>)
    requires |items| > 0
    ensures DashItems(items) <= {DashItem(Strip(items[0]))} + DashItems(items[1..])
  {
    var tail := DashItems(items[1..]);
    forall x | x in DashItems(items)
      ensures x in {DashItem(Strip(items[0]))} + tail
    {
      var k :| 0 <= k < |items| && x == DashItem(Strip(items[k]));
      if k > 0 {
        assert items[1..][k - 1] == items[k];
      }
    }
  }

  lemma DashItemsCover(items: seq<string>)
    requires |items| > 0
    ensures {DashItem(Strip(items[0]))} + DashItems(items[1..]) <= DashItems(items)
  {
    forall x | x in DashItems(items[1..])
      ensures x in DashItems(items)
    {
      var k :| 0 <= k < |items[1..]| && x == DashItem(Strip(items[1..][k]));
      assert items[1..][k] == items[k + 1];
    }
  }

  /** A line whose first character differs from the prefix's does not
      start with it. */
  lemma NotPrefix(line: string, p: string)
    requires |line| > 0 && |p| > 0 && line[0] != p[0]
    ensures !StartsWith(line, p)
  {
    if |p| <= |line| {
      assert line[..|p|][0] == line[0];
    }
  }

  /** The game list with the current dictionary appended when it is not
      empty, as a `game:` line and the end of input both do. */
  function Flush(st: ParseState): (gs: seq<Dict>)
    ensures st.current == map[] ==> gs == st.games
    ensures st.current != map[] ==> gs == st.games + [st.current]
  {
    if st.current != map[] then st.games + [st.current] else st.games
  }

  /** What a line outside an ignore block does. */
  function Entry(st: ParseState, line: string): (r: ParseState)
  {
    if StartsWith(line, "extension:") then
      st.(allowed := ExtensionSet(Strip(ColonSplit(line).1)))
    else if StartsWith(line, "game:") then
      st.(games := Flush(st), current := map["name" := Strip(ColonSplit(line).1)])
    else if ':' in line then
      st.(current := st.current[Lower(Strip(ColonSplit(line).0)) := Strip(ColonSplit(line).1)])
    else st
  }

  /** One stripped, non-blank line. */
  function Body(st: ParseState, line: string): (r: ParseState)
    requires line != ""
  {
    if StartsWith(line, "ignore-files:") then st.(inIgnore := true)
    else if st.inIgnore && StartsWith(line, "-") then st.(ignoreFiles := st.ignoreFiles + {DashItem(line)})
    else Entry(st.(inIgnore := false), line)
  }

  /** One iteration of the loop: strip, skip a blank line, process. */
  function Step(st: ParseState, raw: string): (r: ParseState)
  {
    var line := Strip(raw);
    if line == "" then st else Body(st, line)
  }

  function Run(st: ParseState, lines: seq<string>): (r: ParseState)
    decreases |lines|
  {
    if |lines| == 0 then st else Run(Step(st, lines[0]), lines[1..])
  }

  /** `parse_pegasus_config`: the games (the last one appended when not
      empty), the ignore set and the allowed extensions. */
  function Parse(lines: seq<string>): (r: (seq<Dict>, set<string>, set<string>))
  {
    var st := Run(Init, lines);
    (Flush(st), st.ignoreFiles, st.allowed)
  }

  /** Only the stripped line matters, and a blank one changes nothing. */
  lemma StepStripped(st: ParseState, raw: string)
    ensures Step(st, raw) == Step(st, Strip(raw))
    ensures Strip(raw) == "" ==> Step(st, raw) == st
  {
    StripTrimmed(Strip(raw));
  }

  /** Inside an ignore block a `-` line adds its stripped remainder to the
      ignore set and changes nothing else. */
  lemma IgnoreItem(st: ParseState, raw: string)
    requires st.inIgnore && StartsWith(Strip(raw), "-")
    ensures Step(st, raw) == st.(ignoreFiles := st.ignoreFiles + {DashItem(Strip(raw))})
  {
    var line := Strip(raw);
    assert line[0] == '-';
    NotPrefix(line, "ignore-files:");
  }

  /** Consecutive `-` lines after `ignore-files:` all land in the ignore
      set; the block stays open. */
  lemma {:induction false} IgnoreBlock(st: ParseState, items: seq<string>)
    requires st.inIgnore
    requires forall k :: 0 <= k < |items| ==> StartsWith(Strip(items[k]), "-")
    ensures Run(st, items) == st.(ignoreFiles := st.ignoreFiles + DashItems(items))
    decreases |items|
  {
    if |items| > 0 {
      IgnoreItem(st, items[0]);
      IgnoreBlock(Step(st, items[0]), items[1..]);
      DashItemsCons(items);
      SetUnionAssoc(st.ignoreFiles, {DashItem(Strip(items[0]))}, DashItems(items[1..]));
    } else {
      assert DashItems(items) == {};
      assert st.ignoreFiles + {} == st.ignoreFiles;
    }
  }

  lemma SetUnionAssoc(a: set<string>, b: set<string>, c: set<string>)
    ensures a + b + c == a + (b + c)
  {
  }

  /** The first line of an ignore block that is not a `-` line closes the
      block and is then processed as any other line. */
  lemma IgnoreBlockEnds(st: ParseState, raw: string)
    requires st.inIgnore && Strip(raw) != "" && !StartsWith(Strip(raw), "-")
    requires !StartsWith(Strip(raw), "ignore-files:")
    ensures Step(st, raw) == Step(st.(inIgnore := false), raw)
  {
  }

  /** A non-blank line that neither opens nor continues an ignore block
      closes any open block and is handled as an entry. */
  lemma BodyEntry(st: ParseState, line: string)
    requires line != "" && !StartsWith(line, "ignore-files:")
    requires !st.inIgnore || !StartsWith(line, "-")
    ensures Body(st, line) == Entry(st.(inIgnore := false), line)
  {
  }

  lemma EntryExtension(st: ParseState, line: string, rest: string)
    requires line == "extension:" + rest
    ensures Entry(st, line) == st.(allowed := ExtensionSet(Strip(rest)))
  {
    assert StartsWith(line, "extension:") by {
      assert line[..10] == "extension:";
    }
    ColonSplitKey("extension", line);
    assert line[10..] == rest;
  }

  /** An `extension:` line replaces the allowed set by its lower-cased,
      stripped comma parts, whatever was allowed before. */
  lemma ExtensionReplaces(st: ParseState, raw: string, rest: string)
    requires Strip(raw) == "extension:" + rest
    ensures Step(st, raw) == st.(inIgnore := false).(allowed := ExtensionSet(Strip(rest)))
  {
    var line := Strip(raw);
    NotPrefix(line, "ignore-files:");
    NotPrefix(line, "-");
    BodyEntry(st, line);
    EntryExtension(st.(inIgnore := false), line, rest);
  }

  lemma EntryGame(st: ParseState, line: string, rest: string)
    requires line == "game:" + rest
    ensures Entry(st, line) ==
      st.(games := Flush(st), current := map["name" := Strip(rest)])
  {
    NotPrefix(line, "extension:");
    assert StartsWith(line, "game:") by {
      assert line[..5] == "game:";
    }
    ColonSplitKey("game", line);
    assert line[5..] == rest;
  }

  /** A `game:` line starts a new dictionary holding only the name, and
      appends the previous one when it is not empty. */
  lemma GameLine(st: ParseState, raw: string, rest: string)
    requires Strip(raw) == "game:" + rest
    ensures Step(st, raw) ==
      st.(inIgnore := false).(games := Flush(st), current := map["name" := Strip(rest)])
  {
    var line := Strip(raw);
    NotPrefix(line, "ignore-files:");
    NotPrefix(line, "-");
    BodyEntry(st, line);
    EntryGame(st.(inIgnore := false), line, rest);
  }

  /** Any other line with a colon stores its stripped value under its
      stripped, lower-cased key in the current dictionary. */
  lemma KeyValueLine(st: ParseState, raw: string, key: string, value: string)
    requires !st.inIgnore && ':' !in key
    requires Strip(raw) == key + ":" + value
    requires !StartsWith(Strip(raw), "ignore-files:") && !StartsWith(Strip(raw), "extension:")
    requires !StartsWith(Strip(raw), "game:")
    ensures Step(st, raw) == st.(current := st.current[Lower(Strip(key)) := Strip(value)])
  {
    var line := Strip(raw);
    assert StartsWith(line, key + ":") by {
      assert line[..|key| + 1] == key + ":";
    }
    ColonSplitKey(key, line);
    assert line[|key| + 1..] == value;
  }

  /** A header line before the first `game:` line becomes a leading
      pseudo-game: the dictionary it starts is appended when the first game
      begins. */
  lemma HeaderPseudoGame(header: string, key: string, value: string, gameLine: string, name: string)
    requires ':' !in key && Strip(header) == key + ":" + value
    requires !StartsWith(Strip(header), "ignore-files:") && !StartsWith(Strip(header), "extension:")
    requires !StartsWith(Strip(header), "game:")
    requires Strip(gameLine) == "game:" + name
    ensures Parse([header, gameLine]).0 ==
      [map[Lower(Strip(key)) := Strip(value)], map["name" := Strip(name)]]
  {
    var d := map[Lower(Strip(key)) := Strip(value)];
    var n := map["name" := Strip(name)];
    FirstHeaderLine(header, key, value);
    var s1 := Init.(current := d);
    GameLine(s1, gameLine, name);
    RunTwo(Init, header, gameLine);
    assert Lower(Strip(key)) in d && "name" in n;
    FlushTwo(d, n);
  }

  lemma FirstHeaderLine(header: string, key: string, value: string)
    requires ':' !in key && Strip(header) == key + ":" + value
    requires !StartsWith(Strip(header), "ignore-files:") && !StartsWith(Strip(header), "extension:")
    requires !StartsWith(Strip(header), "game:")
    ensures Step(Init, header) == Init.(current := map[Lower(Strip(key)) := Strip(value)])
  {
    KeyValueLine(Init, header, key, value);
    assert Init.current[Lower(Strip(key)) := Strip(value)] == map[Lower(Strip(key)) := Strip(value)];
  }

  lemma FlushTwo(d: Dict, n: Dict)
    requires d != map[] && n != map[]
    ensures Flush(Init.(current := d).(inIgnore := false).(games := Flush(Init.(current := d)), current := n)) == [d, n]
  {
  }

  lemma RunTwo(st: ParseState, a: string, b: string)
    ensures Run(st, [a, b]) == Step(Step(st, a), b)
  {
    assert [a, b][1..] == [b];
    assert [b][1..] == [];
    assert Run(Step(st, a), [b]) == Run(Step(Step(st, a), b), []);
  }

  /** `media_path(file_base, subfile)`. */
  function MediaPath(fileBase: string, subfile: string): (p: string)
    ensures StartsWith(p, "./media/") && EndsWith(p, "/" + subfile)
  {
    var p := "./media/" + fileBase + "/" + subfile;
    assert p[..8] == "./media/";
    assert p[|p| - |subfile| - 1..] == "/" + subfile;
    p
  }

  /** The last path component of a media path is the file asked for. */
  lemma MediaPathLast(fileBase: string, subfile: string)
    requires '/' !in subfile
    ensures LastPart(MediaPath(fileBase, subfile), '/') == subfile
  {
    var pre := "./media/" + fileBase + "/";
    assert MediaPath(fileBase, subfile) == pre + subfile;
    LastPartSuffix(pre, subfile);
  }

  /** An extension lower-cased and with its leading dot stripped holds no
      dot and no slash. */
  lemma BareFacts(x: string, e: string, r: string)
    requires x == "" || (x[0] == '.' && '/' !in x && '.' !in x[1..])
    requires |e| == |x| && forall i :: 0 <= i < |x| ==> e[i] == LowerChar(x[i])
    requires |r| <= |e| && r == e[|e| - |r|..] && (|r| == 0 || r[0] != '.')
    ensures '.' !in r && '/' !in r
  {
    forall i | 0 <= i < |r|
      ensures r[i] != '.' && r[i] != '/'
    {
      var j := |e| - |r| + i;
      assert r[i] == e[j] == LowerChar(x[j]);
      if j > 0 {
        assert x[j] == x[1..][j - 1];
      }
    }
  }

  /** `os.path.splitext(f)[1].lower().lstrip(".")`: the lower-cased
      extension without its dot. */
  function BareExtension(file: string): (ext: string)
    ensures '.' !in ext && '/' !in ext
  {
    var x := SplitExt(file).1;
    var e := Lower(x);
    var r := LStripWhere(e, c => c == '.');
    BareFacts(x, e, r);
    r
  }

  /** The inclusion filter of `build_esde_gamelist`: a non-empty `file`
      that is not ignored, and an allowed extension unless nothing is
      listed. */
  predicate Included(g: Dict, ignoreFiles: set<string>, allowed: set<string>) {
    && Get(g, "file") != ""
    && Get(g, "file") !in ignoreFiles
    && (allowed == {} || BareExtension(Get(g, "file")) in allowed)
  }

  /** The games the filter keeps, in order. */
  function Kept(games: seq<Dict>, ignoreFiles: set<string>, allowed: set<string>): (r: seq<Dict>)
    ensures |r| <= |games|
    ensures forall k :: 0 <= k < |r| ==> r[k] in games && Included(r[k], ignoreFiles, allowed)
    decreases |games|
  {
    if |games| == 0 then []
    else
      var rest := Kept(games[1..], ignoreFiles, allowed);
      assert forall k :: 0 <= k < |rest| ==> rest[k] in games by {
        forall k | 0 <= k < |rest|
          ensures rest[k] in games
        {
          assert rest[k] in games[1..];
        }
      }
      if Included(games[0], ignoreFiles, allowed) then [games[0]] + rest else rest
  }

  /** The filter works game by game, so the kept games stay in input
      order. */
  lemma {:induction false} KeptConcat(a: seq<Dict>, b: seq<Dict>, ignoreFiles: set<string>, allowed: set<string>)
    ensures Kept(a + b, ignoreFiles, allowed) == Kept(a, ignoreFiles, allowed) + Kept(b, ignoreFiles, allowed)
    decreases |a|
  {
    if |a| > 0 {
      assert (a + b)[1..] == a[1..] + b;
      KeptConcat(a[1..], b, ignoreFiles, allowed);
    } else {
      assert a + b == b;
    }
  }

  /** Every included game is kept, in order. */
  lemma {:induction false} KeptAll(games: seq<Dict>, ignoreFiles: set<string>, allowed: set<string>)
    requires forall k :: 0 <= k < |games| ==> Included(games[k], ignoreFiles, allowed)
    ensures Kept(games, ignoreFiles, allowed) == games
    decreases |games|
  {
    if |games| > 0 {
      KeptAll(games[1..], ignoreFiles, allowed);
    }
  }

  /** The filter drops nothing it lets through: an included game of the
      list is among the kept ones. */
  lemma {:induction false} KeptIncluded(games: seq<Dict>, ignoreFiles: set<string>, allowed: set<string>, g: Dict)
    requires g in games && Included(g, ignoreFiles, allowed)
    ensures g in Kept(games, ignoreFiles, allowed)
    decreases |games|
  {
    if games[0] != g {
      assert g in games[1..];
      KeptIncluded(games[1..], ignoreFiles, allowed, g);
    }
  }

  /** One `<game>` element: its text fields and the media probed for. */
  datatype EsdeGame = EsdeGame(
    path: string,
    name: string,
    desc: string,
    developer: string,
    sortName: string,
    image: Option<string>,
    marquee: Option<string>,
    video: Option<string>)

  /** The media file `name` of a game, when the probe finds it under
      `base_path/media/<file_base>`. */
  function Media(basePath: string, fileBase: string, name: string, isFile: string -> bool): (m: Option<string>)
    ensures m.Some? <==> isFile(PathJoin(PathJoin(PathJoin(basePath, "media"), fileBase), name))
    ensures m.Some? ==> m.value == MediaPath(fileBase, name)
  {
    if isFile(PathJoin(PathJoin(PathJoin(basePath, "media"), fileBase), name)) then Some(MediaPath(fileBase, name))
    else None
  }

  /** The element written for a kept game. */
  function GameElement(g: Dict, basePath: string, isFile: string -> bool): (e: EsdeGame)
    ensures e.path == "./" + Get(g, "file")
    ensures e.name == Get(g, "name") && e.desc == Get(g, "description")
    ensures e.developer == Get(g, "developer") && e.sortName == Get(g, "sort-by")
    ensures var fileBase := SplitExt(Get(g, "file")).0;
      && e.image == Media(basePath, fileBase, "boxFront.jpg", isFile)
      && e.marquee == Media(basePath, fileBase, "logo.png", isFile)
      && e.video == Media(basePath, fileBase, "video.mp4", isFile)
  {
    var fileBase := SplitExt(Get(g, "file")).0;
    EsdeGame("./" + Get(g, "file"), Get(g, "name"), Get(g, "description"), Get(g, "developer"), Get(g, "sort-by"),
             Media(basePath, fileBase, "boxFront.jpg", isFile),
             Media(basePath, fileBase, "logo.png", isFile),
             Media(basePath, fileBase, "video.mp4", isFile))
  }

  /** `build_esde_gamelist`: one element per kept game, in order. */
  function Gamelist(parsed: (seq<Dict>, set<string>, set<string>), basePath: string, isFile: string -> bool): (es: seq<EsdeGame>)
    ensures |es| == |Kept(parsed.0, parsed.1, parsed.2)|
    ensures forall k :: 0 <= k < |es| ==> es[k] == GameElement(Kept(parsed.0, parsed.1, parsed.2)[k], basePath, isFile)
  {
    var kept := Kept(parsed.0, parsed.1, parsed.2);
    seq(|kept|, k requires 0 <= k < |kept| => GameElement(kept[k], basePath, isFile))
  }

  /** Every written path is `./` followed by a non-empty file that is not
      ignored. */
  lemma GamelistPaths(parsed: (seq<Dict>, set<string>, set<string>), basePath: string, isFile: string -> bool)
    ensures forall e :: e in Gamelist(parsed, basePath, isFile) ==>
      |e.path| > 2 && e.path[..2] == "./" && e.path[2..] !in parsed.1
  {
    var es := Gamelist(parsed, basePath, isFile);
    var kept := Kept(parsed.0, parsed.1, parsed.2);
    forall e | e in es
      ensures |e.path| > 2 && e.path[..2] == "./" && e.path[2..] !in parsed.1
    {
      var k :| 0 <= k < |es| && es[k] == e;
      assert Included(kept[k], parsed.1, parsed.2);
      var f := Get(kept[k], "file");
      assert e.path == "./" + f;
      assert e.path[2..] == f;
    }
  }
}

=== FILE: wrappers.dfy ===
/** Optional values and fallible results, the two shapes every Python
    `dict.get` and every raised exception of the tools is modelled with. */
module Wrappers {

  /** A value that may be absent. In the tools' dictionaries `None` stands
      both for a missing key and for a key holding Python's `None`. */
  datatype Option<+T> = None | Some(value: T) {

    /** The value, or `default` when there is none. */
    function GetOr(default: T): T {
      match this
      case Some(v) => v
      case None => default
    }
  }

  /** The result of a computation that can raise. */
  datatype Result<+T, +E> = Ok(value: T) | Err(error: E)
}

=== FILE: writer.dfy ===
/** `dump_pegasus_metadata`: the canonical layout the tools write a header
    and its games back in. Every element of a result is one `f.write(... + "\n")`
    call without its newline; `ToText` turns the lines into the file text. */
module MetadataWriter {
  import opened Wrappers
  import opened PyStr
  import opened Records

  /** No line is empty: only the separators the writer adds are. */
  predicate NoBlank(lines: seq<string>) {
    forall k :: 0 <= k < |lines| ==> lines[k] != ""
  }

  lemma NoBlankConcat(a: seq<string>, b: seq<string>)
    requires NoBlank(a) && NoBlank(b)
    ensures NoBlank(a + b)
  {
  }

  /** Only the last line may be empty. */
  predicate NoBlankButLast(lines: seq<string>) {
    forall k :: 0 <= k < |lines| - 1 ==> lines[k] != ""
  }

  lemma NoBlankButLastConcat(a: seq<string>, b: seq<string>)
    requires NoBlank(a) && |b| > 0 && NoBlankButLast(b)
    ensures NoBlankButLast(a + b)
  {
    forall k | 0 <= k < |a + b| - 1
      ensures (a + b)[k] != ""
    {
      if k >= |a| {
        assert (a + b)[k] == b[k - |a|];
      }
    }
  }

  /** Every item on a line of its own, behind two spaces. */
  function Indented(items: seq<string>): (lines: seq<string>)
    ensures |lines| == |items|
    ensures forall k :: 0 <= k < |items| ==> lines[k] == "  " + items[k]
    ensures NoBlank(lines)
  {
    seq(|items|, k requires 0 <= k < |items| => "  " + items[k])
  }

  /** A value that may span lines: `key: line` when `splitlines` finds one
      line in it, otherwise `key:` followed by every line indented. */
  function Block(key: string, text: string): (lines: seq<string>)
    requires text != ""
    ensures |lines| >= 1 && StartsWith(lines[0], key + ":")
    ensures NoBlank(lines)
    ensures |lines| == 1 <==> |SplitLines(text)| == 1
    ensures |lines| > 1 ==> lines[0] == key + ":" && lines[1..] == Indented(SplitLines(text))
  {
    var ls := SplitLines(text);
    if |ls| == 1 then [key + ": " + ls[0]] else [key + ":"] + Indented(ls)
  }

  /** `prefix` and the value on one line when the value is truthy, nothing
      otherwise; `prefix` is the key with its colon and one space. */
  function Field(prefix: string, v: Option<string>): (lines: seq<string>)
    ensures |lines| == (if Truthy(v) then 1 else 0)
    ensures Truthy(v) ==> lines[0] == prefix + v.value
    ensures NoBlank(lines)
  {
    if Truthy(v) then [prefix + v.value] else []
  }

  /** A possibly multi-line field, written only when truthy. */
  function BlockField(key: string, v: Option<string>): (lines: seq<string>)
    ensures |lines| > 0 <==> Truthy(v)
    ensures NoBlank(lines)
  {
    if Truthy(v) then Block(key, v.value) else []
  }

  /** The key line `head` followed by the items indented, nothing for no
      items. */
  function ListField(head: string, items: seq<string>): (lines: seq<string>)
    requires head != ""
    ensures |lines| == (if |items| == 0 then 0 else |items| + 1)
    ensures |items| > 0 ==> lines[0] == head && lines[1..] == Indented(items)
    ensures NoBlank(lines)
  {
    if |items| == 0 then [] else [head] + Indented(items)
  }

  /** The extensions `_write_header` writes: a comma string is split,
      stripped and cleared of empty parts; a list is written as it is. */
  function ExtensionList(v: Option<TextOrList>): (exts: seq<string>)
    ensures v.None? ==> exts == []
    ensures v.Some? && v.value.Items? ==> exts == v.value.items
    ensures v.Some? && v.value.Text? ==> forall k :: 0 <= k < |exts| ==>
      exts[k] != "" && Trimmed(exts[k]) && ',' !in exts[k]
  {
    match v
    case None => []
    case Some(Items(xs)) => xs
    case Some(Text(s)) => CommaList(s)
  }

  /** `_write_header`: collection, sort-by, launch block, ignore-files and
      extensions in this order, each only when truthy; a blank line after
      the extension block and nowhere else. */
  function HeaderLines(h: Header): (lines: seq<string>)
    ensures (|lines| > 0 && lines[|lines| - 1] == "") <==> |ExtensionList(h.extensions)| > 0
    ensures NoBlankButLast(lines)
  {
    var exts := ExtensionList(h.extensions);
    var l1 := Field("collection: ", h.collection);
    var l2 := Field("sort-by: ", h.defaultSortBy);
    var l3 := BlockField("launch", h.launchBlock);
    var l4 := ListField("ignore-files:", h.ignoreFiles.GetOr([]));
    var l5 := ListField("extension:", exts);
    var lines := l1 + l2 + l3 + l4 + l5 + (if |exts| > 0 then [""] else []);
    BlankOnlyLast(l1, l2, l3, l4, l5, exts, lines);
    lines
  }

  /** A header with no launch block and no extensions is written as its
      collection, sort key and ignore block. */
  lemma HeaderLinesPlain(h: Header)
    requires !Truthy(h.launchBlock) && ExtensionList(h.extensions) == []
    ensures HeaderLines(h) ==
      Field("collection: ", h.collection) + (Field("sort-by: ", h.defaultSortBy) +
        ListField("ignore-files:", h.ignoreFiles.GetOr([])))
  {
    var exts := ExtensionList(h.extensions);
    HeaderParts(Field("collection: ", h.collection), Field("sort-by: ", h.defaultSortBy),
      BlockField("launch", h.launchBlock), ListField("ignore-files:", h.ignoreFiles.GetOr([])),
      ListField("extension:", exts), if |exts| > 0 then [""] else []);
  }

  /** Regrouping the header's parts when there is no launch block. */
  lemma HeaderParts(a: seq<string>, b: seq<string>, l: seq<string>, c: seq<string>, e: seq<string>,
                    t: seq<string>)
    requires l == []
    ensures a + b + l + c + e + t == (a + (b + c)) + (e + t)
  {
    assert a + b + l == a + b;
  }

  /** Header lines without blanks, then a blank line exactly when there are
      extensions. */
  lemma BlankOnlyLast(l1: seq<string>, l2: seq<string>, l3: seq<string>, l4: seq<string>, l5: seq<string>,
                      exts: seq<string>, lines: seq<string>)
    requires NoBlank(l1) && NoBlank(l2) && NoBlank(l3) && NoBlank(l4) && NoBlank(l5)
    requires lines == l1 + l2 + l3 + l4 + l5 + (if |exts| > 0 then [""] else [])
    ensures (|lines| > 0 && lines[|lines| - 1] == "") <==> |exts| > 0
    ensures NoBlankButLast(lines)
  {
    NoBlankConcat(l1, l2);
    NoBlankConcat(l1 + l2, l3);
    NoBlankConcat(l1 + l2 + l3, l4);
    NoBlankConcat(l1 + l2 + l3 + l4, l5);
  }

  /** The rom lines of a game: `file: r` for one rom, `files:` and the roms
      indented for several, nothing for none. A string value is walked
      character by character, as `len` and `for` do in Python. */
  function RomLines(roms: Option<TextOrList>): (lines: seq<string>)
    ensures var rs := IterItems(roms);
      && (|rs| == 0 ==> lines == [])
      && (|rs| == 1 ==> lines == ["file: " + rs[0]])
      && (|rs| > 1 ==> lines == ["files:"] + Indented(rs))
    ensures NoBlank(lines)
  {
    var rs := IterItems(roms);
    if |rs| == 0 then [] else if |rs| == 1 then ["file: " + rs[0]] else ["files:"] + Indented(rs)
  }

  /** The name `_write_game` writes: `game`, else `title`. */
  function Title(g: Game): Option<string> {
    Or(g.game, g.title)
  }

  /** `_write_game`: nothing for a game with no name; otherwise the name
      line, the roms, sort-by, developer, description and the per-game
      `launch_block`, closed by one blank line. */
  function GameLines(g: Game): (lines: seq<string>)
    ensures |lines| == 0 <==> !Truthy(Title(g))
    ensures |lines| > 0 ==> lines[0] == "game: " + Title(g).value && lines[|lines| - 1] == ""
    ensures NoBlankButLast(lines)
  {
    var title := Title(g);
    if !Truthy(title) then []
    else
      var l0 := ["game: " + title.value];
      var l1 := RomLines(g.roms);
      var l2 := Field("sort-by: ", g.sortBy);
      var l3 := Field("developer: ", g.developer);
      var l4 := BlockField("description", g.description);
      var l5 := BlockField("launch", g.launchBlock);
      var t5 := l5 + [""];
      var t4 := l4 + t5;
      var t3 := l3 + t4;
      var t2 := l2 + t3;
      var t1 := l1 + t2;
      NoBlankButLastConcat(l5, [""]);
      NoBlankButLastConcat(l4, t5);
      NoBlankButLastConcat(l3, t4);
      NoBlankButLastConcat(l2, t3);
      NoBlankButLastConcat(l1, t2);
      NoBlankButLastConcat(l0, t1);
      l0 + t1
  }

  /** The game blocks one after another. */
  function GamesLines(gs: seq<Game>): seq<string>
    decreases |gs|
  {
    if |gs| == 0 then [] else GameLines(gs[0]) + GamesLines(gs[1..])
  }

  /** Writing two lists of games is writing each in turn: the blocks come
      in list order. */
  lemma {:induction false} GamesLinesConcat(a: seq<Game>, b: seq<Game>)
    ensures GamesLines(a + b) == GamesLines(a) + GamesLines(b)
    decreases |a|
  {
    if |a| == 0 {
      assert a + b == b;
    } else {
      assert (a + b)[0] == a[0] && (a + b)[1..] == a[1..] + b;
      var x, y, z := GameLines(a[0]), GamesLines(a[1..]), GamesLines(b);
      assert GamesLines(a + b) == x + GamesLines(a[1..] + b);
      GamesLinesConcat(a[1..], b);
      assert x + (y + z) == (x + y) + z;
    }
  }

  /** The whole file: the header, then the games in list order. */
  function Dump(h: Header, gs: seq<Game>): (lines: seq<string>)
    ensures |HeaderLines(h)| <= |lines| && lines[..|HeaderLines(h)|] == HeaderLines(h)
    ensures gs == [] ==> lines == HeaderLines(h)
  {
    HeaderLines(h) + GamesLines(gs)
  }
}
